=== FILE: README.md ===
# FashionShop storefront and admin: a Dafny model

This project models the client-side logic of the FashionShop Next.js storefront and its admin dashboard. Every operation is a pure function over immutable data. Each one carries a contract, and lemmas relate operations to each other.

What is modelled:

- **Permission gating.**
  - The closed vocabulary of `ACTION_RESOURCE` permission codes and the MANAGE-or-specific rule (`const/permissions.ts`).
  - The token and cookie queries (`lib/auth.ts`), with the JWT decoder as a parameter.
  - The `usePermission` hook and `PermissionGuard`.
  - The dashboard sidebar's link visibility and active-link rules.
  - The role and permission action menus, the product header's Add gate and the route middleware's redirect decision.
- **Client stores.**
  - The admin, customer and checkout stores: set, clear, hydrate and `isAuthenticated`.
  - Local storage is a map from key to value; JSON serialisation is the identity.
- **Admin forms.**
  - Schemas, defaults, toggles and create/update dispatch for products, categories, sliders, permissions, roles, users, orders and customers.
  - The product form's `toSnakeCase` and SKU sanitiser.
  - The category delete's cookie lookup.
- **Storefront forms.**
  - The checkout form's address-to-shipping mapping, the address form, sign-up and change-password.
- **Cart and checkout.**
  - The cart sheet's and cart page's handlers, which produce store commands.
  - The checkout summary's validation and order payload.
  - The product page's add-to-cart and wishlist handlers.
- **Navigation state in the URL.**
  - The shop filters and their query parameters.
  - Pagination and the page-size selector.
  - The dashboard search boxes and the header search box.
- **The home page hero banner.**
  - Slide ordering, index arithmetic and alignment.

Shared modules provide the JavaScript library behaviour the components rely on:

- `Wrappers`: `Option`.
- `Text`: `trim`, `split`, `join`, `toLowerCase` on ASCII, `||` on strings.
- `Decimal`: `String(n)`, `Number(s)` and `parseInt(s, 10)` on integers.
- `QueryParams`: `URLSearchParams` as a map.
- `Selection`: `filter`, toggle and de-duplication.
- `Sorting`: string sort in code-unit order and a sort by integer key.
- `Lookup` and `Storage`.

Some behaviour lies outside this code and enters the model as a parameter:

- The external JWT decoder.
- The email check.
- The wishlist membership check. The wishlist store itself is not modelled: `ProductOptions.Apply` assumes a list that `addToWishlist` appends to.
- The permission queries the admin store does not provide, in the intended gates.
- The current time.

## Model

| member | source | states |
|---|---|---|
| Permissions.GroupCodes | const/permissions.ts:66-77 | each resource group lists the read, write, delete and manage codes of its own resource (ORDERS with UPDATE and CANCEL); ANALYTICS lists VIEW_REPORTS, VIEW_STATISTICS and MANAGE_REPORTS |
| Permissions.GroupShapes | const/permissions.ts:66-77 | every resource group has four codes including its own manage code; ANALYTICS has three and no MANAGE_ANALYTICS |
| Permissions.HasResourcePermission | const/permissions.ts:86-95 | a resource action is granted exactly when some held code is the resource's manage code or the action's own code |
| Permissions.ManageGrantsEveryAction | const/permissions.ts:91-94 | holding MANAGE_resource grants every action on that resource |
| Permissions.EmptyGrantsNothing | const/permissions.ts:94 | an empty permission list grants no resource action |
| Permissions.HasResourcePermissionMonotone | const/permissions.ts:94 | holding a superset of codes never withdraws a grant |
| Permissions.GroupCodesGrantTheirActions | const/permissions.ts:66-95 | a group's manage code grants every action of the group; its read code grants READ but not DELETE |
| Permissions.ManageReportsDoesNotGrantStatistics | const/permissions.ts:76-94 | MANAGE_REPORTS grants VIEW on REPORTS but not VIEW on STATISTICS, although both sit in the ANALYTICS group |
| Auth.DecodeFromString | lib/auth.ts:34-43 | an empty token decodes to nothing without consulting the decoder; any other token yields the decoder's result, a thrown error counting as no token |
| Auth.DecodeFromCookie | lib/auth.ts:18-28 | the cookie variant is the string variant applied to the cookie value; a missing cookie yields no token |
| Auth.HeldPermissions | lib/auth.ts:51 | a permission list is present exactly when the token decoded and carries a permissions field |
| Auth.AnyIn | lib/auth.ts:63 | some-includes holds exactly when some wanted code is held |
| Auth.AllIn | lib/auth.ts:73 | every-includes holds exactly when every wanted code is held |
| Auth.AllInIffContained | lib/auth.ts:73 | all-of is containment of the wanted codes in the held ones |
| Auth.AllInImpliesAnyIn | lib/auth.ts:63-73 | for a non-empty wanted list all-of implies any-of; over the empty list all-of holds and any-of fails |
| Auth.PermissionIn | lib/auth.ts:51-53 | membership is false without a decoded permission list, otherwise list membership |
| Auth.AnyPermissionIn | lib/auth.ts:61-63 | any-of over a decoded token is the existential over single membership queries |
| Auth.AllPermissionsIn | lib/auth.ts:71-73 | all-of over a decoded token is the universal over single membership queries, and false without a list |
| Auth.ResourceAccessIn | lib/auth.ts:94-99 | access is membership of the manage code or the specific code, i.e. the resource rule on the held list |
| Auth.HasPermissionFromToken | lib/auth.ts:79-84 | an empty token grants nothing; otherwise membership in the decoded list |
| Auth.HasAnyPermissionFromToken | lib/auth.ts:105-110 | an empty token grants nothing; otherwise any-of on the decoded list |
| Auth.HasAllPermissionsFromToken | lib/auth.ts:115-120 | an empty token grants nothing; otherwise all-of on the decoded list |
| Auth.CanAccessResource | lib/auth.ts:92-100 | the MANAGE-or-specific resource rule applied to the decoded list, false without one |
| Auth.GetPermissionsFromToken | lib/auth.ts:133-136 | a code is in the returned list exactly when the membership query holds; no list gives [] |
| Auth.HasPermission | lib/auth.ts:49-54 | the cookie query equals the token-string query on the cookie value; no cookie grants nothing |
| Auth.HasAnyPermission | lib/auth.ts:59-64 | the cookie any-of query equals its token-string counterpart; no cookie grants nothing |
| Auth.HasAllPermissions | lib/auth.ts:69-74 | the cookie all-of query equals its token-string counterpart; no cookie grants nothing |
| Auth.GetPermissions | lib/auth.ts:125-128 | the cookie permission list agrees with the membership query and with the token-string list |
| Auth.QueriesFailClosed | lib/auth.ts:79-136 | without a decodable token carrying permissions every query is false and the list is empty |
| Auth.EmptyAndNonEmptyLists | lib/auth.ts:105-120 | with a permission list present, all-of over [] holds, any-of over [] fails, and all-of implies any-of for non-empty lists |
| UsePermission.CanAccess | hooks/usePermission.ts:17-22 | resource access holds exactly when the membership query holds for some code granting the action (manage or specific) |
| UsePermission.Can | hooks/usePermission.ts:32 | `can` is the store's membership query |
| UsePermission.Cannot | hooks/usePermission.ts:36 | `cannot` is the negation of `can` for every code |
| UsePermission.CanAccessIsResourceRule | hooks/usePermission.ts:17-22 | with list membership as the query, canAccess is hasResourcePermission |
| UsePermission.CanAccessMatchesToken | hooks/usePermission.ts:17-22 | with the intended binding of the query to the admin token, canAccess agrees with canAccessResource on the cookie value |
| UsePermission.CanAccessAsWritten | hooks/usePermission.ts:9-22 | as written, canAccess always throws: `hasPermission` is not a member of the admin store, so it is `undefined` |
| UsePermission.CanAsWritten | hooks/usePermission.ts:9-32 | as written, `can` always throws, for the same reason |
| UsePermission.CannotAsWritten | hooks/usePermission.ts:9-36 | as written, `cannot` always throws before negating |
| UsePermission.CanAccessThrowsAsWritten | hooks/usePermission.ts:9-22 | where the token grants the action, the intended hook answers yes while the hook as written throws |
| PermissionGuard.HasAccess | components/auth/PermissionGuard.tsx:31-39 | a non-empty single permission decides alone; otherwise a non-empty list uses all-of when requireAll is set and any-of otherwise; with neither, access is denied |
| PermissionGuard.Render | components/auth/PermissionGuard.tsx:41-45 | the children render when access holds, otherwise the fallback |
| PermissionGuard.SinglePermissionIgnoresList | components/auth/PermissionGuard.tsx:33-34 | with a single permission, the list and requireAll do not affect the decision |
| PermissionGuard.AnyOfByDefault | components/auth/PermissionGuard.tsx:25-38 | an unset requireAll behaves as false (any-of) |
| PermissionGuard.EmptyListDenied | components/auth/PermissionGuard.tsx:26-35 | an empty list is denied even where all-of over [] would hold, and the default fallback renders nothing |
| PermissionGuard.TokenQueries | lib/auth.ts:49-74 | the intended binding of the guard's three queries: the admin-token cookie queries (the admin store declares none of them) |
| PermissionGuard.FailsClosedWithoutToken | components/auth/PermissionGuard.tsx:31-45 | without a decodable token with permissions the guard always renders its fallback |
| PermissionGuard.AccessMonotone | components/auth/PermissionGuard.tsx:31-39 | holding more permissions never closes an open gate |
| PermissionGuard.HasAccessAsWritten | components/auth/PermissionGuard.tsx:29-39 | as written, the decision throws exactly when a permission or a non-empty list is named, because the queries are not members of the admin store; it never grants, and where it returns it agrees with the intended decision |
| PermissionGuard.RenderAsWritten | components/auth/PermissionGuard.tsx:29-45 | as written, the guard throws exactly when a permission is named, and otherwise renders the fallback |
| PermissionGuard.GuardThrowsAsWritten | components/auth/PermissionGuard.tsx:29-45 | an admin whose token holds the named permission gets the children from the intended gate, while the gate as written throws |
| DashboardSidebar.HomeLink | components/dashboard/sidebar/DashboardSidebar.tsx:42-48 | Home requires no permission and is active exactly on "/dashboard" |
| DashboardSidebar.SectionLink | components/dashboard/sidebar/DashboardSidebar.tsx:49-104 | a section links to /dashboard/<slug>, is active whenever the path contains "dashboard/<slug>", and requires its MANAGE or READ code |
| DashboardSidebar.DashboardLinks | components/dashboard/sidebar/DashboardSidebar.tsx:41-105 | Home first, then one link per section in display order |
| DashboardSidebar.VisibleLinks | components/dashboard/sidebar/DashboardSidebar.tsx:108-113 | the shown links in their original order: a link without permissions always, any other when the any-of query holds |
| DashboardSidebar.HomeAlwaysVisible | components/dashboard/sidebar/DashboardSidebar.tsx:108-110 | Home is visible whatever the permissions |
| DashboardSidebar.SectionVisibleIffRead | components/dashboard/sidebar/DashboardSidebar.tsx:54-113 | with the intended binding of the any-of query to the admin token, a section is visible exactly when the resource rule grants READ on it |
| DashboardSidebar.ShownAsWritten | components/dashboard/sidebar/DashboardSidebar.tsx:39-113 | as written, a link without permissions is kept, and any other throws because `hasAnyPermission` is not a member of the admin store |
| DashboardSidebar.VisibleLinksAsWritten | components/dashboard/sidebar/DashboardSidebar.tsx:39-113 | as written, the filter throws exactly when some link carries permissions, and otherwise keeps every link |
| DashboardSidebar.AsWrittenAgreesWhenReturns | components/dashboard/sidebar/DashboardSidebar.tsx:108-113 | where the filter as written returns, its result is the intended filter's |
| DashboardSidebar.SidebarThrowsAsWritten | components/dashboard/sidebar/DashboardSidebar.tsx:39-113 | on the dashboard's own links the sidebar as written throws for every admin, while the intended filter always shows Home |
| Middleware.LoginRedirect | middleware.ts:21-39 | the redirect goes to the given login page with exactly one query parameter, "redirect", holding the requested path |
| Middleware.Decide | middleware.ts:8-44 | a dashboard-prefixed path other than "/login" without an admin token goes to "/login"; otherwise a protected-prefixed path without an auth token goes to "/sign-in"; every other request passes |
| Middleware.RoutesDisjoint | middleware.ts:5-6 | no path starts with both a dashboard route and a protected route |
| Middleware.AdminTokenSuffices | middleware.ts:15-25 | on a dashboard route a non-empty admin token lets the request through, whatever the auth cookie |
| Middleware.OnlyPresenceMatters | middleware.ts:19-34 | only the presence of non-empty tokens matters, never their values |
| Middleware.UnguardedPathsPass | middleware.ts:12-43 | a path outside both route lists always passes |
| Middleware.RawPrefixExamples | middleware.ts:12-28 | the prefix test is a raw string prefix: "/cartoon" and "/dashboardx" are guarded, "/dashboard/login" is guarded, "/login" passes |
| Middleware.Admit | middleware.ts:47-57 | a path outside the matcher is never intercepted; a matched path gets the middleware's decision |
| Middleware.EntryPrefix | middleware.ts:49-55 | a path matched by a matcher entry starts with the entry's base path |
| Middleware.DiffersAt | middleware.ts:49-55 | a path that differs from an entry's base within their common length is not matched by it |
| Middleware.ExtendsWithoutSlash | middleware.ts:49-55 | a path continuing an entry's base without a "/" is not matched by the sub-path pattern |
| Middleware.MatcherCoversGuardedRoutes | middleware.ts:5-57 | every matched path other than "/login" is a guarded route; "/cartoon" and "/dashboardx" are not intercepted at all |
| ActionMenus.MenuFor | components/dashboard/role/RoleActions.tsx:51-72 | "No actions available" exactly when neither action is allowed; otherwise Edit appears exactly when editing is allowed and Delete exactly when deleting is, each at most once and Edit first |
| Decimal.IdPath | components/dashboard/role/RoleActions.tsx:55 | an Edit target is the section's path followed by a numeral that reads back as the row's id: "/dashboard/roles/" for roles here, "/dashboard/permissions/" for permissions (PermissionActions.tsx, same line) |
| ActionMenus.RoleMenu | components/dashboard/role/RoleActions.tsx:25-72 | Edit appears exactly when MANAGE_ROLES or WRITE_ROLES is held, Delete exactly when MANAGE_ROLES or DELETE_ROLES is held, and the placeholder when neither |
| ActionMenus.PermissionMenu | components/dashboard/permission/PermissionActions.tsx:25-72 | the same rule over the PERMISSIONS codes |
| ActionMenus.HandleDelete | components/dashboard/role/RoleActions.tsx:28-34 | the delete request carries the row's id and is sent exactly when the confirmation is accepted |
| CategoryActions.GetCookie | components/dashboard/category/CategoryActions.tsx:18-23 | the result never contains ';'; it is "" when "; name=" does not occur in "; " + document.cookie; a non-empty result is the text after the only occurrence up to the next ';'; and for a name without ';', whenever the text splits around exactly one "; name=", the result is the part after it up to the first ';' |
| CategoryActions.LoneCookieFound | components/dashboard/category/CategoryActions.tsx:18-23 | a cookie string holding just "name=v" gives v up to its first ';' |
| CategoryActions.LaterCookieFound | components/dashboard/category/CategoryActions.tsx:18-23 | the cookie "name=v" after other cookies gives v up to its first ';' when "; name=" occurs nowhere else |
| CategoryActions.SemicolonNameSplitsTwice | components/dashboard/category/CategoryActions.tsx:19-22 | with a ';' in the name one cookie string can split around a single separator in two ways whose tails give different values, so the found value is promised only for names without ';' |
| CategoryActions.FoundOnlyAtCookieStart | components/dashboard/category/CategoryActions.tsx:18-23 | a non-empty result comes from a cookie really named `name`: the cookie string starts with "name=" or contains "; name=" |
| CategoryActions.LongerNameDoesNotMatch | components/dashboard/category/CategoryActions.tsx:19-20 | a lone cookie whose name merely ends with `name` is not read as `name` |
| CategoryActions.TwiceGivesEmpty | components/dashboard/category/CategoryActions.tsx:21-22 | a name that occurs twice splits into more than two parts and gives "" |
| CategoryActions.DeleteUrl | components/dashboard/category/CategoryActions.tsx:25 | the delete URL is the API base, "/admin/categories/", then a numeral that reads back as the category id |
| AdminAuthStore.Initial | store/adminAuthStore.ts:19-20 | a fresh store holds no admin user and leaves storage and cookies as they are |
| AdminAuthStore.SetAdminUser | store/adminAuthStore.ts:22-31 | the state holds the given user, local storage holds it under "admin_user" (removed for null), nothing else in storage changes, and cookies are untouched |
| AdminAuthStore.ClearAdminUser | store/adminAuthStore.ts:33-39 | no user, "admin_user" removed from storage and "admin_token" removed from the cookies, everything else unchanged |
| AdminAuthStore.Hydrate | store/adminAuthStore.ts:41-49 | a stored user is loaded into the state; without one the state is unchanged |
| AdminAuthStore.IsAuthenticated | store/adminAuthStore.ts:51-55 | authenticated exactly when a non-empty "admin_token" cookie and a user are both present |
| AdminAuthStore.ClearLogsOut | store/adminAuthStore.ts:33-55 | after clearing, the store is never authenticated |
| AdminAuthStore.SetNullKeepsCookie | store/adminAuthStore.ts:22-31 | setting a null user logs out but, unlike clearing, keeps the token cookie |
| AdminAuthStore.SetThenHydrate | store/adminAuthStore.ts:22-49 | a user set before a reload is restored by hydration from storage |
| AdminAuthStore.HydrateIdempotent | store/adminAuthStore.ts:41-49 | hydrating twice is hydrating once |
| AdminAuthStore.CallMember | store/adminAuthStore.ts:11-17 | calling a name read from the store throws exactly when the store's state does not declare it, and otherwise gives the member's answer |
| AuthStore.Initial | store/authStore.ts:14-15 | a fresh store holds no user |
| AuthStore.SetUser | store/authStore.ts:16-25 | the state holds the given user and storage holds it under "auth_user" (removed for null), nothing else in storage changes |
| AuthStore.ClearUser | store/authStore.ts:26-29 | no user and "auth_user" removed, everything else unchanged |
| AuthStore.Hydrate | store/authStore.ts:30-38 | a stored user is loaded; without one the state is unchanged |
| AuthStore.ClearIsSetNull | store/authStore.ts:16-29 | clearing is the same as setting a null user |
| AuthStore.SetThenHydrate | store/authStore.ts:16-38 | a user set before a reload is restored by hydration |
| CheckoutStore.Initial | store/checkoutStore.ts:13-14 | a fresh store holds no shipping address |
| CheckoutStore.SetShippingAddress | store/checkoutStore.ts:16-23 | the state and storage key "shipping-address" hold the address, nothing else in storage changes |
| CheckoutStore.ClearShippingAddress | store/checkoutStore.ts:25-32 | no address and the storage key removed, nothing else changes |
| CheckoutStore.Hydrate | store/checkoutStore.ts:34-44 | a stored address is loaded; without one the state is unchanged |
| CheckoutStore.RoundTrips | store/checkoutStore.ts:16-44 | a saved address is restored by hydration after a reload, and a cleared one is not |
| ProductHeader.InitialKeyword | components/dashboard/product/ProductHeader.tsx:12 | the search box starts with the "keyword" parameter, or "" when there is none |
| ProductHeader.HandleSearch | components/dashboard/product/ProductHeader.tsx:15-25 | a non-empty keyword is set and an empty one removed, "page" becomes "1", the path is kept and every other parameter is unchanged |
| ProductHeader.SearchKeywordRoundTrip | components/dashboard/product/ProductHeader.tsx:12-25 | the page a search leads to shows the searched keyword in its box |
| ProductHeader.SearchIdempotent | components/dashboard/product/ProductHeader.tsx:15-25 | repeating a search on its own result changes nothing |
| ProductHeader.AddProductVisible | components/dashboard/product/ProductHeader.tsx:45 | the Add Product link shows exactly when MANAGE_PRODUCTS or WRITE_PRODUCTS is held |
| CategoryForm.Prefill | components/dashboard/forms/CategoryForm.tsx:33-40 | in update mode with a category, name, slug and isActive are copied and a missing description becomes ""; otherwise the state is unchanged; the chosen image is never touched |
| CategoryForm.IdText | components/dashboard/forms/CategoryForm.tsx:66 | the id in the update URL reads back as the category's id, and is "undefined" without a category |
| CategoryForm.BuildRequest | components/dashboard/forms/CategoryForm.tsx:48-68 | POST to /admin/categories exactly when adding, otherwise PUT to /admin/categories/<id>; the data part carries all four fields; the image part is sent exactly when a file was chosen |
| CategoryForm.UnchangedUpdateResendsCategory | components/dashboard/forms/CategoryForm.tsx:33-68 | saving an opened category without edits PUTs its own fields, description defaulted, to its own id |
| PermissionForm.Defaults | components/dashboard/permission/PermissionForm.tsx:37 | the defaults are the edited permission's name and description, else blank |
| PermissionForm.Submit | components/dashboard/permission/PermissionForm.tsx:15-50 | a save happens exactly when the name has at least 3 and the description at least 5 characters; it is an update of the edited permission's id when there is one, else a create, carrying the form data |
| PermissionForm.BlankFormRejected | components/dashboard/permission/PermissionForm.tsx:15-37 | a blank new form is never submitted |
| PermissionForm.UnchangedEditResends | components/dashboard/permission/PermissionForm.tsx:37-45 | saving a valid permission without edits updates it with its own fields |
| SliderForm.Defaults | components/dashboard/forms/SliderForm.tsx:32-41 | the defaults are the edited slider as it is (its display order as a number input, none when it has none), or the blank slide (empty texts, centred, active, order 0) |
| SliderForm.Submit | components/dashboard/forms/SliderForm.tsx:11-52 | a save happens exactly when title and image URL are non-empty, the alignment, if any, is left, center or right, and the display order, if any, is a number; a cleared order input (NaN) never saves; it updates the edited slider's id or creates |
| SliderForm.BlankDefaultsRejected | components/dashboard/forms/SliderForm.tsx:11-41 | the blank slide's alignment is allowed but its empty title and image URL are not |
| SliderForm.FilledDefaultsCreate | components/dashboard/forms/SliderForm.tsx:32-52 | filling a non-empty title and image URL into the blank slide creates it |
| RoleForm.InitialSelection | components/dashboard/role/RoleForm.tsx:35-37 | the initial selection is the ids of the role's permissions in order, or [] without a role or permission list |
| RoleForm.Defaults | components/dashboard/role/RoleForm.tsx:46-50 | the defaults are the role's name and description (blank without a role) and the initial selection |
| RoleForm.InitialSelectionIsRolePermissions | components/dashboard/role/RoleForm.tsx:36-49 | an id is selected initially exactly when the role holds a permission with that id |
| RoleForm.TogglePermission | components/dashboard/role/RoleForm.tsx:65-72 | the toggled id flips its membership and every other id keeps its membership; an absent id is appended at the end, a present one is removed leaving a shorter ordered sublist; the name and description are untouched |
| RoleForm.ToggleTwiceRestores | components/dashboard/role/RoleForm.tsx:65-72 | toggling the same id twice restores which ids are selected |
| RoleForm.Submit | components/dashboard/role/RoleForm.tsx:74-84 | a save happens exactly when the name has at least 3 characters, the description at least 5 and at least one permission is selected; it updates the edited role's id, else creates |
| RoleForm.AfterSave | components/dashboard/role/RoleForm.tsx:86-91 | the form navigates to "/dashboard/roles" exactly when no success callback was given |
| RoleForm.DeselectingLastPermission | components/dashboard/role/RoleForm.tsx:21-72 | deselecting the only selected permission makes the form unsubmittable |
| UserForm.Initial | components/dashboard/user/UserForm.tsx:26-34 | the form starts with the user's email, name, phone and roles, falsy values becoming "" and [], isActive defaulting to true, and an empty password |
| UserForm.ToggleRole | components/dashboard/user/UserForm.tsx:59-65 | the toggled role flips its membership and others keep theirs; an absent role is appended at the end, a present one is removed leaving a shorter ordered sublist; the fields are untouched |
| UserForm.RolesChanged | components/dashboard/user/UserForm.tsx:126-127 | comparing the sorted lists reports a change exactly when the two role lists differ as multisets |
| UserForm.Submit | components/dashboard/user/UserForm.tsx:67-134 | creating needs email, password and full name, then a role, and sends exactly the form's email, password, full name, phone, status and selected roles; editing needs the user, sends the form's full name, phone and status, the password only when typed, and the roles, sorted, exactly when they changed as a multiset |
| UserForm.ReorderedRolesNotSent | components/dashboard/user/UserForm.tsx:126-134 | reordering the selected roles alone never sends a role update |
| UserForm.ToggleOnOffSendsNoRoles | components/dashboard/user/UserForm.tsx:59-65 | toggling a role on and off again before saving sends no role update |
| CreateUserForm.ToggleRole | components/dashboard/user/CreateUserForm.tsx:77-82 | the toggled role flips its membership and others keep theirs; an absent role is appended at the end, a present one is removed leaving a shorter ordered sublist; every other field is untouched |
| CreateUserForm.Submit | components/dashboard/user/CreateUserForm.tsx:84-92 | the data is submitted, unchanged, exactly when the full name has at least 3 characters, the email passes the email check, the password has at least 6 characters and a role is selected |
| CreateUserForm.DefaultsRejected | components/dashboard/user/CreateUserForm.tsx:45-52 | the blank defaults are never submitted, whatever the email check says |
| CreateUserForm.FirstRoleEnables | components/dashboard/user/CreateUserForm.tsx:22-82 | picking a first role on an otherwise valid form makes it submittable |
| UpdateOrderForm.FieldOf | components/dashboard/order/UpdateOrderForm.tsx:22-28 | a shipping field is the order's value, or "" when the address or the field is missing |
| UpdateOrderForm.LineOf | components/dashboard/order/UpdateOrderForm.tsx:33-38 | a line keeps the item's quantity; a missing or zero id becomes 0, a missing unit price 0 and a missing or empty product name "" |
| UpdateOrderForm.Initial | components/dashboard/order/UpdateOrderForm.tsx:21-39 | one line per order item, in order; a missing address gives all-empty shipping fields, and a present one gives each of its seven fields, "" where that field is missing or empty |
| UpdateOrderForm.ChangeShipping | components/dashboard/order/UpdateOrderForm.tsx:41-43 | the named shipping field takes the value; every other field and every line stay as they were |
| UpdateOrderForm.EditOneShippingField | components/dashboard/order/UpdateOrderForm.tsx:41-63 | editing one shipping field and saving sends the order's address with only that field replaced and its lines untouched |
| UpdateOrderForm.ChangeQuantity | components/dashboard/order/UpdateOrderForm.tsx:45-49 | only line `index` gets the new quantity; the length, the other lines and the address are unchanged, and an out-of-range index changes nothing |
| UpdateOrderForm.QuantityFromInput | components/dashboard/order/UpdateOrderForm.tsx:181 | input without a leading integer, or reading as 0, gives 1; otherwise the parsed integer; the result is never 0 |
| UpdateOrderForm.QuantityOfNumeral | components/dashboard/order/UpdateOrderForm.tsx:181 | typing a non-zero quantity's decimal numeral gives that quantity back |
| UpdateOrderForm.BuildPayload | components/dashboard/order/UpdateOrderForm.tsx:57-63 | the payload carries the edited address and one (itemId, quantity) per line, in order |
| UpdateOrderForm.EditOneQuantity | components/dashboard/order/UpdateOrderForm.tsx:45-63 | changing one quantity and saving sends the order's lines with only that quantity changed |
| UpdateCustomerForm.Initial | components/dashboard/customer/UpdateCustomerForm.tsx:19-24 | the form starts with the customer's name and status, a missing phone as "", and an empty password |
| UpdateCustomerForm.HandleChange | components/dashboard/customer/UpdateCustomerForm.tsx:26-32 | the named text field takes the input's value and the status is untouched |
| UpdateCustomerForm.OnCheckedChange | components/dashboard/customer/UpdateCustomerForm.tsx:118-127 | the status becomes active exactly when the checkbox reports `true` (an indeterminate box counts as inactive); the text fields are untouched |
| UpdateCustomerForm.BuildPayload | components/dashboard/customer/UpdateCustomerForm.tsx:39-48 | the payload always carries name, phone and status and never an email; the password exactly when non-empty |
| UpdateCustomerForm.PasswordOnlyWhenTyped | components/dashboard/customer/UpdateCustomerForm.tsx:22-48 | saving without typing a password sends none; typing one sends it |
| UpdateCustomerForm.ChangeIsLocal | components/dashboard/customer/UpdateCustomerForm.tsx:28-31 | changing one text field leaves the others as they were |
| UpdateCustomerForm.CheckedChangeCommutes | components/dashboard/customer/UpdateCustomerForm.tsx:26-127 | toggling the status and editing a text field commute |
| SnakeCase.ReplaceNonAlnumRuns | components/dashboard/forms/ProductForm.tsx:123 | replacing every run of characters outside [a-z0-9] by one '_' leaves only [a-z0-9_] with no "__" and never lengthens the text; a leading alphanumeric is kept and a leading run becomes '_' |
| SnakeCase.ReplaceKeepsWords | components/dashboard/forms/ProductForm.tsx:123 | the replacement keeps the maximal [a-z0-9] runs of the text, each one whole and in order |
| SnakeCase.DropLeadingUnderscores | components/dashboard/forms/ProductForm.tsx:124 | the result is a suffix of the input with no leading '_', everything cut off is '_', and the input comes back unchanged when it had no leading '_' |
| SnakeCase.DropLeadingKeeps | components/dashboard/forms/ProductForm.tsx:124 | dropping the leading '_' keeps the [a-z0-9] runs and every other character, in order |
| SnakeCase.DropTrailingUnderscores | components/dashboard/forms/ProductForm.tsx:124 | the result is a prefix of the input with no trailing '_', everything cut off is '_', and the input comes back unchanged when it had no trailing '_' |
| SnakeCase.TrimUnderscores | components/dashboard/forms/ProductForm.tsx:124 | the result is a slice s[i..j] of the input with only '_' before i and after j and none left at either end; it keeps the [a-z0-9] runs, the SKU characters and the absence of "__" |
| SnakeCase.CollapseUnderscores | components/dashboard/forms/ProductForm.tsx:125 | no "__" is left, the first character is kept (a leading '_' stays one '_'), and the empty text stays empty |
| SnakeCase.CollapseKeeps | components/dashboard/forms/ProductForm.tsx:125 | collapsing keeps the [a-z0-9] runs and every character other than '_', in order |
| SnakeCase.ToSnakeCase | components/dashboard/forms/ProductForm.tsx:120-125 | the result is exactly the lower-cased text's maximal [a-z0-9] runs, in order, joined by single '_'; so it contains only [a-z0-9_], with no '_' at either end and no "__" |
| SnakeCase.CleanIsJoinedWords | components/dashboard/forms/ProductForm.tsx:120-125 | a clean text is its own [a-z0-9] runs joined by '_', so a snake case is determined by its runs |
| SnakeCase.WordThenRest | components/dashboard/forms/ProductForm.tsx:123 | a run of [a-z0-9] followed by a text starting with any other character is a whole run of the two texts together |
| SnakeCase.BlueShirtExample | components/dashboard/forms/ProductForm.tsx:120-130 | the name "Blue Shirt" gives the SKU "blue_shirt" |
| SnakeCase.CleanIsFixed | components/dashboard/forms/ProductForm.tsx:120-125 | a text that is already clean is its own snake case |
| SnakeCase.ToSnakeCaseIdempotent | components/dashboard/forms/ProductForm.tsx:120-125 | snake-casing twice is snake-casing once |
| SnakeCase.CleanIffPattern | components/dashboard/forms/ProductForm.tsx:20 | a text matches ^[a-z0-9]+(?:_[a-z0-9]+)*$ exactly when it is non-empty and clean |
| SnakeCase.SnakeCaseMatchesPattern | components/dashboard/forms/ProductForm.tsx:120-125 | every non-empty snake-cased text matches the SKU pattern |
| ProductForm.SanitizeSku | components/dashboard/forms/ProductForm.tsx:336-341 | typing into the SKU field stores the snake-cased text, and marks the SKU as hand-edited exactly when that text passes the SKU pattern; nothing else changes |
| ProductForm.AutoSku | components/dashboard/forms/ProductForm.tsx:128-133 | until the SKU is hand-edited it follows the snake-cased name, and a non-empty generated SKU passes the pattern; afterwards nothing changes |
| ProductForm.AddCategory | components/dashboard/forms/ProductForm.tsx:217-222 | an empty or already selected value changes nothing; any other value is appended and the input box cleared; the selection stays free of duplicates |
| ProductForm.RemoveCategory | components/dashboard/forms/ProductForm.tsx:223-225 | every copy of the value goes, the rest keep their order, and nothing else changes |
| ProductForm.AddColor | components/dashboard/forms/ProductForm.tsx:226-233 | like AddCategory for colours, and a newly added colour gets an empty image list, so the images keys keep matching the colours |
| ProductForm.RemoveColor | components/dashboard/forms/ProductForm.tsx:234-239 | the colour and exactly its images key go; other colours and image lists are unchanged |
| ProductForm.ImagesChange | components/dashboard/forms/ProductForm.tsx:241-245 | no file list changes nothing; otherwise that colour's image list is replaced |
| ProductForm.AddThenRemoveColor | components/dashboard/forms/ProductForm.tsx:226-239 | adding a new colour and removing it again restores the colours, and the images without that key |
| ProductForm.Suggestions | components/dashboard/forms/ProductForm.tsx:199-212 | an option is suggested exactly when it is unselected and its lower-cased text contains the lower-cased input, in option order |
| ProductForm.EmptyInputSuggestsAll | components/dashboard/forms/ProductForm.tsx:199-212 | with an empty input every unselected option is suggested |
| ProductForm.CategoryOptions | components/dashboard/forms/ProductForm.tsx:106 | the options are the distinct non-empty names of the loaded categories |
| ProductForm.CommaList | components/dashboard/forms/ProductForm.tsx:163-189 | the pieces of a comma-separated text, trimmed, with empty pieces dropped |
| ProductForm.EntryNames | components/dashboard/forms/ProductForm.tsx:168-170 | the names of the entries with empty ones dropped, in entry order: exactly the mapped list filtered by truthiness, so a name is listed exactly when it is non-empty and some entry has it |
| ProductForm.PrefillColorList | components/dashboard/forms/ProductForm.tsx:158-171 | an array colour field is taken as it is, a string one as its comma list; otherwise the names of the `colors` array when there is one, and no colours when there is none |
| ProductForm.PrefillCategoryList | components/dashboard/forms/ProductForm.tsx:174-190 | a `categories` array gives the names of its entries; else, with ids and loaded categories, exactly the names of the listed ids that are loaded; else the comma list in `category`; and no names when all three are absent |
| Selection.Dedup | components/dashboard/forms/ProductForm.tsx:172 | `Array.from(new Set(xs))` has no duplicates, holds exactly the values of xs and keeps their relative order |
| Selection.DedupFirstOccurrenceOrder | components/dashboard/forms/ProductForm.tsx:172 | the values are listed in the order of their first occurrences in xs |
| ProductForm.ById | components/dashboard/forms/ProductForm.tsx:181 | the id-to-name map has exactly the loaded ids |
| ProductForm.NameToId | components/dashboard/forms/ProductForm.tsx:252 | the name-to-id map has exactly the loaded names, the last category with a name winning |
| ProductForm.PreSku | components/dashboard/forms/ProductForm.tsx:194 | a non-empty product SKU is kept, otherwise the snake case of the name (clean by construction) |
| ProductForm.KeepOr | components/dashboard/forms/ProductForm.tsx:140-146 | a text field is overwritten only by a non-empty value |
| ProductForm.PriceText | components/dashboard/forms/ProductForm.tsx:141-142 | a numeric price is written as a numeral that reads back as the price, a string price is kept, a missing one becomes "" |
| ProductForm.Prefill | components/dashboard/forms/ProductForm.tsx:136-197 | name, brand and description are overwritten only by non-empty values and aboutItem only by a non-empty one; stock prefers stockQuantity over stockItems; a non-empty colour or category list replaces the selection, de-duplicated, with exactly the names read; the SKU is PreSku and marked hand-edited; images and input boxes are untouched |
| ProductForm.ListInput | components/dashboard/forms/ProductForm.tsx:172 | a non-empty list read replaces the selection by a duplicate-free list, in the order read, holding exactly the names read; an empty one keeps the selection |
| ProductForm.NewColorBlocksSubmit | components/dashboard/forms/ProductForm.tsx:226-233 | a freshly added colour has no image yet, so the form fails the schema |
| ProductForm.GeneratedSkuAccepted | components/dashboard/forms/ProductForm.tsx:120-130 | a SKU generated from a name passes the schema's pattern exactly when it is non-empty |
| ProductForm.Submit | components/dashboard/forms/ProductForm.tsx:247-276 | for valid data: name, SKU, brand and description as entered, price as Number gives it, stock the number entered (at least 0), discount in 0..100 (0 when unset), colours joined by "," and split back when comma-free, category ids those of the selected names that were loaded in the order of the names, aboutItem defaulting to "", isActive true |
| ProductForm.CategoryIds | components/dashboard/forms/ProductForm.tsx:251-255 | the ids of the selected names that the loaded categories know, in the order of the names; every name's id, position by position, when all are known |
| Lookup.KnownInOrder | components/dashboard/forms/ProductForm.tsx:253-255 | mapping names through the map and dropping the undefined results equals keeping the known names and then mapping them, so the ids keep the order of their names |
| ProductForm.ImagesFlat | components/dashboard/forms/ProductForm.tsx:257-260 | the flattened files are exactly the files of the listed colours that have any; no listed colour with files gives no files |
| ProductForm.ImagesFlatAppend | components/dashboard/forms/ProductForm.tsx:257-260 | flattening follows the key order: the keys of one list then another flatten to the first's files followed by the second's |
| ProductForm.ImagesFlatSingle | components/dashboard/forms/ProductForm.tsx:257-260 | a single colour flattens to exactly its own files in their order, and a colour without an entry to nothing |
| ProductForm.ValidFormSendsImages | components/dashboard/forms/ProductForm.tsx:257-260 | a form that passes the schema sends at least one file |
| ProductForm.ColorCsvRoundTrip | components/dashboard/forms/ProductForm.tsx:249 | joining comma-free colours with "," and splitting on "," gives them back |
| ProductForm.SubmittedColorsPrefillBack | components/dashboard/forms/ProductForm.tsx:163-172 | colours written on submit are read back unchanged by the prefill when they are distinct, non-empty, trimmed and comma-free |
| ProductForm.Dispatch | components/dashboard/forms/ProductForm.tsx:280-285 | adding always creates; updating sends the update exactly when a product id is given, and fails before any request without one |
| CheckoutForm.NameParts | components/forms/CheckoutForm.tsx:65-66 | the first piece of the split on " " contains no space; without a space it is the whole name and the rest is ""; with one, first + " " + rest rebuilds the name |
| CheckoutForm.SplitNameAsWritten | components/forms/CheckoutForm.tsx:65-69 | the last name is the rest after the first space; the first name is the first piece, or the whole full name when that piece is empty |
| CheckoutForm.LeadingSpaceDuplicatesName | components/forms/CheckoutForm.tsx:65-69 | with a leading space, " Smith" becomes first name " Smith" and last name "Smith", which do not rejoin to the full name |
| CheckoutForm.SplitName | components/forms/CheckoutForm.tsx:65-66 | the corrected split: a first name without spaces, and the whole name as first name when there is no space |
| CheckoutForm.SplitNameRejoins | components/forms/CheckoutForm.tsx:65-66 | for a name with a space, first + " " + last rebuilds the full name exactly |
| CheckoutForm.SplitsAgreeWithoutLeadingSpace | components/forms/CheckoutForm.tsx:65-69 | the written and corrected splits agree on every name that does not start with a space |
| CheckoutForm.JoinLines | components/forms/CheckoutForm.tsx:67 | the non-empty address lines joined with ", ": both, either one alone, or "" |
| CheckoutForm.ToShipping | components/forms/CheckoutForm.tsx:143-154 | a saved address becomes a shipping address with the name split as written (the first piece, or the whole name when that piece is empty, then the rest); that split is the corrected one for names not starting with a space, and a name without a space is all first name; the non-empty lines joined; its phone, city, postal code and country |
| CheckoutForm.ToShippingRejoins | components/forms/CheckoutForm.tsx:143-148 | for a name with a space that does not start with one, the mapped first name has no space and first + " " + last is the full name |
| CheckoutForm.DefaultAddress | components/forms/CheckoutForm.tsx:61 | the first address marked default, and none exactly when no address is |
| CheckoutForm.FindById | components/forms/CheckoutForm.tsx:141 | the first address whose id's decimal text equals the value: it is in the list, every earlier address has another id, and none is found exactly when no id's text matches |
| CheckoutForm.OnAddressesLoaded | components/forms/CheckoutForm.tsx:58-78 | with a default address the first one's id, as `String(id)`, is selected (and reads back as that id) and it becomes the shipping address (stored as the checkout store stores it); otherwise nothing changes |
| CheckoutForm.SelectAddress | components/forms/CheckoutForm.tsx:139-157 | the chosen value is always recorded; the shipping address changes, to the first saved address with that id, only when one has it, and is stored as the checkout store stores it |
| CheckoutForm.SelectOwnId | components/forms/CheckoutForm.tsx:139-154 | with distinct ids, choosing an address's own id makes that address the shipping address |
| CheckoutForm.IntToStringInjective | components/forms/CheckoutForm.tsx:141 | different ids never have the same decimal text, so the lookup by text is unambiguous |
| CheckoutForm.NewAddressPayload | components/forms/CheckoutForm.tsx:100-110 | the new address carries the trimmed "first last" name, the form's line, city, postal code, country and phone, missing optional fields as "", and is not default |
| CheckoutForm.CreatedToShipping | components/forms/CheckoutForm.tsx:116-127 | the created address's name parts, each falling back to the form's value when empty, its joined lines, and its phone, city, postal code and country |
| CheckoutForm.NewAddressNameRoundTrip | components/forms/CheckoutForm.tsx:100-127 | for valid single-word, untrimmed-free names, the address created from the form yields the form's first and last name again |
| CheckoutForm.SaveShipping | components/forms/CheckoutForm.tsx:132-134 | without the new-address form, the validated data becomes the shipping address as it is |
| AddressForm.Initial | components/forms/AddressForm.tsx:20-30 | a new address starts blank and not default; an edited one starts with its own fields, a missing second line as "" |
| AddressForm.HandleChange | components/forms/AddressForm.tsx:32-38 | the named field takes the value; every other field and the default flag stay as they were |
| AddressForm.SetDefault | components/forms/AddressForm.tsx:170-175 | the default flag is set exactly when the checkbox reports `true` (an indeterminate state clears it); the text fields are untouched |
| AddressForm.ChangesCommute | components/forms/AddressForm.tsx:32-38 | edits to two different fields can be made in either order |
| AddressForm.Submit | components/forms/AddressForm.tsx:40-53 | creating sends the fields; editing updates the address's own id with the fields, and sends nothing without an address; the page then goes to "/my-account" |
| AddressForm.UntouchedEditResends | components/forms/AddressForm.tsx:20-49 | saving an opened address without edits updates it with its own fields |
| SignUpForm.Issues | components/forms/SignUpForm.tsx:18-32 | one issue per rule: full name under 2, phone under 5, an email the email check rejects, password under 6, and on confirmPassword either length under 6 or a mismatch with the password |
| SignUpForm.SubmitsIff | components/forms/SignUpForm.tsx:18-32 | the form submits exactly when every length rule holds, the email is accepted and the two passwords agree |
| SignUpForm.MismatchOnConfirm | components/forms/SignUpForm.tsx:24-31 | a password mismatch is reported on confirmPassword even when other fields also fail |
| SignUpForm.PayloadOf | components/forms/SignUpForm.tsx:53-58 | the payload carries exactly the email, password, full name and phone, and no confirmation |
| SignUpForm.TokenOf | components/forms/SignUpForm.tsx:60 | a non-empty `token` wins, else a non-empty `accessToken`, else there is no token |
| SignUpForm.UserOf | components/forms/SignUpForm.tsx:65 | the response's user when present, else one built from the payload with no roles, active, created now |
| SignUpForm.OnRegistered | components/forms/SignUpForm.tsx:45-68 | the "auth_token" cookie is written exactly when there is a token and no other cookie changes; the store holds the user; the page goes to the redirect parameter when non-empty, else "/my-account" |
| SignUpForm.EmptyTokenFallsBack | components/forms/SignUpForm.tsx:60 | an empty `token` does not hide a present `accessToken` |
| ChangePasswordForm.Submit | components/account/ChangePasswordForm.tsx:27-44 | a new password under 6 characters is rejected first, then a mismatching confirmation; otherwise the change is requested with an empty current password |
| ChangePasswordForm.ChangeIff | components/account/ChangePasswordForm.tsx:31-44 | the change is requested exactly when the new password has at least 6 characters and matches its confirmation |
| ChangePasswordForm.AfterCall | components/account/ChangePasswordForm.tsx:44-53 | a successful change clears both fields; a failed one keeps them |
| ChangePasswordForm.ClearedFormRejected | components/account/ChangePasswordForm.tsx:31-51 | submitting again right after a success is rejected as too short |
| CartCommands.IndexOf | components/carts/CartItemsDetails.tsx:56-58 | the position of the first occurrence, or -1 exactly when the value does not occur |
| CartCommands.FirstImage | components/carts/Cart.tsx:32 | the first image path, or "" when the item has no images |
| CartSheet.Increment | components/carts/Cart.tsx:35-38 | the quantity update for the item's id is one more than its quantity, without a colour |
| CartSheet.Decrement | components/carts/Cart.tsx:40-49 | a quantity of 1 or less removes the item by id; otherwise the quantity goes down by one and stays at least 1 |
| CartSheet.Remove | components/carts/Cart.tsx:30-33 | the item is removed by id alone |
| CartSheet.IncrementUndoesDecrement | components/carts/Cart.tsx:35-49 | above quantity 1, incrementing after decrementing restores the quantity |
| CartSheet.Badge | components/carts/Cart.tsx:55-74 | the badge shows 0 before mounting and the store's item total afterwards |
| CartSheet.Title | components/carts/Cart.tsx:99 | the shown name is a prefix of the item's name: the whole name when it has at most 100 characters, otherwise exactly its first 100 |
| CartDetails.LineImage | components/carts/CartItemsDetails.tsx:50-75 | with a selected colour, the image at the colour's position (the first image when the colour is not listed), with a position past the end or an empty path giving the placeholder; without one, the first image; no images gives the placeholder |
| CartDetails.Increment | components/carts/CartItemsDetails.tsx:136-139 | the quantity update for the item's id and selected colour is one more than its quantity |
| CartDetails.Decrement | components/carts/CartItemsDetails.tsx:118-129 | a quantity of 1 or less removes the line by id and colour; otherwise the quantity goes down by one for that id and colour |
| CartDetails.Remove | components/carts/CartItemsDetails.tsx:148-149 | the line is removed by id and selected colour |
| CartDetails.KeyedByColour | components/carts/CartItemsDetails.tsx:118-149 | two lines of the same product in different colours never receive the same command |
| CartDetails.OffersClear | components/carts/CartItemsDetails.tsx:158 | the Clear Cart button is offered exactly when the cart has a line |
| CartDetails.Title | components/carts/CartItemsDetails.tsx:106 | the shown name is a prefix of the item's name: the whole name when it has at most 30 characters, otherwise exactly its first 30 |
| OrderSummary.ValidateCheckout | components/carts/OrderSummaryForCheckout.tsx:38-50 | a missing shipping address is reported first, then an empty cart; the checkout passes exactly when there is an address and a line |
| OrderSummary.ItemColor | components/carts/OrderSummaryForCheckout.tsx:59 | the selected colour when non-empty, else the product's first colour, else "" |
| OrderSummary.ItemImage | components/carts/OrderSummaryForCheckout.tsx:62-69 | the image at the selected colour's position when that position is within the images, else the first image; no images gives none |
| OrderSummary.ItemProductId | components/carts/OrderSummaryForCheckout.tsx:72 | the product id when set and non-zero, else the line id |
| OrderSummary.ItemOf | components/carts/OrderSummaryForCheckout.tsx:57-79 | an order item carries the line's quantity, price and name with its product id, colour and image by the rules above |
| OrderSummary.CreateOrderPayload | components/carts/OrderSummaryForCheckout.tsx:52-86 | no payload without an address; otherwise one item per cart line in order, the store's totals, an empty coupon dropped and the payment method passed on |
| OrderSummary.ValidatedHasPayload | components/carts/OrderSummaryForCheckout.tsx:38-86 | a checkout that passes validation always has a payload with at least one item |
| OrderSummary.ImageRulesCompared | components/carts/OrderSummaryForCheckout.tsx:62-69 | the order's image and the cart page's image agree when the colour's position is a valid image; past the end of the images the cart page shows the placeholder while the order sends the first image |
| ProductOptions.ToastImage | components/product/ProductOptions.tsx:38-43 | the toast image is the product's first image, or "" without one |
| ProductOptions.AddToCart | components/product/ProductOptions.tsx:33-40 | one of the product goes to the cart in its first colour ("" without colours), followed by the added-to-cart toast |
| ProductOptions.AddToWishListAsWritten | components/product/ProductOptions.tsx:42-50 | the product is added exactly when it is not yet in the wishlist, but the toast says "added" when it was already there and "already exists" when it was just added |
| ProductOptions.WishlistToastsSwapped | components/product/ProductOptions.tsx:44-49 | as written, a product already in the wishlist gets the "added" toast without being added, and a new one gets "already exists" while being added |
| ProductOptions.AddToWishList | components/product/ProductOptions.tsx:42-50 | the corrected handler: added exactly when absent, with the product's image and name in the toast |
| ProductOptions.ToastMatchesAction | components/product/ProductOptions.tsx:42-50 | in the corrected handler the toast says "added" exactly when the product is added and "already exists" exactly when it is not; it adds exactly when the written handler does |
| ProductOptions.Apply | components/product/ProductOptions.tsx:47 | against an assumed wishlist store (a list that `addToWishlist` appends to; the real store is not part of this model): after the handler the product is in the wishlist, appended only when it was absent |
| ProductOptions.ApplyIdempotent | components/product/ProductOptions.tsx:42-50 | against the same assumed append-only store, pressing the wishlist button twice has the effect of pressing it once |
| ShopFilters.Initial | components/products/FilterProducts.tsx:31-35 | the filter panel starts from the filters it is given, or from no category, brand or colour and the price range 10 to 5000 |
| ShopFilters.Pick | components/products/FilterProducts.tsx:88-94 | choosing the value already selected clears the selection; choosing any other value selects it |
| ShopFilters.SelectCategory | components/products/FilterProducts.tsx:88-94 | the category toggles as Pick says and no other filter changes |
| ShopFilters.SelectColor | components/products/FilterProducts.tsx:108-114 | the colour toggles as Pick says and no other filter changes |
| ShopFilters.SelectBrand | components/products/FilterProducts.tsx:116-122 | the brand toggles as Pick says and no other filter changes |
| ShopFilters.SetMinPrice | components/products/FilterProducts.tsx:97-100 | the lower price bound takes the new number and no other filter changes |
| ShopFilters.SetMaxPrice | components/products/FilterProducts.tsx:103-106 | the upper price bound takes the new number and no other filter changes |
| ShopFilters.ClearFilter | components/products/FilterProducts.tsx:124-130 | clearing empties category, brand and colour and restores the price range 10 to 5000 |
| ShopFilters.PickTwice | components/products/FilterProducts.tsx:88-94 | choosing a new value twice ends with nothing selected; re-choosing the selected value twice keeps it |
| ShopFilters.SelectCategoryTwice | components/products/FilterProducts.tsx:88-94 | with no category selected, selecting a category twice gives the original filters back |
| ShopFilters.NumberParam | components/pages/shop-pages/ShopPageOne.tsx:24-25 | a missing, non-numeric or zero price parameter falls back to the default; a non-zero number is taken as is, so the result is never 0 |
| ShopFilters.FromParams | components/pages/shop-pages/ShopPageOne.tsx:20-26 | the shop page reads category, brand and colour with "" for missing, and prices that are never 0 |
| ShopFilters.ToParams | components/pages/shop-pages/ShopPageOne.tsx:29-35 | the query holds only the five filter names; category, brand and colour appear exactly when non-empty; both prices always appear as decimal numerals |
| ShopFilters.ParamsRoundTrip | components/pages/shop-pages/ShopPageOne.tsx:20-35 | filters with non-zero prices written to the query and read back are the same filters |
| ShopFilters.ZeroPriceBecomesDefault | components/pages/shop-pages/ShopPageOne.tsx:24-34 | a minimum price of 0 written to the query reads back as the default 10 |
| ShopFilters.FiltersStable | components/pages/shop-pages/ShopPageOne.tsx:20-36 | filters read from any query survive a second write and read unchanged, and the write drops every other parameter, page included |
| HeroBanner.JsRem | components/hero/HeroBanner.tsx:44-61 | JavaScript's remainder: equal to the mathematical one for non-negative dividends, and non-positive for negative ones |
| HeroBanner.GoNext | components/hero/HeroBanner.tsx:61 | from a slide in range the next index is the following slide, wrapping from the last to the first |
| HeroBanner.GoPrev | components/hero/HeroBanner.tsx:59-60 | from a slide in range the previous index is the preceding slide, wrapping from the first to the last |
| HeroBanner.PrevNextInverse | components/hero/HeroBanner.tsx:59-61 | going forward then back, or back then forward, returns to the same slide |
| HeroBanner.Advance | components/hero/HeroBanner.tsx:41-47 | any number of autoplay steps keeps the index in range |
| HeroBanner.AdvanceNoWrap | components/hero/HeroBanner.tsx:41-47 | steps that do not pass the last slide add to the index |
| HeroBanner.AdvanceAdds | components/hero/HeroBanner.tsx:41-47 | a steps then b steps equal a+b steps |
| HeroBanner.FullCycle | components/hero/HeroBanner.tsx:41-47 | as many steps as there are slides return to the starting slide |
| HeroBanner.OnLoaded | components/hero/HeroBanner.tsx:20-32 | loading ends; non-empty data becomes a permutation of the data sorted by display order (missing order as 0) with the first slide active; empty data leaves no slides |
| HeroBanner.OnLoadFailed | components/hero/HeroBanner.tsx:29-33 | a failed load only ends loading |
| HeroBanner.UnorderedSlidesKeepOrder | components/hero/HeroBanner.tsx:21-23 | slides without display orders stay in the order they arrived |
| HeroBanner.Tick | components/hero/HeroBanner.tsx:41-47 | with no slides the autoplay does nothing; otherwise it moves to the next slide |
| HeroBanner.TickKeepsActiveInRange | components/hero/HeroBanner.tsx:41-47 | the autoplay keeps the active index among the slides |
| HeroBanner.ShowsControls | components/hero/HeroBanner.tsx:150 | the previous and next buttons appear exactly when there are at least two slides |
| HeroBanner.AlignOf | components/hero/HeroBanner.tsx:97-103 | "left" aligns to the start and "right" to the end; anything else, missing included, centres |
| HeroBanner.ButtonText | components/hero/HeroBanner.tsx:142 | the slide's button text when non-empty, otherwise "Shop Now" |
| Pagination.HandleChange | components/others/Pagination.tsx:11-22 | a page outside 1..totalPages does nothing; a page inside navigates to the same path with only the page parameter set to that page |
| Pagination.PageReadsBack | components/others/Pagination.tsx:16-22 | the page written to the query parses back to the page |
| Pagination.Buttons | components/others/Pagination.tsx:24-37 | one button per page 1..totalPages in order, highlighted exactly when it is the current page |
| Pagination.ButtonsHighlightOne | components/others/Pagination.tsx:24-37 | at most one button is highlighted, one is exactly when the current page is in range, and every button's click navigates |
| Pagination.PrevDisabled | components/others/Pagination.tsx:44 | Previous is disabled exactly on page 1 |
| Pagination.NextDisabled | components/others/Pagination.tsx:52 | Next is disabled exactly on the last page |
| Pagination.EnabledArrowsNavigate | components/others/Pagination.tsx:41-55 | on a page in range, an enabled arrow always navigates |
| Pagination.NextBeyondLastIsInert | components/others/Pagination.tsx:49-55 | past the last page Next stays enabled but its click does nothing |
| PageSizeSelector.CurrentSize | components/others/PageSizeSelector.tsx:20-21 | a missing or empty size parameter is unset; otherwise the size is the parameter's leading integer, or not a number |
| PageSizeSelector.IsActive | components/others/PageSizeSelector.tsx:36 | an option is active when it equals the current size, or when the size is unset and it is the second option; a non-numeric size activates none |
| PageSizeSelector.AtMostOneActive | components/others/PageSizeSelector.tsx:35-36 | among distinct options at most one is active |
| PageSizeSelector.OnChange | components/others/PageSizeSelector.tsx:23-29 | choosing a size sets the size parameter and resets the page to 1, leaving every other parameter alone |
| PageSizeSelector.PickedOptionActive | components/others/PageSizeSelector.tsx:23-36 | after choosing a size, that size's button is the active one |
| DashboardSearch.InitialTerm | components/dashboard/customer/SearchCustomer.tsx:10 | the box starts with its parameter's value, or "" |
| DashboardSearch.Search | components/dashboard/customer/SearchCustomer.tsx:13-27 | a term that is not blank after trimming is stored trimmed and resets the page to 1, all else unchanged; a blank term removes the parameter only |
| DashboardSearch.SearchShowsTrimmed | components/dashboard/customer/SearchCustomer.tsx:10-21 | the page a search leads to shows the trimmed term in the box |
| DashboardSearch.SearchAgainIdempotent | components/dashboard/customer/SearchCustomer.tsx:10-27 | submitting the box again on the resulting page leads to the same place |
| DashboardSearch.BlankSearchKeepsPage | components/dashboard/customer/SearchCustomer.tsx:17-22 | a blank search keeps the current page |
| DashboardSearch.HandleSearch | components/dashboard/customer/SearchCustomer.tsx:13-27 | the customer box goes to "/dashboard/customers" and follows the shared rule on the "name" parameter; the user box (SearchUser.tsx, same lines) goes to "/dashboard/users" with "email" |
| QueryParams.GetOrEmpty | components/dashboard/order/OrderSearch.tsx:10-11 | the order box starts with the value of the "text" parameter, or "" when there is none |
| OrderSearch.TriggerSearch | components/dashboard/order/OrderSearch.tsx:13-23 | a non-empty text is stored untrimmed and an empty one removed; the page always goes back to 1; nothing else changes |
| OrderSearch.WhitespaceIsKept | components/dashboard/order/OrderSearch.tsx:15-16 | a text of a single space is searched for as is |
| OrderSearch.TextRoundTrip | components/dashboard/order/OrderSearch.tsx:10-23 | the page a search leads to shows exactly the text searched for |
| SearchBox.OnFormSubmit | components/headers/SearchBox.tsx:21-34 | submitting goes to the search page with the query parameter set to the untrimmed term and everything else kept |
| SearchBox.ViewAll | components/headers/SearchBox.tsx:132-137 | "View all results" goes to the search page with the query parameter set to the term |
| SearchBox.SubmitEqualsViewAll | components/headers/SearchBox.tsx:21-34 | deleting and re-setting the query parameter on submit leads to the same place as "View all results" |
| SearchBox.SuggestStep | components/headers/SearchBox.tsx:44-59 | a trimmed term shorter than two characters clears and closes the suggestions; otherwise the first ten matches for the trimmed term are fetched |
| SearchBox.PaddingDoesNotFetch | components/headers/SearchBox.tsx:46-51 | surrounding a short term with spaces never triggers a fetch |
| SearchBox.OnPathChange | components/headers/SearchBox.tsx:37-41 | leaving the search page clears the term; on the search page it is kept |

## Where the code and its description differ

Where the system's written description and its code disagree, the model follows the code.

- The middleware exempts only the exact path `/login`. `/dashboard/login` without an admin cookie is redirected like every other dashboard path (`Middleware.RawPrefixExamples`).
- `setAdminUser(null)` clears the user and its stored copy but leaves the `admin_token` cookie in place. Only `clearAdminUser` removes the cookie.
- The admin store defines no `hasPermission`, `hasAnyPermission`, `hasAllPermissions` or `getPermissions`. `usePermission`, `PermissionGuard` and the sidebar destructure them anyway, so as written each of them calls `undefined` (see "## Findings"). The model states both halves: the as-written gates, which throw, and the intended gates, which take the queries as a parameter bound to the admin token's queries from `lib/auth.ts`.

## Left out

- HTTP: every service module and `fetch` call, including the category, brand, slider, address and role loaders and the submit requests. A handler's outcome is the request it would send.
- The unseen stores: the cart and wishlist stores' operations and totals. Handlers return the store call they would make, and the cart badge takes the item total as a parameter.
- SnakeCase.ReplaceNonAlnumRuns: its own contract states the shape of the result only. That the [a-z0-9] runs survive whole and in order is stated by `SnakeCase.ReplaceKeepsWords`, which keeps the proofs that use the function small.
- SnakeCase.CollapseUnderscores: its own contract states the shape of the result only. That the runs and every character other than '_' survive in order is stated by `SnakeCase.CollapseKeeps`.
- ProductOptions.Apply: the wishlist store is not part of this model. `Apply` assumes that `addToWishlist` appends the product to a list; `ProductOptions.ApplyIdempotent` holds for that assumed store only.
- External libraries. Each of these is a parameter or an identity:
  - JWT decoding (`jwt-decode`): a decoder parameter.
  - `js-cookie`: optional strings.
  - `localStorage` and `JSON.parse`/`stringify`: a map, with serialisation as the identity.
  - zod's e-mail check: a predicate parameter.
  - `new Date()` in the sign-up fallback user: a parameter.
- React itself: rendering, hooks, effects, transitions, timers and debounce. Toasts are kept only where their text is the behaviour, as in the wishlist handler. `router.refresh`, `console.log` and dialogs are left out. Image URL prefixes (`NEXT_PUBLIC_IMAGE_URL`) are left out too.
- `authStore.syncUserFromServer` and the asynchronous parts of the submit flows, which depend on the network.
- Stripe: the payment modal and provider.
- Floating point: prices, totals, `toFixed` and slider range values are integers.
  - `Number(s)` ignores surrounding white space and reads blank text as 0. Otherwise it accepts only an optional sign followed by decimal digits. Fractions, exponents, hexadecimal and `Infinity` are not modelled; anything else is NaN (`None`).
  - `parseInt(s, 10)` reads the leading integer.
- Text:
  - `toLowerCase` maps ASCII letters only.
  - Strings are sequences of characters, so UTF-16 surrogate pairs are not distinguished.
  - `trim` removes a fixed set of white-space characters: ASCII white space, no-break space, line and paragraph separators, and the byte-order mark.
- `URLSearchParams` is a map. The order of parameters, repeated names and percent-encoding are not represented.
- UserForm's `handleInputChange`: a generic one-field state setter with no logic of its own. The fields are set directly in the model.
- CategoryForm's error and success messages and the loading flags of every form.
- Pure presentation components, the Java server side and `next.config.mjs`.
- ShopFilters.SetMinPrice: takes the already converted number. The panel's `Number(event.target.value)` of a non-numeric input (NaN) is not represented, because prices are integers.
- ShopFilters.SetMaxPrice: takes the already converted number, for the same reason as SetMinPrice.
- HeroBanner.GoNext: requires at least one slide. With no slides the source's `% 0` yields NaN, but the previous and next buttons are rendered only with two or more slides (`HeroBanner.ShowsControls`).
- HeroBanner.GoPrev: requires at least one slide, for the same reason as GoNext.
- HeroBanner.Advance: requires at least one slide and a starting index in range. The autoplay runs only when slides exist (`HeroBanner.Tick`).
- ProductForm.Submit: requires the form values to pass the schema. The form library calls `onSubmit` only after validation succeeds.
- ProductForm.Submit: the edited product's id is a string. The source may also hold a number there.
- DashboardSearch.Search: requires the box's parameter to be something other than `page`. The two boxes that use it write `name` and `email`.
- AdminAuthStore.ClearAdminUser: always removes the `admin_token` cookie. In the source a `localStorage.removeItem` that throws skips `Cookies.remove`, because both sit in one `try`. The model's storage never throws.
- Storage exceptions in every store: the `try { … } catch {}` around `localStorage` is not modelled. A failing write, removal or read (or a `JSON.parse` error in `hydrate`) would leave the stored copy, and in `clearAdminUser` the cookie, as they were.
- ProductForm.ImagesFlat: the order of the record's keys is a parameter, since a map has none. The `Array.isArray` filter is not modelled because every value of the record is a list.
- AddressForm.Initial: the saved address's fields are plain strings. The `|| ""` fallbacks for missing fields are not represented, except for the optional second line.
- CheckoutForm.ToShipping: the saved address's phone, city, postal code and country are plain strings, so the `|| ""` fallbacks at CheckoutForm.tsx:72-75 and :150-153 are not represented. The same holds for `OnAddressesLoaded` and `SelectAddress`, which use it.
- OrderSummary.ItemColor: the cart item's colour list is a list, never `undefined`, so the `item.color &&` guard at OrderSummaryForCheckout.tsx:59 is not represented. `OrderSummary.ItemOf` and `OrderSummary.ItemImage` take the item's fields as present in the same way.
- Browser form validation: the HTML `required` and `minLength` attributes on the inputs of CategoryForm, UpdateOrderForm, UpdateCustomerForm, AddressForm and ChangePasswordForm are not represented. The browser checks them before the submit handler runs, so each modelled submit takes the values as given.

## Findings

| source | as written | input that shows it | evidently intended | confidence | as-written member | corrected member |
|---|---|---|---|---|---|---|
| components/product/ProductOptions.tsx:44-49 | a product already in the wishlist gets the "Item Added To Wishlist" toast and is not added; a new product is added with the "Item Already Exist In Wishlist" toast | any product for which the wishlist check is true (or false) | each toast describes what actually happened | moderate, not executed | ProductOptions.AddToWishListAsWritten (shown by ProductOptions.WishlistToastsSwapped) | ProductOptions.AddToWishList (proved by ProductOptions.ToastMatchesAction) |
| components/auth/PermissionGuard.tsx:29-39 | the guard destructures `hasPermission`, `hasAnyPermission` and `hasAllPermissions` from the admin store, whose state (store/adminAuthStore.ts:11-17) declares none of them, so every guard that names a permission calls `undefined` and throws a TypeError (and a type-checked build rejects the destructuring) | `<PermissionGuard permission="READ_PRODUCTS">` for an admin whose token holds READ_PRODUCTS | the queries answer from the admin token, as `lib/auth.ts` does | high, not executed | PermissionGuard.RenderAsWritten (shown by PermissionGuard.GuardThrowsAsWritten) | PermissionGuard.TokenQueries (proved by PermissionGuard.FailsClosedWithoutToken and PermissionGuard.AccessMonotone) |
| hooks/usePermission.ts:9-36 | `hasPermission` is read from the same store, so `canAccess`, `can` and `cannot` throw for every argument; RoleActions, PermissionActions and ProductHeader reach them through the hook | `canAccess("PRODUCTS", "WRITE")` for an admin holding MANAGE_PRODUCTS | the token's membership query with the MANAGE fallback | high, not executed | UsePermission.CanAccessAsWritten (shown by UsePermission.CanAccessThrowsAsWritten) | UsePermission.CanAccess bound to the token query (proved by UsePermission.CanAccessMatchesToken) |
| components/dashboard/sidebar/DashboardSidebar.tsx:39-113 | `hasAnyPermission` is read from the same store, so the link filter throws at the first section link, for every admin | any path under /dashboard | sections shown by the token's any-of query | high, not executed | DashboardSidebar.VisibleLinksAsWritten (shown by DashboardSidebar.SidebarThrowsAsWritten) | DashboardSidebar.VisibleLinks bound to the token query (proved by DashboardSidebar.SectionVisibleIffRead) |
| components/forms/CheckoutForm.tsx:65-69 | the first name is the text before the first space, falling back to the whole full name when that text is empty | the full name " Smith" gives first name " Smith" and last name "Smith", so the surname is sent twice | the first word as first name and the rest as last name, so that the two rejoin to the full name | low, not executed | CheckoutForm.SplitNameAsWritten (shown by CheckoutForm.LeadingSpaceDuplicatesName) | CheckoutForm.SplitName (proved by CheckoutForm.SplitNameRejoins) |

=== FILE: action_menus.dfy ===
/** The row action menus of the roles and permissions tables: which entries
    the popover shows, where Edit leads, and whether Delete goes ahead. */
module ActionMenus {
  import opened Wrappers
  import opened Permissions
  import opened Decimal
  import opened UsePermission

  datatype Entry = Edit(href: string) | Delete

  /** The popover content: a list of entries, or the "No actions available"
      note. */
  datatype Menu = Entries(entries: seq<Entry>) | NoActionsAvailable

  /** The shared layout: Edit when editing is allowed, then Delete when
      deleting is allowed; the note when neither is. */
  function MenuFor(canEdit: bool, canDelete: bool, editHref: string): (m: Menu)
    ensures m.NoActionsAvailable? <==> !canEdit && !canDelete
    ensures m.Entries? ==> (Edit(editHref) in m.entries <==> canEdit)
    ensures m.Entries? ==> (Delete in m.entries <==> canDelete)
    ensures m.Entries? ==> forall k :: 0 <= k < |m.entries| ==> m.entries[k] in [Edit(editHref), Delete]
    ensures m.Entries? ==> |m.entries| == (if canEdit then 1 else 0) + (if canDelete then 1 else 0)
    ensures m.Entries? && canEdit ==> m.entries[0] == Edit(editHref)
  {
    if canEdit || canDelete then
      Entries((if canEdit then [Edit(editHref)] else []) + (if canDelete then [Delete] else []))
    else NoActionsAvailable
  }

  /** `RoleActions`: Edit needs WRITE on ROLES and Delete needs DELETE on
      ROLES, each also granted by MANAGE_ROLES. */
  function RoleMenu(hasPermission: string -> bool, roleId: int): (m: Menu)
    ensures m.NoActionsAvailable? <==>
      !hasPermission(ManageRoles) && !hasPermission(WriteRoles) && !hasPermission(DeleteRoles)
    ensures m.Entries? ==> (Edit(IdPath("/dashboard/roles/", roleId)) in m.entries <==> hasPermission(ManageRoles) || hasPermission(WriteRoles))
    ensures m.Entries? ==> (Delete in m.entries <==> hasPermission(ManageRoles) || hasPermission(DeleteRoles))
  {
    MenuFor(CanAccess(hasPermission, "ROLES", "WRITE"), CanAccess(hasPermission, "ROLES", "DELETE"), IdPath("/dashboard/roles/", roleId))
  }

  /** `PermissionActions`: the same layout over the PERMISSIONS resource. */
  function PermissionMenu(hasPermission: string -> bool, permissionId: int): (m: Menu)
    ensures m.NoActionsAvailable? <==>
      !hasPermission(ManagePermissions) && !hasPermission(WritePermissions) && !hasPermission(DeletePermissions)
    ensures m.Entries? ==> (Edit(IdPath("/dashboard/permissions/", permissionId)) in m.entries <==> hasPermission(ManagePermissions) || hasPermission(WritePermissions))
    ensures m.Entries? ==> (Delete in m.entries <==> hasPermission(ManagePermissions) || hasPermission(DeletePermissions))
  {
    MenuFor(CanAccess(hasPermission, "PERMISSIONS", "WRITE"), CanAccess(hasPermission, "PERMISSIONS", "DELETE"),
            IdPath("/dashboard/permissions/", permissionId))
  }

  /** `handleDelete`: the id to delete, sent only when the confirmation
      dialog returned true. */
  function HandleDelete(confirmed: bool, id: int): (r: Option<int>)
    ensures r.Some? <==> confirmed
    ensures r.Some? ==> r.value == id
  {
    if !confirmed then None else Some(id)
  }
}

=== FILE: address_form.dfy ===
/** The customer's address form: its initial state from an optional saved
    address, the per-field change handler, the default checkbox and the
    create/edit dispatch. */
module AddressForm {
  import opened Wrappers
  import opened Text
  import opened Records

  datatype Mode = CreateMode | EditMode

  /** The form state; every text field is a plain string. */
  datatype Fields = Fields(
    fullName: string, phone: string, line1: string, line2: string, city: string,
    state: string, postalCode: string, country: string, isDefault: bool)

  /** The initial state: each field of the given address, or "" (false for
      the default flag) without one. */
  function Initial(address: Option<Address>): (f: Fields)
    ensures address.None? ==> f == Fields("", "", "", "", "", "", "", "", false)
    ensures address.Some? ==>
              var a := address.value;
              && f.fullName == a.fullName && f.phone == a.phone && f.line1 == a.line1
              && f.line2 == a.line2.GetOr("") && f.city == a.city && f.state == a.state
              && f.postalCode == a.postalCode && f.country == a.country
              && f.isDefault == a.isDefault
  {
    match address
    case None => Fields("", "", "", "", "", "", "", "", false)
    case Some(a) =>
      Fields(OrElse(a.fullName, ""), OrElse(a.phone, ""), OrElse(a.line1, ""),
             OptOrElse(a.line2, ""), OrElse(a.city, ""), OrElse(a.state, ""),
             OrElse(a.postalCode, ""), OrElse(a.country, ""), a.isDefault)
  }

  /** The `name` attributes of the text inputs. */
  datatype Name = FullName | Phone | Line1 | Line2 | City | State | PostalCode | Country

  /** The text field an input name addresses. */
  function Get(f: Fields, n: Name): string {
    match n
    case FullName => f.fullName
    case Phone => f.phone
    case Line1 => f.line1
    case Line2 => f.line2
    case City => f.city
    case State => f.state
    case PostalCode => f.postalCode
    case Country => f.country
  }

  /** `handleChange`: the named field takes the input's value; every other
      field, and the default flag, keeps its value. */
  function HandleChange(f: Fields, n: Name, value: string): (r: Fields)
    ensures Get(r, n) == value
    ensures forall m :: m != n ==> Get(r, m) == Get(f, m)
    ensures r.isDefault == f.isDefault
  {
    match n
    case FullName => f.(fullName := value)
    case Phone => f.(phone := value)
    case Line1 => f.(line1 := value)
    case Line2 => f.(line2 := value)
    case City => f.(city := value)
    case State => f.(state := value)
    case PostalCode => f.(postalCode := value)
    case Country => f.(country := value)
  }

  /** The state of a checkbox: checked, unchecked or indeterminate. */
  datatype Checked = On | Off | Indeterminate

  /** The checkbox handler: the flag is set only for a checked box. */
  function SetDefault(f: Fields, c: Checked): (r: Fields)
    ensures r.isDefault <==> c.On?
    ensures forall m :: Get(r, m) == Get(f, m)
  {
    f.(isDefault := c == On)
  }

  /** Two edits of different fields commute. */
  lemma ChangesCommute(f: Fields, n: Name, m: Name, u: string, v: string)
    requires n != m
    ensures HandleChange(HandleChange(f, n, u), m, v) == HandleChange(HandleChange(f, m, v), n, u)
  {
  }

  /** The submission: the service call to make and where the page goes. */
  datatype Submission = Submission(call: Option<Save<Fields>>, redirect: string)

  const AccountPath: string := "/my-account"

  /** `handleSubmit` after a successful call: create mode creates, edit mode
      with an address updates that address's id, edit mode without one makes
      no call; all three go to the account page. */
  function Submit(mode: Mode, address: Option<Address>, f: Fields): (r: Submission)
    ensures r.redirect == AccountPath
    ensures mode.CreateMode? ==> r.call == Some(Create(f))
    ensures mode.EditMode? && address.Some? ==> r.call == Some(Update(address.value.id, f))
    ensures mode.EditMode? && address.None? ==> r.call.None?
  {
    var call :=
      if mode.CreateMode? then Some(Create(f))
      else if address.Some? then Some(Update(address.value.id, f))
      else None;
    Submission(call, AccountPath)
  }

  /** Submitting an untouched edit form sends the address's own fields back
      under its id, with a missing second line sent as "". */
  lemma UntouchedEditResends(a: Address)
    ensures Submit(EditMode, Some(a), Initial(Some(a))).call
            == Some(Update(a.id, Fields(a.fullName, a.phone, a.line1, a.line2.GetOr(""), a.city,
                                        a.state, a.postalCode, a.country, a.isDefault)))
  {
  }
}

/** The customer sign-up form: its schema with the password confirmation
    check, and what a successful registration does. */
module SignUpForm {
  import opened Wrappers
  import opened Text
  import opened Records
  import Storage
  import AuthStore

  datatype Data = Data(fullName: string, phone: string, email: string, password: string, confirmPassword: string)

  /** The fields a schema issue is reported on. */
  datatype Path = FullNamePath | PhonePath | EmailPath | PasswordPath | ConfirmPath

  /** The schema's issues. The confirmation check is a refinement: it adds
      an issue on the confirmation field whenever the two passwords differ,
      alongside any length issues (a too-short field does not stop the
      refinement from running). The e-mail format check is a parameter. */
  function Issues(isEmail: string -> bool, d: Data): (r: set<Path>)
    ensures FullNamePath in r <==> |d.fullName| < 2
    ensures PhonePath in r <==> |d.phone| < 5
    ensures EmailPath in r <==> !isEmail(d.email)
    ensures PasswordPath in r <==> |d.password| < 6
    ensures ConfirmPath in r <==> |d.confirmPassword| < 6 || d.password != d.confirmPassword
  {
    (if |d.fullName| < 2 then {FullNamePath} else {})
    + (if |d.phone| < 5 then {PhonePath} else {})
    + (if !isEmail(d.email) then {EmailPath} else {})
    + (if |d.password| < 6 then {PasswordPath} else {})
    + (if |d.confirmPassword| < 6 || d.password != d.confirmPassword then {ConfirmPath} else {})
  }

  /** The form submits exactly when there are no issues: every minimum is
      met, the e-mail is well formed and the passwords agree. */
  lemma SubmitsIff(isEmail: string -> bool, d: Data)
    ensures Issues(isEmail, d) == {} <==>
              |d.fullName| >= 2 && |d.phone| >= 5 && isEmail(d.email)
              && |d.password| >= 6 && d.password == d.confirmPassword
  {
    if Issues(isEmail, d) != {} {
      var p :| p in Issues(isEmail, d);
    }
  }

  /** Mismatched passwords are reported on the confirmation field even when
      both are long enough. */
  lemma MismatchOnConfirm(isEmail: string -> bool, d: Data)
    requires d.password != d.confirmPassword
    ensures Issues(isEmail, d) == (if |d.fullName| < 2 then {FullNamePath} else {})
                                  + (if |d.phone| < 5 then {PhonePath} else {})
                                  + (if !isEmail(d.email) then {EmailPath} else {})
                                  + (if |d.password| < 6 then {PasswordPath} else {})
                                  + {ConfirmPath}
  {
  }

  /** The registration payload. */
  datatype Payload = Payload(email: string, password: string, fullName: string, phone: string)

  function PayloadOf(d: Data): (p: Payload)
    ensures p.email == d.email && p.password == d.password
    ensures p.fullName == d.fullName && p.phone == d.phone
  {
    Payload(d.email, d.password, d.fullName, d.phone)
  }

  /** The registration response. */
  datatype Response = Response(token: Option<string>, accessToken: Option<string>, user: Option<User>)

  /** `res.token || res.accessToken`, as the value to store; `None` when
      neither is a non-empty string. */
  function TokenOf(res: Response): (r: Option<string>)
    ensures res.token.Some? && Truthy(res.token.value) ==> r == res.token
    ensures !(res.token.Some? && Truthy(res.token.value)) && res.accessToken.Some? && Truthy(res.accessToken.value)
            ==> r == res.accessToken
    ensures r.Some? ==> Truthy(r.value)
    ensures r.None? <==> !(res.token.Some? && Truthy(res.token.value))
                         && !(res.accessToken.Some? && Truthy(res.accessToken.value))
  {
    if res.token.Some? && Truthy(res.token.value) then res.token
    else if res.accessToken.Some? && Truthy(res.accessToken.value) then res.accessToken
    else None
  }

  const TokenCookie: string := "auth_token"
  const DefaultRedirect: string := "/my-account"

  /** The user to store: the response's user, or one built from the payload
      with no roles, active, created at `now`. */
  function UserOf(res: Response, p: Payload, now: string): (u: User)
    ensures res.user.Some? ==> u == res.user.value
    ensures res.user.None? ==>
              && u.fullName == p.fullName && u.email == p.email && u.phone == Some(p.phone)
              && u.roles == Some([]) && u.isActive == Some(true) && u.createdAt == Some(now)
              && u.id.None?
  {
    match res.user
    case Some(u) => u
    case None => User(None, p.fullName, p.email, Some(p.phone), None, Some([]), Some(true), Some(now))
  }

  /** The effects of a successful registration. */
  datatype After = After(cookies: map<string, string>, store: AuthStore.State, redirect: string)

  /** `onSubmit` after `registerUser` returns: the token cookie is written
      only when there is a token, the user goes to the store, and the page
      goes to the `redirect` parameter, or the account page. */
  function OnRegistered(cookies: map<string, string>, store: AuthStore.State, redirect: Option<string>,
                        d: Data, res: Response, now: string): (r: After)
    ensures TokenOf(res).Some? ==> TokenCookie in r.cookies && r.cookies[TokenCookie] == TokenOf(res).value
    ensures TokenOf(res).None? ==> r.cookies == cookies
    ensures Storage.SameOutside(cookies, r.cookies, TokenCookie)
    ensures r.store.user == Some(UserOf(res, PayloadOf(d), now))
    ensures r.redirect == OptOrElse(redirect, DefaultRedirect)
  {
    var jar := match TokenOf(res)
               case Some(t) => Storage.Store(cookies, TokenCookie, Some(t))
               case None => cookies;
    After(jar, AuthStore.SetUser(store, Some(UserOf(res, PayloadOf(d), now))),
          OptOrElse(redirect, DefaultRedirect))
  }

  /** An empty `token` does not hide a present `accessToken`. */
  lemma EmptyTokenFallsBack(at: string, u: Option<User>)
    requires Truthy(at)
    ensures TokenOf(Response(Some(""), Some(at), u)) == Some(at)
  {
  }
}

/** The change-password form of the account page. */
module ChangePasswordForm {
  datatype State = State(newPassword: string, confirmPassword: string)

  const Empty: State := State("", "")

  /** What `handleSubmit` does: one of two rejections, or the call with an
      empty current password. */
  datatype Outcome = TooShort | Mismatch | Change(current: string, next: string)

  /** The length check comes before the match check. */
  function Submit(s: State): (r: Outcome)
    ensures |s.newPassword| < 6 ==> r == TooShort
    ensures |s.newPassword| >= 6 && s.newPassword != s.confirmPassword ==> r == Mismatch
    ensures r.Change? ==> r.current == "" && r.next == s.newPassword
  {
    if |s.newPassword| < 6 then TooShort
    else if s.newPassword != s.confirmPassword then Mismatch
    else Change("", s.newPassword)
  }

  /** The callback runs exactly for a long enough, confirmed password. */
  lemma ChangeIff(s: State)
    ensures Submit(s).Change? <==> |s.newPassword| >= 6 && s.newPassword == s.confirmPassword
  {
  }

  /** The state after the callback settles: cleared on success, kept on
      failure. Rejected submissions never reach it. */
  function AfterCall(s: State, succeeded: bool): (r: State)
    ensures succeeded ==> r == Empty
    ensures !succeeded ==> r == s
  {
    if succeeded then Empty else s
  }

  /** A cleared form is rejected as too short until a new password is
      typed. */
  lemma ClearedFormRejected(s: State)
    ensures Submit(AfterCall(s, true)) == TooShort
  {
  }
}

=== FILE: auth.dfy ===
/** Permission queries over a decoded admin token. Decoding itself is done by
    an external JWT library and is a parameter here: it maps a token string to
    the decoded claims, or to `None` when decoding fails (the source catches
    the exception and returns null). The client-side variants read the
    `admin_token` cookie, given as an optional string. */
module Auth {
  import opened Wrappers
  import opened Text
  import opened Permissions

  /** The claims of an admin token. `permissions` is optional because every
      query checks that the field is present before using it. */
  datatype DecodedAdminToken = DecodedAdminToken(
    sub: string,
    email: string,
    fullName: string,
    roles: seq<string>,
    permissions: Option<seq<string>>,
    iat: int,
    exp: int)

  /** The JWT decoder: `None` stands for a thrown decoding error. */
  type Decoder = string -> Option<DecodedAdminToken>

  /** `decodeAdminTokenFromString`: an empty token is absent without calling
      the decoder. */
  function DecodeFromString(decode: Decoder, token: string): (r: Option<DecodedAdminToken>)
    ensures !Truthy(token) ==> r.None?
    ensures Truthy(token) ==> r == decode(token)
  {
    if token == "" then None else decode(token)
  }

  /** `decodeAdminToken`: the `admin_token` cookie, when set and non-empty,
      decoded. It is the string decoder applied to the cookie's value, with a
      missing cookie read as "". */
  function DecodeFromCookie(decode: Decoder, cookie: Option<string>): (r: Option<DecodedAdminToken>)
    ensures r == DecodeFromString(decode, cookie.GetOr(""))
    ensures cookie.None? ==> r.None?
  {
    match cookie
    case None => None
    case Some(token) => if token == "" then None else decode(token)
  }

  /** The permission list of a decoded token, absent when there is no token or
      the token has no permissions field. */
  function HeldPermissions(d: Option<DecodedAdminToken>): (r: Option<seq<string>>)
    ensures r.Some? <==> d.Some? && d.value.permissions.Some?
    ensures r.Some? ==> r.value == d.value.permissions.value
  {
    match d
    case None => None
    case Some(t) => t.permissions
  }

  /** `wanted.some(p => held.includes(p))`. */
  function AnyIn(wanted: seq<string>, held: seq<string>): (r: bool)
    ensures r <==> exists k :: 0 <= k < |wanted| && wanted[k] in held
  {
    if wanted == [] then false
    else
      var rest := AnyIn(wanted[1..], held);
      assert rest <==> exists k :: 1 <= k < |wanted| && wanted[k] in held by {
        if rest {
          var j :| 0 <= j < |wanted[1..]| && wanted[1..][j] in held;
          assert wanted[j + 1] in held;
        }
      }
      wanted[0] in held || rest
  }

  /** `wanted.every(p => held.includes(p))`. */
  function AllIn(wanted: seq<string>, held: seq<string>): (r: bool)
    ensures r <==> forall k :: 0 <= k < |wanted| ==> wanted[k] in held
  {
    if wanted == [] then true
    else
      var rest := AllIn(wanted[1..], held);
      assert rest <==> forall k :: 1 <= k < |wanted| ==> wanted[k] in held by {
        if rest {
          forall k | 1 <= k < |wanted| ensures wanted[k] in held {
            assert wanted[k] == wanted[1..][k - 1];
          }
        }
      }
      wanted[0] in held && rest
  }

  /** All-of is containment of the wanted codes in the held ones. */
  lemma AllInIffContained(wanted: seq<string>, held: seq<string>)
    ensures AllIn(wanted, held) <==> forall c :: c in wanted ==> c in held
  {
  }

  /** For a non-empty wanted list, all-of implies any-of; for the empty list
      all-of holds and any-of does not. */
  lemma AllInImpliesAnyIn(wanted: seq<string>, held: seq<string>)
    ensures |wanted| > 0 && AllIn(wanted, held) ==> AnyIn(wanted, held)
    ensures AllIn([], held) && !AnyIn([], held)
  {
    if |wanted| > 0 && AllIn(wanted, held) {
      assert wanted[0] in held;
    }
  }

  // Queries on a decoding result. Each is false when there is no token or the
  // token has no permissions field.

  /** `decoded.permissions.includes(p)`. */
  function PermissionIn(d: Option<DecodedAdminToken>, p: string): (r: bool)
    ensures r <==> HeldPermissions(d).Some? && p in HeldPermissions(d).value
  {
    match HeldPermissions(d)
    case None => false
    case Some(held) => p in held
  }

  function AnyPermissionIn(d: Option<DecodedAdminToken>, wanted: seq<string>): (r: bool)
    ensures r <==> HeldPermissions(d).Some?
                   && exists k :: 0 <= k < |wanted| && PermissionIn(d, wanted[k])
  {
    match HeldPermissions(d)
    case None => false
    case Some(held) => AnyIn(wanted, held)
  }

  function AllPermissionsIn(d: Option<DecodedAdminToken>, wanted: seq<string>): (r: bool)
    ensures r <==> HeldPermissions(d).Some?
                   && forall k :: 0 <= k < |wanted| ==> PermissionIn(d, wanted[k])
  {
    match HeldPermissions(d)
    case None => false
    case Some(held) => AllIn(wanted, held)
  }

  /** The manage-or-specific rule on the decoded list. */
  function ResourceAccessIn(d: Option<DecodedAdminToken>, resource: string, action: string): (r: bool)
    ensures r <==> PermissionIn(d, Manage(resource)) || PermissionIn(d, Code(action, resource))
    ensures r <==> HeldPermissions(d).Some? && HasResourcePermission(HeldPermissions(d).value, resource, action)
  {
    match HeldPermissions(d)
    case None => false
    case Some(held) => Manage(resource) in held || Code(action, resource) in held
  }

  // The token-string (server-side) queries.

  function HasPermissionFromToken(decode: Decoder, token: string, p: string): (r: bool)
    ensures !Truthy(token) ==> !r
    ensures r <==> PermissionIn(decode(token), p) && Truthy(token)
  {
    PermissionIn(DecodeFromString(decode, token), p)
  }

  function HasAnyPermissionFromToken(decode: Decoder, token: string, wanted: seq<string>): (r: bool)
    ensures !Truthy(token) ==> !r
    ensures r <==> AnyPermissionIn(decode(token), wanted) && Truthy(token)
  {
    AnyPermissionIn(DecodeFromString(decode, token), wanted)
  }

  function HasAllPermissionsFromToken(decode: Decoder, token: string, wanted: seq<string>): (r: bool)
    ensures !Truthy(token) ==> !r
    ensures r <==> AllPermissionsIn(decode(token), wanted) && Truthy(token)
  {
    AllPermissionsIn(DecodeFromString(decode, token), wanted)
  }

  /** `canAccessResource`: the resource rule of the permission vocabulary
      applied to the decoded list. */
  function CanAccessResource(decode: Decoder, token: string, resource: string, action: string): (r: bool)
    ensures r <==> var held := HeldPermissions(DecodeFromString(decode, token));
                   held.Some? && HasResourcePermission(held.value, resource, action)
  {
    ResourceAccessIn(DecodeFromString(decode, token), resource, action)
  }

  /** `getPermissionsFromToken`: the decoded list, or [] when there is none.
      A code is in it exactly when the membership query holds. */
  function GetPermissionsFromToken(decode: Decoder, token: string): (r: seq<string>)
    ensures forall p :: p in r <==> HasPermissionFromToken(decode, token, p)
    ensures HeldPermissions(DecodeFromString(decode, token)).None? ==> r == []
  {
    HeldPermissions(DecodeFromString(decode, token)).GetOr([])
  }

  // The cookie (client-side) queries. Each agrees with its token-string
  // counterpart on the cookie's value.

  function HasPermission(decode: Decoder, cookie: Option<string>, p: string): (r: bool)
    ensures cookie.None? ==> !r
    ensures r == HasPermissionFromToken(decode, cookie.GetOr(""), p)
  {
    PermissionIn(DecodeFromCookie(decode, cookie), p)
  }

  function HasAnyPermission(decode: Decoder, cookie: Option<string>, wanted: seq<string>): (r: bool)
    ensures cookie.None? ==> !r
    ensures r == HasAnyPermissionFromToken(decode, cookie.GetOr(""), wanted)
  {
    AnyPermissionIn(DecodeFromCookie(decode, cookie), wanted)
  }

  function HasAllPermissions(decode: Decoder, cookie: Option<string>, wanted: seq<string>): (r: bool)
    ensures cookie.None? ==> !r
    ensures r == HasAllPermissionsFromToken(decode, cookie.GetOr(""), wanted)
  {
    AllPermissionsIn(DecodeFromCookie(decode, cookie), wanted)
  }

  function GetPermissions(decode: Decoder, cookie: Option<string>): (r: seq<string>)
    ensures forall p :: p in r <==> HasPermission(decode, cookie, p)
    ensures r == GetPermissionsFromToken(decode, cookie.GetOr(""))
  {
    HeldPermissions(DecodeFromCookie(decode, cookie)).GetOr([])
  }

  /** Fail closed: without a decodable token carrying a permissions field,
      every query is false and the permission list is empty. */
  lemma QueriesFailClosed(decode: Decoder, token: string, p: string, wanted: seq<string>, resource: string, action: string)
    requires HeldPermissions(DecodeFromString(decode, token)).None?
    ensures !HasPermissionFromToken(decode, token, p)
    ensures !HasAnyPermissionFromToken(decode, token, wanted)
    ensures !HasAllPermissionsFromToken(decode, token, wanted)
    ensures !CanAccessResource(decode, token, resource, action)
    ensures GetPermissionsFromToken(decode, token) == []
  {
  }

  /** With a permission list present, all-of over no codes holds while any-of
      over no codes does not; for a non-empty list all-of implies any-of. */
  lemma EmptyAndNonEmptyLists(decode: Decoder, token: string, wanted: seq<string>)
    requires HeldPermissions(DecodeFromString(decode, token)).Some?
    ensures HasAllPermissionsFromToken(decode, token, [])
    ensures !HasAnyPermissionFromToken(decode, token, [])
    ensures |wanted| > 0 && HasAllPermissionsFromToken(decode, token, wanted)
            ==> HasAnyPermissionFromToken(decode, token, wanted)
  {
    var held := HeldPermissions(DecodeFromString(decode, token)).value;
    AllInImpliesAnyIn(wanted, held);
  }
}

=== FILE: cart.dfy ===
/** What the cart views ask of the cart store. The store itself is outside
    the model: each handler is described by the store call it makes. */
module CartCommands {
  import opened Wrappers
  import opened Text
  import opened Records

  /** A call on the cart store. A colour of `None` is the call without the
      colour argument. */
  datatype Command =
    | RemoveFromCart(id: int, color: Option<string>)
    | UpdateQuantity(id: int, quantity: int, color: Option<string>)

  /** `xs.indexOf(x)` (equivalently `findIndex(c => c === x)`): the first
      position of `x`, or -1. */
  function IndexOf(xs: seq<string>, x: string): (r: int)
    ensures -1 <= r < |xs|
    ensures r == -1 <==> x !in xs
    ensures r >= 0 ==> xs[r] == x && forall j :: 0 <= j < r ==> xs[j] != x
  {
    if xs == [] then -1
    else if xs[0] == x then 0
    else
      var k := IndexOf(xs[1..], x);
      assert x in xs[1..] ==> x in xs;
      assert x in xs && xs[0] != x ==> x in xs[1..] by {
        if x in xs && xs[0] != x {
          var i :| 0 <= i < |xs| && xs[i] == x;
          assert xs[1..][i - 1] == x;
        }
      }
      if k == -1 then -1 else k + 1
  }

  /** `selectedColor` as a truthy value: present and non-empty. */
  predicate HasSelectedColor(item: CartItem) {
    item.selectedColor.Some? && Truthy(item.selectedColor.value)
  }

  /** The first image, or "" (`(item.images && item.images[0]) || ""`). */
  function FirstImage(item: CartItem): (r: string)
    ensures item.images.Some? && |item.images.value| > 0 ==> r == item.images.value[0]
    ensures item.images.None? || item.images.value == [] ==> r == ""
  {
    match item.images
    case None => ""
    case Some(imgs) => if imgs == [] then "" else OrElse(imgs[0], "")
  }
}

/** The cart sheet in the header. */
module CartSheet {
  import opened Wrappers
  import opened Text
  import opened Records
  import opened CartCommands

  /** The "+" button: one more of the line, keyed by id only. */
  function Increment(item: CartItem): (c: Command)
    ensures c == UpdateQuantity(item.id, item.quantity + 1, None)
  {
    UpdateQuantity(item.id, item.quantity + 1, None)
  }

  /** The "-" button: the line is removed once the quantity would reach 0,
      otherwise lowered by one; both keyed by id only. */
  function Decrement(item: CartItem): (c: Command)
    ensures item.quantity <= 1 <==> c.RemoveFromCart?
    ensures c.RemoveFromCart? ==> c == RemoveFromCart(item.id, None)
    ensures c.UpdateQuantity? ==> c.id == item.id && c.quantity == item.quantity - 1 >= 1 && c.color.None?
  {
    var q := item.quantity - 1;
    if q <= 0 then RemoveFromCart(item.id, None) else UpdateQuantity(item.id, q, None)
  }

  /** The "x" button. */
  function Remove(item: CartItem): (c: Command)
    ensures c.RemoveFromCart? && c.id == item.id && c.color.None?
  {
    RemoveFromCart(item.id, None)
  }

  /** Lowering a quantity above one and raising it again restores it. */
  lemma IncrementUndoesDecrement(item: CartItem)
    requires item.quantity > 1
    ensures Increment(item.(quantity := Decrement(item).quantity)).quantity == item.quantity
  {
  }

  /** The badge: 0 until the component has mounted, then the store's count. */
  function Badge(mounted: bool, totalItems: int): (r: int)
    ensures !mounted ==> r == 0
    ensures mounted ==> r == totalItems
  {
    if mounted then totalItems else 0
  }

  /** The line's title: at most the first 100 characters of the name. */
  function Title(item: CartItem): (r: string)
    ensures |r| <= 100 && StartsWith(item.name, r)
    ensures |item.name| <= 100 ==> r == item.name
    ensures |item.name| > 100 ==> r == item.name[..100]
  {
    Take(item.name, 100)
  }
}

/** The cart page's line table. */
module CartDetails {
  import opened Wrappers
  import opened Text
  import opened Records
  import opened CartCommands

  /** The image path shown for a line, or `None` for the placeholder. With a
      selected colour, the image at the colour's position is used, or the
      first image when the colour is not listed; a position past the end of
      the image list, or an empty path, gives the placeholder. */
  function LineImage(item: CartItem): (r: Option<string>)
    ensures r.Some? ==> Truthy(r.value)
    ensures item.images.None? || item.images.value == [] ==> r.None?
    ensures HasSelectedColor(item) && item.images.Some? && item.images.value != [] ==>
              var imgs := item.images.value;
              var k := IndexOf(item.color, item.selectedColor.value);
              var at := if k >= 0 then k else 0;
              && (at >= |imgs| ==> r.None?)
              && (at < |imgs| && Truthy(imgs[at]) ==> r == Some(imgs[at]))
              && (at < |imgs| && !Truthy(imgs[at]) ==> r.None?)
    ensures !HasSelectedColor(item) && item.images.Some? && item.images.value != [] ==>
              r == (if Truthy(item.images.value[0]) then Some(item.images.value[0]) else None)
  {
    match item.images
    case None => None
    case Some(imgs) =>
      if imgs == [] then None
      else if HasSelectedColor(item) then
        var k := IndexOf(item.color, item.selectedColor.value);
        var at := if k >= 0 then k else 0;
        if at < |imgs| && Truthy(imgs[at]) then Some(imgs[at]) else None
      else if Truthy(imgs[0]) then Some(imgs[0]) else None
  }

  /** The "+" button: one more of the (id, colour) line. */
  function Increment(item: CartItem): (c: Command)
    ensures c == UpdateQuantity(item.id, item.quantity + 1, item.selectedColor)
  {
    UpdateQuantity(item.id, item.quantity + 1, item.selectedColor)
  }

  /** The "-" button on the (id, colour) line. */
  function Decrement(item: CartItem): (c: Command)
    ensures item.quantity <= 1 <==> c.RemoveFromCart?
    ensures c.RemoveFromCart? ==> c == RemoveFromCart(item.id, item.selectedColor)
    ensures c.UpdateQuantity? ==> c == UpdateQuantity(item.id, item.quantity - 1, item.selectedColor)
  {
    var q := item.quantity - 1;
    if q <= 0 then RemoveFromCart(item.id, item.selectedColor)
    else UpdateQuantity(item.id, q, item.selectedColor)
  }

  /** The "x" button. */
  function Remove(item: CartItem): (c: Command)
    ensures c.RemoveFromCart? && c.id == item.id && c.color == item.selectedColor
  {
    RemoveFromCart(item.id, item.selectedColor)
  }

  /** Unlike the header sheet, the page's buttons pass the line's colour, so
      two colours of one product are changed separately. */
  lemma KeyedByColour(a: CartItem, b: CartItem)
    requires a.id == b.id && a.selectedColor != b.selectedColor
    ensures Decrement(a) != Decrement(b) && Increment(a) != Increment(b) && Remove(a) != Remove(b)
  {
  }

  /** "Clear Cart" is offered exactly when there is a line. */
  function OffersClear(lines: seq<CartItem>): (r: bool)
    ensures r <==> lines != []
  {
    |lines| >= 1
  }

  /** The name link: at most the first 30 characters. */
  function Title(item: CartItem): (r: string)
    ensures |r| <= 30 && StartsWith(item.name, r)
    ensures |item.name| <= 30 ==> r == item.name
    ensures |item.name| > 30 ==> r == item.name[..30]
  {
    Take(item.name, 30)
  }
}

/** The checkout summary: the pre-payment check and the order payload. */
module OrderSummary {
  import opened Wrappers
  import opened Text
  import opened Records
  import opened CartCommands
  import CartDetails

  datatype CheckoutError = NoShippingAddress | EmptyCart

  /** `validateCheckout`: the address is checked before the cart. */
  function ValidateCheckout(shipping: Option<ShippingAddress>, lines: seq<CartItem>): (r: Option<CheckoutError>)
    ensures shipping.None? ==> r == Some(NoShippingAddress)
    ensures shipping.Some? && lines == [] ==> r == Some(EmptyCart)
    ensures r.None? <==> shipping.Some? && |lines| > 0
  {
    if shipping.None? then Some(NoShippingAddress)
    else if lines == [] then Some(EmptyCart)
    else None
  }

  /** One order item. `productImage` of `None` is `undefined`. */
  datatype OrderItem = OrderItem(
    productId: int, quantity: int, price: int, productName: string,
    productImage: Option<string>, color: string)

  /** The colour sent: the selected colour, else the first listed colour,
      else "". */
  function ItemColor(item: CartItem): (r: string)
    ensures HasSelectedColor(item) ==> r == item.selectedColor.value
    ensures !HasSelectedColor(item) && |item.color| > 0 ==> r == item.color[0]
    ensures !HasSelectedColor(item) && item.color == [] ==> r == ""
  {
    if HasSelectedColor(item) then item.selectedColor.value
    else if |item.color| > 0 then item.color[0]
    else ""
  }

  /** The image sent: the image at the selected colour's position when that
      position is within the image list, else the first image; none for a
      missing or empty list. */
  function ItemImage(item: CartItem): (r: Option<string>)
    ensures item.images.None? || item.images.value == [] ==> r.None?
    ensures item.images.Some? && item.images.value != [] ==>
              var imgs := item.images.value;
              var k := if HasSelectedColor(item) then IndexOf(item.color, item.selectedColor.value) else -1;
              r == Some(if 0 <= k < |imgs| then imgs[k] else imgs[0])
  {
    var k := if HasSelectedColor(item) then IndexOf(item.color, item.selectedColor.value) else -1;
    match item.images
    case None => None
    case Some(imgs) =>
      if imgs == [] then None
      else Some(if 0 <= k < |imgs| then imgs[k] else imgs[0])
  }

  /** `productId || id`. */
  function ItemProductId(item: CartItem): (r: int)
    ensures item.productId.Some? && item.productId.value != 0 ==> r == item.productId.value
    ensures item.productId.None? || item.productId.value == 0 ==> r == item.id
  {
    match item.productId
    case Some(p) => if p != 0 then p else item.id
    case None => item.id
  }

  function ItemOf(item: CartItem): (o: OrderItem)
    ensures o.quantity == item.quantity && o.price == item.price && o.productName == item.name
    ensures o.productId == ItemProductId(item) && o.color == ItemColor(item)
    ensures o.productImage == ItemImage(item)
  {
    OrderItem(ItemProductId(item), item.quantity, item.price, item.name, ItemImage(item), ItemColor(item))
  }

  /** The cart store's computed totals. */
  datatype Totals = Totals(totalAmount: int, subtotal: int, tax: int, shippingFee: int)

  datatype PaymentMethod = Stripe | Cod

  datatype OrderPayload = OrderPayload(
    shippingAddress: ShippingAddress, items: seq<OrderItem>, totals: Totals,
    couponCode: Option<string>, paymentMethod: PaymentMethod)

  /** `createOrderPayload`: null without an address; otherwise one item per
      cart line, in order, an empty coupon dropped, the method passed on. */
  function CreateOrderPayload(shipping: Option<ShippingAddress>, lines: seq<CartItem>, totals: Totals,
                              coupon: Option<string>, payment: PaymentMethod): (r: Option<OrderPayload>)
    ensures r.None? <==> shipping.None?
    ensures r.Some? ==>
              && r.value.shippingAddress == shipping.value
              && |r.value.items| == |lines|
              && (forall k :: 0 <= k < |lines| ==> r.value.items[k] == ItemOf(lines[k]))
              && r.value.totals == totals
              && (r.value.couponCode.Some? <==> coupon.Some? && Truthy(coupon.value))
              && (r.value.couponCode.Some? ==> r.value.couponCode == coupon)
              && r.value.paymentMethod == payment
  {
    match shipping
    case None => None
    case Some(a) =>
      var c := if coupon.Some? && Truthy(coupon.value) then coupon else None;
      Some(OrderPayload(a, seq(|lines|, k requires 0 <= k < |lines| => ItemOf(lines[k])), totals, c, payment))
  }

  /** A validated checkout always has a payload. */
  lemma ValidatedHasPayload(shipping: Option<ShippingAddress>, lines: seq<CartItem>, totals: Totals,
                            coupon: Option<string>, payment: PaymentMethod)
    requires ValidateCheckout(shipping, lines).None?
    ensures CreateOrderPayload(shipping, lines, totals, coupon, payment).Some?
    ensures |CreateOrderPayload(shipping, lines, totals, coupon, payment).value.items| > 0
  {
  }

  /** The two image rules agree when the selected colour's position is a
      valid image, and part ways when it is past the end of the image list:
      the order sends the first image while the cart page shows the
      placeholder. */
  lemma ImageRulesCompared(item: CartItem)
    requires HasSelectedColor(item) && item.images.Some? && item.images.value != []
    requires forall k :: 0 <= k < |item.images.value| ==> Truthy(item.images.value[k])
    ensures var k := IndexOf(item.color, item.selectedColor.value);
            0 <= k < |item.images.value| ==> CartDetails.LineImage(item) == ItemImage(item)
    ensures var k := IndexOf(item.color, item.selectedColor.value);
            k >= |item.images.value| ==> CartDetails.LineImage(item).None? && ItemImage(item).Some?
  {
  }
}

=== FILE: category_actions.dfy ===
/** The category row's delete action: the hand-written `document.cookie`
    lookup that fetches the admin token, and the delete request's URL. */
module CategoryActions {
  import opened Wrappers
  import opened Text
  import opened Decimal

  /** `value` splits into exactly `a`, one separator, and `b`. */
  predicate SplitsOnce(value: string, sep: string, a: string, b: string) {
    value == a + sep + b && !Contains(a, sep) && !Contains(b, sep)
  }

  /** `getCookie(name)` on the cookie string: "; " is put in front, the text
      is split on "; name=", and exactly two pieces give the second piece up
      to its first ';'; anything else gives "". */
  function GetCookie(documentCookie: string, name: string): (r: string)
    ensures ';' !in r
    ensures !Contains("; " + documentCookie, "; " + name + "=") ==> r == ""
    ensures r != "" ==> exists a, b :: SplitsOnce("; " + documentCookie, "; " + name + "=", a, b) && r == TakeUntil(b, ';')
    ensures ';' !in name ==>
              forall a, b :: SplitsOnce("; " + documentCookie, "; " + name + "=", a, b) ==> r == TakeUntil(b, ';')
  {
    var value := "; " + documentCookie;
    var sep := "; " + name + "=";
    assert ';' !in name ==> forall a, b :: SplitsOnce(value, sep, a, b) ==> Split(value, sep) == [a, b] by {
      if ';' !in name {
        assert sep[1..] == " " + name + "=";
        forall a, b | SplitsOnce(value, sep, a, b) ensures Split(value, sep) == [a, b] {
          SplitAroundSingle(a, sep, b);
        }
      }
    }
    var parts := Split(value, sep);
    if |parts| == 2 then
      assert Join(parts, sep) == parts[0] + sep + parts[1];
      assert SplitsOnce(value, sep, parts[0], parts[1]);
      TakeUntil(parts[1], ';')
    else ""
  }

  /** A cookie string holding only the cookie `name` gives its value, up to
      the first ';'. */
  lemma LoneCookieFound(name: string, v: string)
    requires ';' !in name
    requires !Contains(v, "; " + name + "=")
    ensures GetCookie(name + "=" + v, name) == TakeUntil(v, ';')
  {
    var sep := "; " + name + "=";
    assert "; " + (name + "=" + v) == "" + sep + v;
    assert SplitsOnce("; " + (name + "=" + v), sep, "", v);
  }

  /** The cookie `name` after other cookies gives its value, when the name
      occurs nowhere else. */
  lemma LaterCookieFound(before: string, name: string, v: string)
    requires ';' !in name
    requires !Contains("; " + before, "; " + name + "=") && !Contains(v, "; " + name + "=")
    ensures GetCookie(before + "; " + name + "=" + v, name) == TakeUntil(v, ';')
  {
    var c := before + "; " + name + "=" + v;
    CookieRegrouped(before, name, v);
    CookieOfSplit(c, name, "; " + before, v);
  }

  /** The prefixed cookie string, regrouped around the separator. */
  lemma CookieRegrouped(before: string, name: string, v: string)
    ensures "; " + (before + "; " + name + "=" + v) == ("; " + before) + ("; " + name + "=") + v
  {
  }

  /** A cookie string that splits once around "; name=" gives the value
      after the split. */
  lemma CookieOfSplit(documentCookie: string, name: string, a: string, b: string)
    requires ';' !in name
    requires SplitsOnce("; " + documentCookie, "; " + name + "=", a, b)
    ensures GetCookie(documentCookie, name) == TakeUntil(b, ';')
  {
  }

  /** With a ';' in the name the value is not determined by one way of
      splitting: "; a=; a=; a=X" is "" + "; a=; a=" + "; a=X" and also
      "; a=" + "; a=; a=" + "X", and the two tails give "" and "X". */
  lemma SemicolonNameSplitsTwice()
    ensures SplitsOnce("; a=; a=; a=X", "; a=; a=", "", "; a=X")
    ensures SplitsOnce("; a=; a=; a=X", "; a=; a=", "; a=", "X")
    ensures TakeUntil("; a=X", ';') != TakeUntil("X", ';')
  {
    assert !Contains("; a=X", "; a=; a=");
    assert !Contains("; a=", "; a=; a=");
    assert !Contains("X", "; a=; a=");
    assert TakeUntil("X", ';') == "X";
  }

  /** A text that contains the separator splits into at least two pieces. */
  lemma SplitOfContained(s: string, sep: string)
    requires |sep| > 0 && Contains(s, sep)
    ensures |Split(s, sep)| >= 2
  {
  }

  /** An occurrence of "; x" in "; " + c is at the very start, where c
      starts with x, or an occurrence of "; x" in c moved two places on. */
  lemma OccurrenceInPrefixed(c: string, x: string, i: int)
    requires OccursAt("; " + c, "; " + x, i)
    ensures (i == 0 && StartsWith(c, x)) || (i >= 2 && OccursAt(c, "; " + x, i - 2))
  {
    var value := "; " + c;
    var sep := "; " + x;
    if i == 0 {
      assert c[..|x|] == value[2..|sep|];
      assert sep[2..] == x;
    } else {
      assert value[i] == sep[0] == ';';
      assert value[1] == ' ';
      assert c[i - 2..i - 2 + |sep|] == value[i..i + |sep|];
    }
  }

  /** A non-empty result comes from a cookie that really is named `name`: the
      cookie string starts with "name=" or contains "; name=". A cookie whose
      name merely ends with `name` does not count. */
  lemma FoundOnlyAtCookieStart(documentCookie: string, name: string)
    requires GetCookie(documentCookie, name) != ""
    ensures StartsWith(documentCookie, name + "=") || Contains(documentCookie, "; " + name + "=")
  {
    ContainedInPrefixed(documentCookie, name);
  }

  /** "; " + c contains "; name=" only where c starts with "name=" or itself
      contains "; name=". */
  lemma ContainedInPrefixed(c: string, name: string)
    requires Contains("; " + c, "; " + name + "=")
    ensures StartsWith(c, name + "=") || Contains(c, "; " + name + "=")
  {
    var x := name + "=";
    assert "; " + name + "=" == "; " + x;
    var i :| OccursAt("; " + c, "; " + x, i);
    OccurrenceInPrefixed(c, x, i);
    if i != 0 {
      assert OccursAt(c, "; " + x, i - 2);
    }
  }

  /** A text that lacks the first character of `sub` does not contain it. */
  lemma MissingFirstChar(s: string, sub: string)
    requires |sub| > 0 && sub[0] !in s
    ensures !Contains(s, sub)
  {
  }

  /** A lone cookie whose name only ends with `name` (such as "xadmin_token"
      for "admin_token") gives "". */
  lemma LongerNameDoesNotMatch(extra: string, name: string, v: string)
    requires |extra| > 0 && '=' !in extra + name
    requires ';' !in extra + name + "=" + v
    ensures GetCookie(extra + name + "=" + v, name) == ""
  {
    var c := extra + name + "=" + v;
    var sep := "; " + name + "=";
    assert c[|name|] == (extra + name)[|name|];
    assert !StartsWith(c, name + "=");
    MissingFirstChar(c, sep);
    if GetCookie(c, name) != "" {
      FoundOnlyAtCookieStart(c, name);
    }
  }

  /** A name that occurs twice gives "". */
  lemma TwiceGivesEmpty(documentCookie: string, name: string, i: int, j: int)
    requires OccursAt("; " + documentCookie, "; " + name + "=", i)
    requires OccursAt("; " + documentCookie, "; " + name + "=", j)
    requires i + |"; " + name + "="| <= j
    ensures GetCookie(documentCookie, name) == ""
  {
    var value := "; " + documentCookie;
    var sep := "; " + name + "=";
    var f := FindFrom(value, sep, 0).value;
    assert f <= i;
    var rest := value[f + |sep|..];
    assert OccursAt(rest, sep, j - f - |sep|) by {
      assert rest[j - f - |sep|..j - f] == value[j..j + |sep|];
    }
    SplitOfContained(rest, sep);
  }

  /** The delete request's URL: the category id after "/admin/categories/". */
  function DeleteUrl(apiUrl: string, categoryId: int): (r: string)
    ensures StartsWith(r, apiUrl + "/admin/categories/")
    ensures NumberOf(r[|apiUrl + "/admin/categories/"|..]) == Some(categoryId)
  {
    IdPath(apiUrl + "/admin/categories/", categoryId)
  }
}

=== FILE: category_form.dfy ===
/** The admin category form: prefilling in update mode and the multipart
    request built on submit. */
module CategoryForm {
  import opened Wrappers
  import opened Text
  import opened Decimal

  type ImageFile = string

  datatype Mode = AddMode | UpdateMode

  /** The category passed in for editing. */
  datatype CategoryDetail = CategoryDetail(
    id: int,
    name: string,
    slug: string,
    description: Option<string>,
    isActive: bool,
    images: Option<string>)

  /** The form state: four fields and the chosen image file, if any. */
  datatype State = State(name: string, slug: string, description: string, isActive: bool, image: Option<ImageFile>)

  const Initial: State := State("", "", "", true, None)

  /** The prefill effect: in update mode with a category, name, slug and
      isActive are copied and a missing or empty description becomes "";
      otherwise nothing changes. The chosen image is never touched. */
  function Prefill(s: State, mode: Mode, category: Option<CategoryDetail>): (r: State)
    ensures mode.UpdateMode? && category.Some? ==>
              r.name == category.value.name && r.slug == category.value.slug
              && r.isActive == category.value.isActive
              && r.description == OptOrElse(category.value.description, "")
    ensures !(mode.UpdateMode? && category.Some?) ==> r == s
    ensures r.image == s.image
  {
    if mode.UpdateMode? && category.Some? then
      var c := category.value;
      s.(name := c.name, slug := c.slug, description := OptOrElse(c.description, ""), isActive := c.isActive)
    else s
  }

  /** The JSON "data" part. */
  datatype Data = Data(name: string, slug: string, description: string, isActive: bool)

  datatype Method = Post | Put

  /** The request: method, URL, the "data" part and the optional "image"
      part. */
  datatype Request = Request(verb: Method, url: string, data: Data, image: Option<ImageFile>)

  const CategoriesPath: string := "/admin/categories"

  /** `category?.id` in a template: the id written in decimal, or
      "undefined" when there is no category. */
  function IdText(category: Option<CategoryDetail>): (r: string)
    ensures category.Some? ==> NumberOf(r) == Some(category.value.id)
    ensures category.None? ==> r == "undefined"
  {
    match category
    case Some(c) => NumberOfIntToString(c.id); IntToString(c.id)
    case None => "undefined"
  }

  /** `handleSubmit`: POST to the collection when adding, PUT to the
      category's own URL when updating; the data part always carries all
      four fields; the image part only when a file was chosen. */
  function BuildRequest(apiUrl: string, mode: Mode, category: Option<CategoryDetail>, s: State): (r: Request)
    ensures r.verb == Post <==> mode.AddMode?
    ensures mode.AddMode? ==> r.url == apiUrl + CategoriesPath
    ensures mode.UpdateMode? ==>
              StartsWith(r.url, apiUrl + CategoriesPath + "/")
              && r.url[|apiUrl + CategoriesPath + "/"|..] == IdText(category)
    ensures r.data == Data(s.name, s.slug, s.description, s.isActive)
    ensures r.image.Some? <==> s.image.Some?
    ensures r.image == s.image
  {
    var url := if mode.AddMode? then apiUrl + CategoriesPath
               else apiUrl + CategoriesPath + "/" + IdText(category);
    assert mode.UpdateMode? ==> url[|apiUrl + CategoriesPath + "/"|..] == IdText(category);
    Request(if mode.AddMode? then Post else Put, url, Data(s.name, s.slug, s.description, s.isActive), s.image)
  }

  /** Opening an existing category and saving without edits sends back its
      own fields, with the description defaulted, to its own URL. */
  lemma UnchangedUpdateResendsCategory(apiUrl: string, s: State, c: CategoryDetail)
    ensures var r := BuildRequest(apiUrl, UpdateMode, Some(c), Prefill(s, UpdateMode, Some(c)));
            && r.verb == Put
            && r.data == Data(c.name, c.slug, OptOrElse(c.description, ""), c.isActive)
            && NumberOf(r.url[|apiUrl + CategoriesPath + "/"|..]) == Some(c.id)
  {
  }
}

=== FILE: checkout_form.dfy ===
/** The checkout address form: its schema, turning a saved address into a
    shipping address (name split and line join), the default and explicit
    selection of a saved address, and the payload for a new address. */
module CheckoutForm {
  import opened Wrappers
  import opened Text
  import opened Decimal
  import opened Selection
  import opened Records
  import CheckoutStore

  /** The form data. */
  datatype FormData = FormData(
    firstName: string, lastName: string, address: string, line2: Option<string>,
    state: Option<string>, phone: string, city: string, zip: string, country: string)

  /** The schema's minimum lengths. */
  predicate Valid(d: FormData) {
    && |d.firstName| >= 3 && |d.lastName| >= 3 && |d.address| >= 5
    && |d.phone| >= 8 && |d.city| >= 3 && |d.zip| >= 5 && |d.country| >= 2
  }

  // ----- Names -----

  /** `const [first, ...rest] = fullName.split(" ")`: the first piece and the
      other pieces joined back with " ". */
  function NameParts(fullName: string): (r: (string, string))
    ensures ' ' !in r.0
    ensures !Contains(fullName, " ") ==> r == (fullName, "")
    ensures Contains(fullName, " ") ==> r.0 + " " + r.1 == fullName
  {
    var parts := Split(fullName, " ");
    var first := parts[0];
    assert ' ' !in first by {
      if ' ' in first {
        var k :| 0 <= k < |first| && first[k] == ' ';
        assert OccursAt(first, " ", k);
      }
    }
    if |parts| == 1 then (first, "")
    else
      assert Join(parts, " ") == first + " " + Join(parts[1..], " ");
      (first, Join(parts[1..], " "))
  }

  /** The split as written in the address mappings: an empty first piece
      falls back to the whole full name (`firstName || fullName || ""`). */
  function SplitNameAsWritten(fullName: string): (r: (string, string))
    ensures r.1 == NameParts(fullName).1
    ensures NameParts(fullName).0 != "" ==> r == NameParts(fullName)
    ensures NameParts(fullName).0 == "" ==> r.0 == fullName
  {
    var (first, last) := NameParts(fullName);
    (OrElse(first, fullName), last)
  }

  /** A full name with a leading space keeps the space and the whole name as
      the first name, so the name's words appear twice when the two parts
      are put back together. */
  lemma LeadingSpaceDuplicatesName(word: string)
    requires Truthy(word) && ' ' !in word
    ensures SplitNameAsWritten(" " + word) == (" " + word, word)
    ensures SplitNameAsWritten(" " + word).0 + " " + SplitNameAsWritten(" " + word).1 != " " + word
  {
    var s := " " + word;
    assert s == Join(["", word], " ");
    SplitJoin(["", word], ' ');
    var r := SplitNameAsWritten(s);
    assert |r.0 + " " + r.1| > |s|;
  }

  /** The split the mapping evidently intends: the first word and the rest,
      with no fallback. */
  function SplitName(fullName: string): (r: (string, string))
    ensures ' ' !in r.0
    ensures !Contains(fullName, " ") ==> r.0 == fullName && r.1 == ""
  {
    NameParts(fullName)
  }

  /** With a space in the name, first name, a space and last name give the
      full name back. */
  lemma SplitNameRejoins(fullName: string)
    requires Contains(fullName, " ")
    ensures SplitName(fullName).0 + " " + SplitName(fullName).1 == fullName
  {
  }

  /** The two splits agree unless the name starts with a space. */
  lemma SplitsAgreeWithoutLeadingSpace(fullName: string)
    requires fullName == "" || fullName[0] != ' '
    ensures SplitNameAsWritten(fullName) == SplitName(fullName)
  {
    var (first, last) := NameParts(fullName);
    if fullName != "" && first == "" {
      assert false;
    }
  }

  // ----- Address lines -----

  /** `[line1, line2].filter(Boolean).join(", ")`. */
  function JoinLines(line1: string, line2: Option<string>): (r: string)
    ensures Truthy(line1) && line2.Some? && Truthy(line2.value) ==> r == line1 + ", " + line2.value
    ensures Truthy(line1) && !(line2.Some? && Truthy(line2.value)) ==> r == line1
    ensures !Truthy(line1) && line2.Some? && Truthy(line2.value) ==> r == line2.value
    ensures !Truthy(line1) && !(line2.Some? && Truthy(line2.value)) ==> r == ""
  {
    var l2 := line2.GetOr("");
    var kept := Filter([line1, l2], Truthy);
    assert [line1, l2][1..] == [l2] && [l2][1..] == [];
    var tail := Filter([l2], Truthy);
    assert tail == (if Truthy(l2) then [l2] else []);
    assert kept == (if Truthy(line1) then [line1] + tail else tail);
    assert Truthy(line1) && Truthy(l2) ==> kept == [line1, l2];
    assert Join([line1, l2], ", ") == line1 + ", " + Join([l2], ", ");
    Join(kept, ", ")
  }

  /** The shipping address a saved address maps to, with the name split as
      the mappings write it. */
  function ToShipping(a: Address): (s: ShippingAddress)
    ensures (s.firstName, s.lastName) == SplitNameAsWritten(a.fullName)
    ensures (a.fullName == "" || a.fullName[0] != ' ') ==> (s.firstName, s.lastName) == SplitName(a.fullName)
    ensures ' ' !in a.fullName ==> s.firstName == a.fullName && s.lastName == ""
    ensures s.address == JoinLines(a.line1, a.line2)
    ensures s.phone == a.phone && s.city == a.city && s.zip == a.postalCode && s.country == a.country
  {
    assert (a.fullName == "" || a.fullName[0] != ' ') ==>
             SplitNameAsWritten(a.fullName) == SplitName(a.fullName) by {
      if a.fullName == "" || a.fullName[0] != ' ' {
        SplitsAgreeWithoutLeadingSpace(a.fullName);
      }
    }
    var (first, last) := SplitNameAsWritten(a.fullName);
    ShippingAddress(first, last, JoinLines(a.line1, a.line2), a.phone, a.city, a.postalCode, a.country)
  }

  /** Outside names that start with a space, the mapped first and last
      names are the name's first word and the rest, and they rejoin to the
      full name when it has a space. */
  lemma ToShippingRejoins(a: Address)
    requires a.fullName == "" || a.fullName[0] != ' '
    requires Contains(a.fullName, " ")
    ensures ' ' !in ToShipping(a).firstName
    ensures ToShipping(a).firstName + " " + ToShipping(a).lastName == a.fullName
  {
    SplitNameRejoins(a.fullName);
  }

  // ----- Selection -----

  /** The first address marked as default. */
  function DefaultAddress(list: seq<Address>): (r: Option<Address>)
    ensures r.Some? ==> r.value in list && r.value.isDefault
    ensures r.None? <==> forall k :: 0 <= k < |list| ==> !list[k].isDefault
    ensures r.Some? ==> exists k :: 0 <= k < |list| && list[k] == r.value
                                  && forall j :: 0 <= j < k ==> !list[j].isDefault
  {
    if list == [] then None
    else if list[0].isDefault then Some(list[0])
    else
      var r := DefaultAddress(list[1..]);
      assert r.Some? ==> exists k :: 0 <= k < |list| && list[k] == r.value
                                    && forall j :: 0 <= j < k ==> !list[j].isDefault by {
        if r.Some? {
          var k :| 0 <= k < |list[1..]| && list[1..][k] == r.value
                   && forall j :: 0 <= j < k ==> !list[1..][j].isDefault;
          assert list[k + 1] == r.value;
          assert forall j :: 0 <= j < k + 1 ==> !list[j].isDefault by {
            forall j | 0 <= j < k + 1 ensures !list[j].isDefault {
              if j > 0 { assert list[j] == list[1..][j - 1]; }
            }
          }
        }
      }
      r
  }

  /** The first address whose id, written in decimal, is `value`. */
  function FindById(list: seq<Address>, value: string): (r: Option<Address>)
    ensures r.Some? ==> r.value in list && IntToString(r.value.id) == value
    ensures r.None? ==> forall a :: a in list ==> IntToString(a.id) != value
    ensures r.Some? ==> exists k :: 0 <= k < |list| && list[k] == r.value
                                  && forall j :: 0 <= j < k ==> IntToString(list[j].id) != value
  {
    if list == [] then None
    else if IntToString(list[0].id) == value then Some(list[0])
    else
      var r := FindById(list[1..], value);
      assert r.Some? ==> exists k :: 0 <= k < |list| && list[k] == r.value
                                    && forall j :: 0 <= j < k ==> IntToString(list[j].id) != value by {
        if r.Some? {
          var k :| 0 <= k < |list[1..]| && list[1..][k] == r.value
                   && forall j :: 0 <= j < k ==> IntToString(list[1..][j].id) != value;
          assert list[k + 1] == r.value;
          assert forall j :: 0 <= j < k + 1 ==> IntToString(list[j].id) != value by {
            forall j | 0 <= j < k + 1 ensures IntToString(list[j].id) != value {
              if j > 0 { assert list[j] == list[1..][j - 1]; }
            }
          }
        }
      }
      r
  }

  /** The selection state: the chosen id and the checkout store. */
  datatype Picker = Picker(selectedId: string, store: CheckoutStore.State)

  /** On loading the saved addresses: the first default one, if any, is
      selected and becomes the shipping address; otherwise nothing
      changes. */
  function OnAddressesLoaded(p: Picker, list: seq<Address>): (r: Picker)
    ensures DefaultAddress(list).None? ==> r == p
    ensures DefaultAddress(list).Some? ==>
              r.selectedId == IntToString(DefaultAddress(list).value.id)
              && NumberOf(r.selectedId) == Some(DefaultAddress(list).value.id)
              && r.store.shippingAddress == Some(ToShipping(DefaultAddress(list).value))
              && r.store == CheckoutStore.SetShippingAddress(p.store, ToShipping(DefaultAddress(list).value))
  {
    match DefaultAddress(list)
    case None => p
    case Some(a) =>
      NumberOfIntToString(a.id);
      Picker(IntToString(a.id), CheckoutStore.SetShippingAddress(p.store, ToShipping(a)))
  }

  /** `handleSelectAddress(value)`: the id is always recorded; the shipping
      address changes only when a saved address has that id. */
  function SelectAddress(p: Picker, list: seq<Address>, value: string): (r: Picker)
    ensures r.selectedId == value
    ensures (forall a :: a in list ==> IntToString(a.id) != value) ==> r.store == p.store
    ensures FindById(list, value).Some? ==>
              r.store.shippingAddress == Some(ToShipping(FindById(list, value).value))
              && r.store == CheckoutStore.SetShippingAddress(p.store, ToShipping(FindById(list, value).value))
  {
    match FindById(list, value)
    case None => p.(selectedId := value)
    case Some(a) => Picker(value, CheckoutStore.SetShippingAddress(p.store, ToShipping(a)))
  }

  /** Selecting a saved address by its own id makes it the shipping
      address, when ids are distinct. */
  lemma SelectOwnId(p: Picker, list: seq<Address>, k: int)
    requires 0 <= k < |list|
    requires forall i, j :: 0 <= i < j < |list| ==> list[i].id != list[j].id
    ensures SelectAddress(p, list, IntToString(list[k].id)).store.shippingAddress == Some(ToShipping(list[k]))
  {
    var v := IntToString(list[k].id);
    var r := FindById(list, v);
    assert list[k] in list;
    var a := r.value;
    var i :| 0 <= i < |list| && list[i] == a;
    IntToStringInjective(a.id, list[k].id);
    assert i == k;
  }

  lemma IntToStringInjective(x: int, y: int)
    requires IntToString(x) == IntToString(y)
    ensures x == y
  {
    NumberOfIntToString(x);
    NumberOfIntToString(y);
  }

  // ----- New address -----

  /** The payload for creating an address from the form. */
  datatype NewAddress = NewAddress(
    fullName: string, phone: string, line1: string, line2: string, city: string,
    state: string, postalCode: string, country: string, isDefault: bool)

  function NewAddressPayload(d: FormData): (r: NewAddress)
    ensures r.fullName == Trim(d.firstName + " " + d.lastName)
    ensures !r.isDefault
    ensures r.line2 == OptOrElse(d.line2, "") && r.state == OptOrElse(d.state, "")
    ensures r.line1 == d.address && r.postalCode == d.zip && r.phone == d.phone
    ensures r.city == d.city && r.country == d.country
  {
    NewAddress(Trim(d.firstName + " " + d.lastName), d.phone, d.address, OptOrElse(d.line2, ""),
               d.city, OptOrElse(d.state, ""), d.zip, d.country, false)
  }

  /** The shipping address set from the created address: its name split,
      with the form's names where a part is empty. */
  function CreatedToShipping(created: Address, d: FormData): (s: ShippingAddress)
    ensures s.firstName == OrElse(SplitName(created.fullName).0, d.firstName)
    ensures s.lastName == OrElse(SplitName(created.fullName).1, d.lastName)
    ensures s.address == JoinLines(created.line1, created.line2)
    ensures s.phone == created.phone && s.city == created.city
            && s.zip == created.postalCode && s.country == created.country
  {
    var (first, last) := SplitName(created.fullName);
    ShippingAddress(OrElse(first, d.firstName), OrElse(last, d.lastName),
                    JoinLines(created.line1, created.line2), created.phone, created.city,
                    created.postalCode, created.country)
  }

  /** When the form's names are single words, the address created from the
      payload (its name stored as sent) maps back to the same first and
      last names. */
  lemma NewAddressNameRoundTrip(d: FormData, created: Address)
    requires Valid(d)
    requires ' ' !in d.firstName && ' ' !in d.lastName
    requires !IsSpace(d.firstName[0]) && !IsSpace(d.lastName[|d.lastName| - 1])
    requires created.fullName == NewAddressPayload(d).fullName
    ensures CreatedToShipping(created, d).firstName == d.firstName
    ensures CreatedToShipping(created, d).lastName == d.lastName
  {
    var s := d.firstName + " " + d.lastName;
    assert s[0] == d.firstName[0] && s[|s| - 1] == d.lastName[|d.lastName| - 1];
    TrimOfTrimmed(s);
    assert s == Join([d.firstName, d.lastName], " ");
    SplitJoin([d.firstName, d.lastName], ' ');
  }

  /** Submitting the form without the new-address panel stores the form's
      fields as the shipping address. */
  function SaveShipping(store: CheckoutStore.State, d: FormData): (r: CheckoutStore.State)
    ensures r.shippingAddress == Some(ShippingAddress(d.firstName, d.lastName, d.address, d.phone, d.city, d.zip, d.country))
  {
    CheckoutStore.SetShippingAddress(store, ShippingAddress(d.firstName, d.lastName, d.address, d.phone, d.city, d.zip, d.country))
  }
}

=== FILE: decimal.dfy ===
/** Decimal text for integers: `String(n)`, `Number(s)` and `parseInt(s, 10)`
    restricted to integer values (no fractions, exponents, hexadecimal or
    `Infinity`). A JavaScript `NaN` is `None`. */
module Decimal {
  import opened Wrappers
  import opened Text

  predicate IsDigit(c: char) {
    '0' <= c <= '9'
  }

  predicate AllDigits(s: string) {
    forall k :: 0 <= k < |s| ==> IsDigit(s[k])
  }

  function DigitValue(c: char): (d: nat)
    requires IsDigit(c)
    ensures d < 10
  {
    c as int - '0' as int
  }

  function DigitChar(d: nat): (c: char)
    requires d < 10
    ensures IsDigit(c) && DigitValue(c) == d
  {
    ('0' as int + d) as char
  }

  /** The value of a string of decimal digits, most significant first. */
  function DigitsValue(s: string): nat
    requires AllDigits(s)
  {
    if s == [] then 0 else 10 * DigitsValue(s[..|s| - 1]) + DigitValue(s[|s| - 1])
  }

  /** `String(n)` for a natural number: the shortest decimal numeral of `n`. */
  function NatToString(n: nat): (r: string)
    ensures |r| >= 1 && AllDigits(r)
    ensures DigitsValue(r) == n
    ensures r[0] == '0' ==> r == "0"
  {
    if n < 10 then [DigitChar(n)]
    else
      var a := NatToString(n / 10);
      var r := a + [DigitChar(n % 10)];
      assert r[..|r| - 1] == a;
      r
  }

  /** `String(i)` for an integer: a minus sign before the numeral of `-i`
      when `i` is negative. */
  function IntToString(i: int): (r: string)
    ensures |r| >= 1
    ensures i >= 0 <==> r[0] != '-'
    ensures forall k :: 0 <= k < |r| ==> !IsSpace(r[k])
  {
    if i < 0 then "-" + NatToString(-i) else NatToString(i)
  }

  /** An optional sign followed by at least one digit, with nothing else. */
  function ParseSigned(s: string): (r: Option<int>)
    ensures r.Some? ==> |s| >= 1
  {
    if |s| >= 1 && (s[0] == '-' || s[0] == '+') then
      var body := s[1..];
      if |body| >= 1 && AllDigits(body) then
        var v: int := DigitsValue(body);
        Some(if s[0] == '-' then -v else v)
      else None
    else if |s| >= 1 && AllDigits(s) then Some(DigitsValue(s))
    else None
  }

  /** `Number(s)` on integer text: surrounding white space is ignored, blank
      text is 0, and anything that is not an optionally signed run of digits is
      `NaN`. */
  function NumberOf(s: string): (r: Option<int>)
    ensures Trim(s) == "" ==> r == Some(0)
    ensures Trim(s) != "" && AllDigits(Trim(s)) ==> r == Some(DigitsValue(Trim(s)))
  {
    var t := Trim(s);
    if t == "" then Some(0) else ParseSigned(t)
  }

  /** The longest prefix of digits. */
  function LeadingDigits(s: string): (r: string)
    ensures StartsWith(s, r) && AllDigits(r)
    ensures |r| < |s| ==> !IsDigit(s[|r|])
  {
    if s == [] || !IsDigit(s[0]) then [] else [s[0]] + LeadingDigits(s[1..])
  }

  /** `parseInt(s, 10)`: leading white space and one sign are skipped, then the
      longest run of digits is read; no digits at all is `NaN`. */
  function ParseIntPrefix(s: string): (r: Option<int>)
    ensures r.Some? ==> exists k :: 0 <= k < |s| && IsDigit(s[k])
  {
    var t := TrimStart(s);
    var negative := |t| >= 1 && t[0] == '-';
    var body := if |t| >= 1 && (t[0] == '-' || t[0] == '+') then t[1..] else t;
    var digits := LeadingDigits(body);
    if digits == [] then None
    else
      assert body[0] == digits[0];
      assert exists k :: 0 <= k < |t| && IsDigit(t[k]);
      var v: int := DigitsValue(digits);
      Some(if negative then -v else v)
  }

  /** Reading back a natural number's numeral gives the number. */
  lemma NatRoundTrip(n: nat)
    ensures ParseSigned(NatToString(n)) == Some(n)
    ensures LeadingDigits(NatToString(n)) == NatToString(n)
  {
    LeadingDigitsOfDigits(NatToString(n));
  }

  lemma {:induction false} LeadingDigitsOfDigits(s: string)
    requires AllDigits(s)
    ensures LeadingDigits(s) == s
    decreases |s|
  {
    if s != [] {
      LeadingDigitsOfDigits(s[1..]);
    }
  }

  /** `Number(String(i)) == i` for every integer `i`. */
  lemma {:induction false} NumberOfIntToString(i: int)
    ensures NumberOf(IntToString(i)) == Some(i)
  {
    var r := IntToString(i);
    NoSpaceTrim(r);
    NatRoundTrip(if i < 0 then -i else i);
    if i < 0 {
      assert r[1..] == NatToString(-i);
    }
  }
  /** A path that ends in an id: `prefix` followed by the id's numeral, which
      reads back as the id. */
  function IdPath(prefix: string, id: int): (r: string)
    ensures StartsWith(r, prefix) && |r| > |prefix|
    ensures NumberOf(r[|prefix|..]) == Some(id)
  {
    var r := prefix + IntToString(id);
    assert r[|prefix|..] == IntToString(id);
    NumberOfIntToString(id);
    r
  }


  /** `parseInt(String(i), 10) == i` for every integer `i`. */
  lemma {:induction false} ParseIntOfIntToString(i: int)
    ensures ParseIntPrefix(IntToString(i)) == Some(i)
  {
    var r := IntToString(i);
    assert TrimStart(r) == r;
    NatRoundTrip(if i < 0 then -i else i);
    if i < 0 {
      assert r[1..] == NatToString(-i);
    }
  }

  /** Text without white space is its own trim. */
  lemma NoSpaceTrim(s: string)
    requires forall k :: 0 <= k < |s| ==> !IsSpace(s[k])
    ensures Trim(s) == s
  {
    assert TrimStart(s) == s;
    assert TrimEnd(s) == s;
  }
}

=== FILE: filters.dfy ===
/** The shop page's product filters: the filter panel's state and handlers,
    and the page that keeps the filters in the URL's query. */
module ShopFilters {
  import opened Wrappers
  import opened Text
  import opened Decimal
  import opened QueryParams
  import opened Lookup

  /** The five filter values. Prices are whole numbers here. */
  datatype Filters = Filters(category: string, brand: string, color: string, minPrice: int, maxPrice: int)

  const DefaultMin: int := 10
  const DefaultMax: int := 5000
  const Cleared: Filters := Filters("", "", "", DefaultMin, DefaultMax)

  // ----- The filter panel -----

  /** The panel's state from its `filters` prop; every field of the prop is
      present, so without a prop the defaults apply. The same assignment is
      made again whenever the prop changes. */
  function Initial(prop: Option<Filters>): (f: Filters)
    ensures prop.Some? ==> f == prop.value
    ensures prop.None? ==> f == Cleared
  {
    prop.GetOr(Cleared)
  }

  /** Picking the selected value clears it; any other value replaces it. */
  function Pick(current: string, value: string): (r: string)
    ensures value == current ==> r == ""
    ensures value != current ==> r == value
  {
    if value == current then "" else value
  }

  function SelectCategory(f: Filters, c: string): (r: Filters)
    ensures r.category == Pick(f.category, c)
    ensures r.(category := f.category) == f
  {
    f.(category := Pick(f.category, c))
  }

  function SelectColor(f: Filters, c: string): (r: Filters)
    ensures r.color == Pick(f.color, c)
    ensures r.(color := f.color) == f
  {
    f.(color := Pick(f.color, c))
  }

  function SelectBrand(f: Filters, b: string): (r: Filters)
    ensures r.brand == Pick(f.brand, b)
    ensures r.(brand := f.brand) == f
  {
    f.(brand := Pick(f.brand, b))
  }

  /** The price inputs, given the number the input's value converts to. */
  function SetMinPrice(f: Filters, n: int): (r: Filters)
    ensures r.minPrice == n && r.(minPrice := f.minPrice) == f
  {
    f.(minPrice := n)
  }

  function SetMaxPrice(f: Filters, n: int): (r: Filters)
    ensures r.maxPrice == n && r.(maxPrice := f.maxPrice) == f
  {
    f.(maxPrice := n)
  }

  /** `clearFilter`. */
  function ClearFilter(f: Filters): (r: Filters)
    ensures r.category == "" && r.brand == "" && r.color == ""
    ensures r.minPrice == DefaultMin && r.maxPrice == DefaultMax
  {
    Cleared
  }

  /** Picking an unselected value twice leaves nothing selected; picking
      the selected (non-empty) value twice selects it again. */
  lemma PickTwice(current: string, value: string)
    ensures value != current ==> Pick(Pick(current, value), value) == ""
    ensures value == current && value != "" ==> Pick(Pick(current, value), value) == value
  {
  }

  /** A category picked twice from an empty selection is cleared again. */
  lemma SelectCategoryTwice(f: Filters, c: string)
    requires f.category == "" && c != ""
    ensures SelectCategory(SelectCategory(f, c), c) == f
  {
  }

  // ----- The shop page -----

  /** `Number(params.get(name)) || default`: a missing parameter (read as
      0), a zero, or a value that is not a number gives the default. */
  function NumberParam(p: Params, name: string, default: int): (r: int)
    ensures name !in p ==> r == default
    ensures name in p && NumberOf(p[name]).Some? && NumberOf(p[name]).value != 0
            ==> r == NumberOf(p[name]).value
    ensures name in p && (NumberOf(p[name]).None? || NumberOf(p[name]) == Some(0)) ==> r == default
    ensures r != 0 || default == 0
  {
    match Get(p, name)
    case None => default
    case Some(v) =>
      match NumberOf(v)
      case None => default
      case Some(n) => if n != 0 then n else default
  }

  /** The filters read from the query. */
  function FromParams(p: Params): (f: Filters)
    ensures f.category == GetOrEmpty(p, "category") && f.brand == GetOrEmpty(p, "brand")
    ensures f.color == GetOrEmpty(p, "color")
    ensures f.minPrice == NumberParam(p, "minPrice", DefaultMin)
    ensures f.maxPrice == NumberParam(p, "maxPrice", DefaultMax)
    ensures f.minPrice != 0 && f.maxPrice != 0
  {
    Filters(GetOrEmpty(p, "category"), GetOrEmpty(p, "brand"), GetOrEmpty(p, "color"),
            NumberParam(p, "minPrice", DefaultMin), NumberParam(p, "maxPrice", DefaultMax))
  }

  /** `handleFiltersChange`: a fresh query holding the non-empty text filters
      and both prices; nothing else of the old query survives. */
  function ToParams(f: Filters): (p: Params)
    ensures p.Keys <= {"category", "brand", "color", "minPrice", "maxPrice"}
    ensures "category" in p <==> f.category != ""
    ensures "brand" in p <==> f.brand != ""
    ensures "color" in p <==> f.color != ""
    ensures "category" in p ==> p["category"] == f.category
    ensures "brand" in p ==> p["brand"] == f.brand
    ensures "color" in p ==> p["color"] == f.color
    ensures "minPrice" in p && p["minPrice"] == IntToString(f.minPrice)
    ensures "maxPrice" in p && p["maxPrice"] == IntToString(f.maxPrice)
  {
    var p0: Params := map[];
    var p1 := if Truthy(f.category) then Set(p0, "category", f.category) else p0;
    var p2 := if Truthy(f.brand) then Set(p1, "brand", f.brand) else p1;
    var p3 := if Truthy(f.color) then Set(p2, "color", f.color) else p2;
    var p4 := Set(p3, "minPrice", IntToString(f.minPrice));
    Set(p4, "maxPrice", IntToString(f.maxPrice))
  }

  /** Writing the filters to the query and reading them back gives them
      back, as long as neither price is zero (a zero price reads back as
      its default). */
  lemma ParamsRoundTrip(f: Filters)
    requires f.minPrice != 0 && f.maxPrice != 0
    ensures FromParams(ToParams(f)) == f
  {
    NumberOfIntToString(f.minPrice);
    NumberOfIntToString(f.maxPrice);
  }

  /** A zero price does not survive the round trip. */
  lemma ZeroPriceBecomesDefault(f: Filters)
    requires f.minPrice == 0
    ensures FromParams(ToParams(f)).minPrice == DefaultMin
  {
    NumberOfIntToString(0);
  }

  /** Whatever the query, the filters it gives are written back and read to
      the same filters; the page number does not survive. */
  lemma FiltersStable(p: Params)
    ensures FromParams(ToParams(FromParams(p))) == FromParams(p)
    ensures "page" !in ToParams(FromParams(p))
  {
    ParamsRoundTrip(FromParams(p));
    PageNotWritten(FromParams(p));
  }

  /** The written query never holds a page number. */
  lemma PageNotWritten(f: Filters)
    ensures "page" !in ToParams(f)
  {
    var names := {"category", "brand", "color", "minPrice", "maxPrice"};
    assert "page" !in names by {
      assert "page"[0] == 'p';
      assert "category"[0] == 'c' && "brand"[0] == 'b' && "color"[0] == 'c';
      assert "minPrice"[0] == 'm' && "maxPrice"[0] == 'm';
    }
  }
}

=== FILE: hero_banner.dfy ===
/** The home page's hero slider: ordering the loaded slides, moving between
    them by hand and by the autoplay timer, and each slide's text
    alignment. */
module HeroBanner {
  import opened Wrappers
  import opened Text
  import opened Records
  import opened Sorting

  /** JavaScript's `%`, which truncates toward zero: the result takes the
      sign of the dividend. */
  function JsRem(a: int, n: int): (r: int)
    requires n > 0
    ensures a >= 0 ==> 0 <= r < n && r == a % n
    ensures a < 0 ==> -n < r <= 0
  {
    if a >= 0 then a % n else -((-a) % n)
  }

  /** `(i + 1) % n`. The controls and the timer exist only when there are
      slides, so `n` is positive. */
  function GoNext(i: int, n: int): (r: int)
    requires n > 0
    ensures 0 <= i < n ==> 0 <= r < n
    ensures 0 <= i < n - 1 ==> r == i + 1
    ensures i == n - 1 ==> r == 0
  {
    JsRem(i + 1, n)
  }

  /** `(i - 1 + n) % n`. */
  function GoPrev(i: int, n: int): (r: int)
    requires n > 0
    ensures 0 <= i < n ==> 0 <= r < n
    ensures 0 < i < n ==> r == i - 1
    ensures i == 0 ==> r == n - 1
  {
    JsRem(i - 1 + n, n)
  }

  /** Each step undoes the other. */
  lemma PrevNextInverse(i: int, n: int)
    requires 0 <= i < n
    ensures GoPrev(GoNext(i, n), n) == i
    ensures GoNext(GoPrev(i, n), n) == i
  {
  }

  /** `k` steps forward. */
  function Advance(i: int, k: nat, n: int): (r: int)
    requires n > 0
    requires 0 <= i < n
    ensures 0 <= r < n
  {
    if k == 0 then i else GoNext(Advance(i, k - 1, n), n)
  }

  /** Without wrapping, `k` steps forward add `k`. */
  lemma {:induction false} AdvanceNoWrap(i: int, k: nat, n: int)
    requires 0 <= i < n && i + k < n
    ensures Advance(i, k, n) == i + k
  {
    if k > 0 {
      AdvanceNoWrap(i, k - 1, n);
    }
  }

  /** Steps compose: `a` steps then `b` steps are `a + b` steps. */
  lemma {:induction false} AdvanceAdds(i: int, a: nat, b: nat, n: int)
    requires 0 <= i < n
    ensures Advance(Advance(i, a, n), b, n) == Advance(i, a + b, n)
  {
    if b > 0 {
      AdvanceAdds(i, a, b - 1, n);
    }
  }

  /** After `n` steps the slider is back where it started: `n - i` steps
      reach the first slide, `i` more reach `i` again. */
  lemma FullCycle(i: int, n: int)
    requires 0 <= i < n
    ensures Advance(i, n, n) == i
  {
    AdvanceNoWrap(i, n - 1 - i, n);
    assert Advance(i, n - i, n) == 0;
    AdvanceAdds(i, n - i, i, n);
    if i > 0 {
      AdvanceNoWrap(0, i, n);
    }
  }

  /** The slider's state. */
  datatype Banner = Banner(slides: seq<Slider>, active: int, loading: bool)

  const Initial: Banner := Banner([], 0, true)

  /** The sort key: `displayOrder || 0`. */
  function Order(s: Slider): int {
    s.displayOrder.GetOr(0)
  }

  /** The slides once loaded: a copy sorted by display order (stably), the
      first one active; an empty load shows no slides and keeps the index. */
  function OnLoaded(b: Banner, data: seq<Slider>): (r: Banner)
    ensures !r.loading
    ensures data != [] ==> r.active == 0 && SortedByKey(r.slides, Order)
                           && multiset(r.slides) == multiset(data)
    ensures data == [] ==> r.slides == [] && r.active == b.active
  {
    if |data| > 0 then Banner(SortByKey(data, Order), 0, false)
    else Banner([], b.active, false)
  }

  /** A failed load only ends the loading state. */
  function OnLoadFailed(b: Banner): (r: Banner)
    ensures r == b.(loading := false)
  {
    b.(loading := false)
  }

  /** Slides without display orders keep the order they were served in. */
  lemma UnorderedSlidesKeepOrder(b: Banner, data: seq<Slider>)
    requires data != []
    requires forall k :: 0 <= k < |data| ==> data[k].displayOrder.None?
    ensures OnLoaded(b, data).slides == data
  {
    EqualKeysKeepOrder(data, Order, 0);
  }

  /** The autoplay tick: the same step as "next"; with no slides no timer
      runs and nothing changes. */
  function Tick(b: Banner): (r: Banner)
    ensures b.slides == [] ==> r == b
    ensures b.slides != [] ==> r == b.(active := GoNext(b.active, |b.slides|))
  {
    if |b.slides| == 0 then b else b.(active := GoNext(b.active, |b.slides|))
  }

  /** The active index stays a valid slide position under ticks. */
  lemma TickKeepsActiveInRange(b: Banner)
    requires 0 <= b.active < |b.slides|
    ensures 0 <= Tick(b).active < |Tick(b).slides|
  {
  }

  /** Previous/next buttons and dots are shown only for two or more
      slides. */
  function ShowsControls(b: Banner): (r: bool)
    ensures r <==> |b.slides| >= 2
  {
    |b.slides| > 1
  }

  datatype Align = Start | Center | End

  /** `textAlign || "center"` mapped to a layout: left to start, right to
      end, anything else to center. */
  function AlignOf(s: Slider): (r: Align)
    ensures s.textAlign == Some("left") <==> r == Start
    ensures s.textAlign == Some("right") <==> r == End
  {
    var a := OptOrElse(s.textAlign, "center");
    if a == "left" then Start else if a == "right" then End else Center
  }

  /** The button label: `buttonText || "Shop Now"`. */
  function ButtonText(s: Slider): (r: string)
    ensures s.buttonText.Some? && Truthy(s.buttonText.value) ==> r == s.buttonText.value
    ensures !(s.buttonText.Some? && Truthy(s.buttonText.value)) ==> r == "Shop Now"
  {
    OptOrElse(s.buttonText, "Shop Now")
  }
}

=== FILE: lookup.dfy ===
/** Map reads: `m.get(k)`, `new Map(pairs)` and the
    `names.map(n => m.get(n)).filter(defined)` idiom the forms use to
    translate between category names and ids. */
module Lookup {
  import opened Wrappers
  import opened Selection

  /** `m.get(k)`: the value under `k`, or `None` when `k` is absent. */
  function Get<K(==), V>(m: map<K, V>, k: K): (r: Option<V>)
    ensures r.Some? <==> k in m
    ensures r.Some? ==> r.value == m[k]
  {
    if k in m then Some(m[k]) else None
  }

  /** `new Map(pairs)`: every key of the pairs is present, and a key that
      occurs more than once maps to the value of its last pair. */
  function LastWins<K(==,!new), V(!new)>(pairs: seq<(K, V)>): (m: map<K, V>)
    ensures forall k :: k in m <==> exists i :: 0 <= i < |pairs| && pairs[i].0 == k
    ensures forall i :: 0 <= i < |pairs| ==>
              ((forall j :: i < j < |pairs| ==> pairs[j].0 != pairs[i].0) ==> m[pairs[i].0] == pairs[i].1)
  {
    if pairs == [] then map[]
    else
      var init := pairs[..|pairs| - 1];
      var last := pairs[|pairs| - 1];
      var m := LastWins(init);
      assert forall i :: 0 <= i < |init| ==> init[i] == pairs[i];
      m[last.0 := last.1]
  }

  /** The values of the keys that are present, in the order of `keys`; keys
      without a value are dropped. */
  function Known<K(==,!new), V(!new)>(keys: seq<K>, m: map<K, V>): (r: seq<V>)
    ensures |r| <= |keys|
    ensures forall v :: v in r <==> exists k :: k in keys && k in m && m[k] == v
    ensures (forall k :: k in keys ==> k in m) ==>
              |r| == |keys| && forall i :: 0 <= i < |keys| ==> r[i] == m[keys[i]]
  {
    if keys == [] then []
    else
      var rest := Known(keys[1..], m);
      assert forall k :: k in keys <==> k == keys[0] || k in keys[1..];
      if keys[0] in m then [m[keys[0]]] + rest else rest
  }

  /** `keys.map(k => m.get(k)).filter(defined)` is the same as keeping the
      known keys first and then reading each: the values come in the order
      of their keys. */
  lemma {:induction false} KnownInOrder<K(!new), V(!new)>(keys: seq<K>, m: map<K, V>)
    ensures var kept := Filter(keys, k => k in m);
            |Known(keys, m)| == |kept|
            && forall i :: 0 <= i < |kept| ==> kept[i] in m && Known(keys, m)[i] == m[kept[i]]
  {
    if keys != [] {
      var known := (k: K) => k in m;
      KnownInOrder(keys[1..], m);
      var kept, tail := Filter(keys, known), Filter(keys[1..], known);
      var r, rt := Known(keys, m), Known(keys[1..], m);
      if keys[0] in m {
        assert kept == [keys[0]] + tail;
        assert r == [m[keys[0]]] + rt;
        forall i | 0 <= i < |kept|
          ensures kept[i] in m && r[i] == m[kept[i]]
        {
          if i > 0 {
            assert kept[i] == tail[i - 1] && r[i] == rt[i - 1];
          }
        }
      } else {
        assert kept == tail && r == rt;
      }
    }
  }
}

=== FILE: middleware.dfy ===
/** Request admission for the Next.js middleware: dashboard paths need an
    `admin_token` cookie, customer paths an `auth_token` cookie; only the
    presence of a non-empty value is checked. Cookies are optional strings. */
module Middleware {
  import opened Wrappers
  import opened Text
  import opened QueryParams

  const ProtectedRoutes: seq<string> := ["/my-account", "/my-orders", "/wishlist", "/checkout", "/cart", "/checkout"]
  const DashboardRoutes: seq<string> := ["/dashboard"]

  /** `routes.some(route => pathname.startsWith(route))`. */
  predicate StartsWithAny(pathname: string, routes: seq<string>) {
    exists k :: 0 <= k < |routes| && StartsWith(pathname, routes[k])
  }

  predicate IsDashboardRoute(pathname: string) {
    StartsWithAny(pathname, DashboardRoutes)
  }

  predicate IsProtectedRoute(pathname: string) {
    StartsWithAny(pathname, ProtectedRoutes)
  }

  datatype Decision = Next | Redirect(path: string, query: Params)

  /** The redirect to a login page that brings the user back afterwards. */
  function LoginRedirect(loginPath: string, pathname: string): (d: Decision)
    ensures d.Redirect? && d.path == loginPath
    ensures d.query.Keys == {"redirect"} && d.query["redirect"] == pathname
  {
    Redirect(loginPath, Set(map[], "redirect", pathname))
  }

  /** `middleware`: the dashboard check first (sparing only "/login"), then
      the customer check, otherwise the request goes through. */
  function Decide(pathname: string, adminToken: Option<string>, authToken: Option<string>): (d: Decision)
    ensures IsDashboardRoute(pathname) && pathname != "/login" && !Truthy(adminToken.GetOr(""))
            ==> d == LoginRedirect("/login", pathname)
    ensures d == LoginRedirect("/login", pathname)
            ==> IsDashboardRoute(pathname) && !Truthy(adminToken.GetOr(""))
    ensures d == LoginRedirect("/sign-in", pathname)
            <==> IsProtectedRoute(pathname) && !Truthy(authToken.GetOr(""))
                 && !(IsDashboardRoute(pathname) && pathname != "/login" && !Truthy(adminToken.GetOr("")))
    ensures d.Next? <==> (!IsDashboardRoute(pathname) || pathname == "/login" || Truthy(adminToken.GetOr("")))
                         && (!IsProtectedRoute(pathname) || Truthy(authToken.GetOr("")))
  {
    var isDashboardRoute := exists k :: 0 <= k < |DashboardRoutes| && StartsWith(pathname, DashboardRoutes[k]);
    var isDashboardLogin := pathname == "/login";
    if isDashboardRoute && !isDashboardLogin && OptOrElse(adminToken, "") == "" then
      LoginRedirect("/login", pathname)
    else if (exists k :: 0 <= k < |ProtectedRoutes| && StartsWith(pathname, ProtectedRoutes[k]))
            && OptOrElse(authToken, "") == "" then
      LoginRedirect("/sign-in", pathname)
    else Next
  }

  /** No path is both a dashboard route and a customer route. */
  lemma RoutesDisjoint(pathname: string)
    ensures !(IsDashboardRoute(pathname) && IsProtectedRoute(pathname))
  {
    if IsDashboardRoute(pathname) {
      assert pathname[1] == 'd';
      forall k | 0 <= k < |ProtectedRoutes| ensures !StartsWith(pathname, ProtectedRoutes[k]) {
        assert ProtectedRoutes[k][1] != 'd';
      }
    }
  }

  /** A dashboard path with an admin token goes through, whatever the
      customer cookie. */
  lemma AdminTokenSuffices(pathname: string, adminToken: string, authToken: Option<string>)
    requires IsDashboardRoute(pathname) && adminToken != ""
    ensures Decide(pathname, Some(adminToken), authToken) == Next
  {
    RoutesDisjoint(pathname);
  }

  /** Only presence matters: any two non-empty values decide alike. */
  lemma OnlyPresenceMatters(pathname: string, a1: string, a2: string, c1: string, c2: string)
    requires a1 != "" && a2 != "" && c1 != "" && c2 != ""
    ensures Decide(pathname, Some(a1), Some(c1)) == Decide(pathname, Some(a2), Some(c2)) == Next
  {
  }

  /** A path matching neither route list goes through whatever the cookies. */
  lemma UnguardedPathsPass(pathname: string, adminToken: Option<string>, authToken: Option<string>)
    requires !IsDashboardRoute(pathname) && !IsProtectedRoute(pathname)
    ensures Decide(pathname, adminToken, authToken) == Next
  {
  }

  /** The prefix test is on raw text: "/cartoon" is a customer route,
      "/dashboardx" a dashboard route, and "/dashboard/login" is not spared. */
  lemma RawPrefixExamples()
    ensures Decide("/cartoon", None, None) == LoginRedirect("/sign-in", "/cartoon")
    ensures Decide("/dashboardx", None, None) == LoginRedirect("/login", "/dashboardx")
    ensures Decide("/dashboard/login", None, None) == LoginRedirect("/login", "/dashboard/login")
    ensures Decide("/login", None, None) == Next
  {
    assert StartsWith("/cartoon", ProtectedRoutes[4]);
    assert StartsWith("/dashboardx", DashboardRoutes[0]);
    assert StartsWith("/dashboard/login", DashboardRoutes[0]);
    assert !IsDashboardRoute("/login") by {
      assert "/login"[1] != "/dashboard"[1];
    }
    RoutesDisjoint("/dashboardx");
    RoutesDisjoint("/dashboard/login");
    assert !IsProtectedRoute("/login") by {
      forall k | 0 <= k < |ProtectedRoutes| ensures !StartsWith("/login", ProtectedRoutes[k]) {
        assert "/login"[1] != ProtectedRoutes[k][1];
      }
    }
  }

  /** One `config.matcher` entry: "/base/:path*" matches the base path itself
      and every path below it; "/login" matches only itself. */
  predicate MatchesEntry(pathname: string, base: string, withSubpaths: bool) {
    pathname == base || (withSubpaths && StartsWith(pathname, base + "/"))
  }

  /** The paths the middleware runs on. */
  predicate Matched(pathname: string) {
    || MatchesEntry(pathname, "/dashboard", true)
    || MatchesEntry(pathname, "/login", false)
    || MatchesEntry(pathname, "/my-account", true)
    || MatchesEntry(pathname, "/my-orders", true)
    || MatchesEntry(pathname, "/wishlist", true)
    || MatchesEntry(pathname, "/checkout", true)
    || MatchesEntry(pathname, "/cart", true)
  }

  /** What a request meets: the middleware's decision on matched paths, and
      no interference on the others. */
  function Admit(pathname: string, adminToken: Option<string>, authToken: Option<string>): (d: Decision)
    ensures !Matched(pathname) ==> d.Next?
    ensures Matched(pathname) ==> d == Decide(pathname, adminToken, authToken)
  {
    if Matched(pathname) then Decide(pathname, adminToken, authToken) else Next
  }

  lemma EntryPrefix(pathname: string, base: string, withSubpaths: bool)
    requires MatchesEntry(pathname, base, withSubpaths)
    ensures StartsWith(pathname, base)
  {
    if pathname != base {
      assert pathname[..|base|] == (base + "/")[..|base|];
    }
  }

  lemma DiffersAt(pathname: string, base: string, i: nat)
    requires i < |pathname| && i < |base| && pathname[i] != base[i]
    ensures !MatchesEntry(pathname, base, true) && !MatchesEntry(pathname, base, false)
  {
    assert (base + "/")[i] == base[i];
  }

  lemma {:induction false} ExtendsWithoutSlash(pathname: string, base: string)
    requires |base| < |pathname| && pathname[|base|] != '/'
    ensures !MatchesEntry(pathname, base, true)
  {
    assert (base + "/")[|base|] == '/';
  }

  /** Every matched path other than "/login" is guarded by one of the two
      prefix lists, while "/cartoon" and "/dashboardx", which the prefix test
      would redirect, never reach the middleware. */
  lemma MatcherCoversGuardedRoutes(pathname: string)
    requires Matched(pathname) && pathname != "/login"
    ensures IsDashboardRoute(pathname) || IsProtectedRoute(pathname)
    ensures Admit("/cartoon", None, None) == Next && Admit("/dashboardx", None, None) == Next
  {
    var c := "/cartoon";
    DiffersAt(c, "/dashboard", 1);
    DiffersAt(c, "/login", 1);
    DiffersAt(c, "/my-account", 1);
    DiffersAt(c, "/my-orders", 1);
    DiffersAt(c, "/wishlist", 1);
    DiffersAt(c, "/checkout", 2);
    ExtendsWithoutSlash(c, "/cart");
    var d := "/dashboardx";
    ExtendsWithoutSlash(d, "/dashboard");
    DiffersAt(d, "/login", 1);
    DiffersAt(d, "/my-account", 1);
    DiffersAt(d, "/my-orders", 1);
    DiffersAt(d, "/wishlist", 1);
    DiffersAt(d, "/checkout", 1);
    DiffersAt(d, "/cart", 1);
    if MatchesEntry(pathname, "/dashboard", true) {
      EntryPrefix(pathname, "/dashboard", true);
      assert StartsWith(pathname, DashboardRoutes[0]);
    } else if MatchesEntry(pathname, "/my-account", true) {
      EntryPrefix(pathname, "/my-account", true);
      assert StartsWith(pathname, ProtectedRoutes[0]);
    } else if MatchesEntry(pathname, "/my-orders", true) {
      EntryPrefix(pathname, "/my-orders", true);
      assert StartsWith(pathname, ProtectedRoutes[1]);
    } else if MatchesEntry(pathname, "/wishlist", true) {
      EntryPrefix(pathname, "/wishlist", true);
      assert StartsWith(pathname, ProtectedRoutes[2]);
    } else if MatchesEntry(pathname, "/checkout", true) {
      EntryPrefix(pathname, "/checkout", true);
      assert StartsWith(pathname, ProtectedRoutes[3]);
    } else {
      EntryPrefix(pathname, "/cart", true);
      assert StartsWith(pathname, ProtectedRoutes[4]);
    }
  }
}

=== FILE: pagination.dfy ===
/** The storefront and dashboard paging controls: page buttons with
    previous/next, and the page-size picker. Both keep their state in the
    URL's query. */
module Pagination {
  import opened Wrappers
  import opened Text
  import opened Decimal
  import opened QueryParams

  const DefaultPageName: string := "page"

  /** `handleChange(page)`: a page outside 1..totalPages does nothing;
      otherwise the page parameter is set and every other parameter kept,
      on the same path. */
  function HandleChange(params: Params, pathname: string, pageName: string, totalPages: int, page: int)
    : (r: Option<Navigation>)
    ensures r.Some? <==> 1 <= page <= totalPages
    ensures r.Some? ==> r.value.path == pathname
                        && pageName in r.value.query && r.value.query[pageName] == IntToString(page)
                        && AgreeExcept(params, r.value.query, {pageName})
  {
    if page < 1 || page > totalPages then None
    else Some(Navigation(pathname, Set(params, pageName, IntToString(page))))
  }

  /** The page parameter written by a navigation reads back as the page. */
  lemma PageReadsBack(params: Params, pathname: string, pageName: string, totalPages: int, page: int)
    requires 1 <= page <= totalPages
    ensures ParseIntPrefix(HandleChange(params, pathname, pageName, totalPages, page).value.query[pageName]) == Some(page)
  {
    ParseIntOfIntToString(page);
  }

  /** A page button: its number and whether it is highlighted. */
  datatype PageButton = PageButton(number: int, current: bool)

  /** The buttons 1..totalPages, the current one highlighted. */
  function Buttons(totalPages: int, currentPage: int): (r: seq<PageButton>)
    ensures |r| == if totalPages > 0 then totalPages else 0
    ensures forall k :: 0 <= k < |r| ==> r[k].number == k + 1
    ensures forall k :: 0 <= k < |r| ==> (r[k].current <==> currentPage == k + 1)
  {
    var n := if totalPages > 0 then totalPages else 0;
    seq(n, k requires 0 <= k < n => PageButton(k + 1, currentPage == k + 1))
  }

  /** Exactly one button is highlighted when the current page is in range,
      none otherwise; every button's click navigates. */
  lemma ButtonsHighlightOne(params: Params, pathname: string, pageName: string, totalPages: int, currentPage: int)
    ensures var b := Buttons(totalPages, currentPage);
            forall i, j :: 0 <= i < j < |b| ==> !(b[i].current && b[j].current)
    ensures var b := Buttons(totalPages, currentPage);
            (exists k :: 0 <= k < |b| && b[k].current) <==> 1 <= currentPage <= totalPages
    ensures var b := Buttons(totalPages, currentPage);
            forall k :: 0 <= k < |b| ==> HandleChange(params, pathname, pageName, totalPages, b[k].number).Some?
  {
    var b := Buttons(totalPages, currentPage);
    if 1 <= currentPage <= totalPages {
      assert b[currentPage - 1].current;
    }
  }

  /** Previous is disabled on page 1, next on the last page. */
  function PrevDisabled(currentPage: int): (r: bool)
    ensures r <==> currentPage == 1
  {
    currentPage == 1
  }

  function NextDisabled(currentPage: int, totalPages: int): (r: bool)
    ensures r <==> currentPage == totalPages
  {
    currentPage == totalPages
  }

  /** On a page in range, an enabled previous or next button navigates. */
  lemma EnabledArrowsNavigate(params: Params, pathname: string, pageName: string, totalPages: int, currentPage: int)
    requires 1 <= currentPage <= totalPages
    ensures !PrevDisabled(currentPage) ==> HandleChange(params, pathname, pageName, totalPages, currentPage - 1).Some?
    ensures !NextDisabled(currentPage, totalPages) ==> HandleChange(params, pathname, pageName, totalPages, currentPage + 1).Some?
  {
  }

  /** Past the last page, "next" stays enabled but does nothing. */
  lemma NextBeyondLastIsInert(params: Params, pathname: string, pageName: string, totalPages: int, currentPage: int)
    requires currentPage > totalPages
    ensures !NextDisabled(currentPage, totalPages)
    ensures HandleChange(params, pathname, pageName, totalPages, currentPage + 1).None?
  {
  }
}

/** The page-size picker. */
module PageSizeSelector {
  import opened Wrappers
  import opened Text
  import opened Decimal
  import opened QueryParams
  import opened Selection

  const DefaultParamName: string := "size"
  const DefaultOptions: seq<int> := [5, 8, 10, 20, 50]

  /** The current size: unset (missing or empty parameter), a parsed number,
      or `NaN`. */
  datatype Current = Unset | Size(n: int) | NotANumber

  function CurrentSize(params: Params, name: string): (r: Current)
    ensures !Truthy(GetOrEmpty(params, name)) <==> r.Unset?
    ensures r.Size? ==> Some(r.n) == ParseIntPrefix(params[name])
    ensures r.NotANumber? ==> ParseIntPrefix(params[name]).None?
  {
    var s := GetOrEmpty(params, name);
    if !Truthy(s) then Unset
    else match ParseIntPrefix(s)
      case Some(n) => Size(n)
      case None => NotANumber
  }

  /** `(currentSize ?? options[1]) === opt`: `NaN` is not nullish, so an
      unreadable size makes no option active; a missing second option makes
      none active when the size is unset. */
  function IsActive(params: Params, name: string, options: seq<int>, opt: int): (r: bool)
    ensures CurrentSize(params, name).Size? ==> (r <==> opt == CurrentSize(params, name).n)
    ensures CurrentSize(params, name).NotANumber? ==> !r
    ensures CurrentSize(params, name).Unset? ==> (r <==> |options| > 1 && opt == options[1])
  {
    match CurrentSize(params, name)
    case Size(n) => n == opt
    case NotANumber => false
    case Unset => |options| > 1 && options[1] == opt
  }

  /** Among distinct options, at most one is active. */
  lemma AtMostOneActive(params: Params, name: string, options: seq<int>)
    requires NoDup(options)
    ensures forall i, j :: 0 <= i < j < |options| && IsActive(params, name, options, options[i])
                           ==> !IsActive(params, name, options, options[j])
  {
  }

  /** `onChange(size)`: the size is set and the page goes back to 1; every
      other parameter is kept, on the same path. */
  function OnChange(params: Params, pathname: string, name: string, size: int): (r: Navigation)
    ensures r.path == pathname
    ensures "page" in r.query && r.query["page"] == "1"
    ensures name != "page" ==> name in r.query && r.query[name] == IntToString(size)
    ensures AgreeExcept(params, r.query, {name, "page"})
  {
    var sized := Set(params, name, IntToString(size));
    var query := Set(sized, "page", "1");
    AgreeExceptTrans(params, sized, query, {name}, {"page"});
    assert {name} + {"page"} == {name, "page"};
    Navigation(pathname, query)
  }

  /** The option picked is the one shown active afterwards. */
  lemma PickedOptionActive(params: Params, pathname: string, name: string, options: seq<int>, size: int)
    requires name != "page"
    ensures IsActive(OnChange(params, pathname, name, size).query, name, options, size)
  {
    ParseIntOfIntToString(size);
  }
}

=== FILE: permission_form.dfy ===
/** The admin permission form: its schema, defaults and the create-or-update
    choice on submit. */
module PermissionForm {
  import opened Wrappers
  import opened Records

  /** The validated form data; the schema keeps only these two fields. */
  datatype Values = Values(name: string, description: string)

  /** The schema: a name of at least 3 characters and a description of at
      least 5. */
  predicate Valid(v: Values) {
    |v.name| >= 3 && |v.description| >= 5
  }

  /** The default values: those of the permission being edited, else none
      (every input starts empty). */
  function Defaults(permission: Option<Permission>): (r: Values)
    ensures permission.Some? ==> r.name == permission.value.name && r.description == permission.value.description
    ensures permission.None? ==> r == Values("", "")
  {
    match permission
    case Some(p) => Values(p.name, p.description)
    case None => Values("", "")
  }

  /** The submit handler runs only on valid data; it updates the permission
      being edited, and creates one otherwise. */
  function Submit(permission: Option<Permission>, v: Values): (r: Option<Save<Values>>)
    ensures r.Some? <==> Valid(v)
    ensures r.Some? ==> r.value.data == v
    ensures r.Some? ==> (r.value.Update? <==> permission.Some?)
    ensures r.Some? && permission.Some? ==> r.value.id == permission.value.id
  {
    if !Valid(v) then None
    else match permission
      case Some(p) => Some(Update(p.id, v))
      case None => Some(Create(v))
  }

  /** A blank new form is never submitted. */
  lemma BlankFormRejected()
    ensures Submit(None, Defaults(None)).None?
  {
  }

  /** Saving an existing valid permission without edits updates it with its
      own name and description. */
  lemma UnchangedEditResends(p: Permission)
    requires Valid(Values(p.name, p.description))
    ensures Submit(Some(p), Defaults(Some(p))) == Some(Update(p.id, Values(p.name, p.description)))
  {
  }
}

=== FILE: permission_guard.dfy ===
/** The `PermissionGuard` render gate. The guard reads three membership
    queries from the admin store, which declares none of them: as written,
    every gate that names a permission calls `undefined` (`RenderAsWritten`).
    The intended gate takes the queries as a parameter and binds them to the
    admin token (`TokenQueries`). The rendered output is `Some(node)` or
    `None` for React's `null`. */
module PermissionGuard {
  import opened Wrappers
  import opened Text
  import Auth
  import AdminAuthStore

  /** The three membership queries the guard reads from the admin store,
      as the answers they are meant to give. */
  datatype Queries = Queries(
    hasPermission: string -> bool,
    hasAnyPermission: seq<string> -> bool,
    hasAllPermissions: seq<string> -> bool)

  /** The guard's props; unset optional props are `None`. */
  datatype Props<N> = Props(
    permission: Option<string>,
    permissions: Option<seq<string>>,
    requireAll: Option<bool>,
    fallback: Option<N>,
    children: N)

  /** The props name a single, non-empty permission. */
  predicate HasSingle<N>(p: Props<N>) {
    p.permission.Some? && Truthy(p.permission.value)
  }

  /** The props name a non-empty list of permissions. */
  predicate HasList<N>(p: Props<N>) {
    p.permissions.Some? && |p.permissions.value| > 0
  }

  /** The access decision. A single permission decides alone; otherwise a
      non-empty list is checked all-of when `requireAll` is set and any-of by
      default; with neither, access is denied. */
  function HasAccess<N>(q: Queries, p: Props<N>): (r: bool)
    ensures HasSingle(p) ==> (r <==> q.hasPermission(p.permission.value))
    ensures !HasSingle(p) && HasList(p) && p.requireAll.GetOr(false) ==> (r <==> q.hasAllPermissions(p.permissions.value))
    ensures !HasSingle(p) && HasList(p) && !p.requireAll.GetOr(false) ==> (r <==> q.hasAnyPermission(p.permissions.value))
    ensures !HasSingle(p) && !HasList(p) ==> !r
  {
    var requireAll := p.requireAll.GetOr(false);
    if p.permission.Some? && p.permission.value != "" then q.hasPermission(p.permission.value)
    else if p.permissions.Some? && |p.permissions.value| > 0 then
      if requireAll then q.hasAllPermissions(p.permissions.value)
      else q.hasAnyPermission(p.permissions.value)
    else false
  }

  /** The rendered output: the children when access is granted, otherwise the
      fallback, which defaults to null. */
  function Render<N>(q: Queries, p: Props<N>): (r: Option<N>)
    ensures HasAccess(q, p) ==> r == Some(p.children)
    ensures !HasAccess(q, p) ==> r == p.fallback
  {
    if HasAccess(q, p) then Some(p.children) else p.fallback
  }

  /** A single permission makes any list and `requireAll` irrelevant. */
  lemma SinglePermissionIgnoresList<N>(q: Queries, p: Props<N>, others: Option<seq<string>>, requireAll: Option<bool>)
    requires HasSingle(p)
    ensures HasAccess(q, p.(permissions := others, requireAll := requireAll)) == HasAccess(q, p)
  {
  }

  /** An unset `requireAll` behaves as `false`: any-of. */
  lemma AnyOfByDefault<N>(q: Queries, p: Props<N>)
    requires p.requireAll.None?
    ensures HasAccess(q, p) == HasAccess(q, p.(requireAll := Some(false)))
  {
  }

  /** With no permission and an empty list the guard denies, even when the
      store's all-of query would accept the empty list. */
  lemma EmptyListDenied<N>(q: Queries, children: N, requireAll: Option<bool>)
    requires q.hasAllPermissions([])
    ensures !HasAccess(q, Props(None, Some([]), requireAll, None, children))
    ensures Render(q, Props(None, Some([]), requireAll, None, children)) == None
  {
  }

  /** The intended binding of the guard's queries: those of the admin token
      held in the `admin_token` cookie. */
  function TokenQueries(decode: Auth.Decoder, cookie: Option<string>): (q: Queries)
    ensures forall c :: q.hasPermission(c) == Auth.HasPermission(decode, cookie, c)
    ensures forall ws :: q.hasAnyPermission(ws) == Auth.HasAnyPermission(decode, cookie, ws)
    ensures forall ws :: q.hasAllPermissions(ws) == Auth.HasAllPermissions(decode, cookie, ws)
  {
    Queries(
      c => Auth.HasPermission(decode, cookie, c),
      ws => Auth.HasAnyPermission(decode, cookie, ws),
      ws => Auth.HasAllPermissions(decode, cookie, ws))
  }

  /** Fail closed: without a decodable token carrying permissions, the guard
      renders the fallback whatever the props. */
  lemma FailsClosedWithoutToken<N>(decode: Auth.Decoder, cookie: Option<string>, p: Props<N>)
    requires Auth.HeldPermissions(Auth.DecodeFromCookie(decode, cookie)).None?
    ensures Render(TokenQueries(decode, cookie), p) == p.fallback
  {
  }

  /** With token queries, holding more permissions never closes the gate. */
  lemma AccessMonotone<N>(decode: Auth.Decoder, cookie: Option<string>, cookie2: Option<string>, p: Props<N>)
    requires var h := Auth.HeldPermissions(Auth.DecodeFromCookie(decode, cookie));
             var h2 := Auth.HeldPermissions(Auth.DecodeFromCookie(decode, cookie2));
             h.Some? && h2.Some? && forall c :: c in h.value ==> c in h2.value
    requires HasAccess(TokenQueries(decode, cookie), p)
    ensures HasAccess(TokenQueries(decode, cookie2), p)
  {
    var h := Auth.HeldPermissions(Auth.DecodeFromCookie(decode, cookie)).value;
    var h2 := Auth.HeldPermissions(Auth.DecodeFromCookie(decode, cookie2)).value;
    if !HasSingle(p) && HasList(p) {
      var ws := p.permissions.value;
      if !p.requireAll.GetOr(false) {
        var k :| 0 <= k < |ws| && ws[k] in h;
        assert ws[k] in h2;
      }
    }
  }

  /** The decision as written: the store declares none of the three queries,
      so each is `undefined`, and the guard throws as soon as the props name
      a permission. Only with no permission named does it get as far as
      denying. */
  function HasAccessAsWritten<N>(q: Queries, p: Props<N>): (r: AdminAuthStore.Call<bool>)
    ensures r.TypeError? <==> HasSingle(p) || HasList(p)
    ensures r != AdminAuthStore.Returns(true)
    ensures r.Returns? ==> r.value == HasAccess(q, p)
  {
    var requireAll := p.requireAll.GetOr(false);
    if p.permission.Some? && p.permission.value != "" then
      AdminAuthStore.CallMember("hasPermission", q.hasPermission(p.permission.value))
    else if p.permissions.Some? && |p.permissions.value| > 0 then
      if requireAll then AdminAuthStore.CallMember("hasAllPermissions", q.hasAllPermissions(p.permissions.value))
      else AdminAuthStore.CallMember("hasAnyPermission", q.hasAnyPermission(p.permissions.value))
    else AdminAuthStore.Returns(false)
  }

  /** The output as written: a throw whenever a permission is named, and
      otherwise the fallback; the children are never reached through the
      decision. */
  function RenderAsWritten<N>(q: Queries, p: Props<N>): (r: AdminAuthStore.Call<Option<N>>)
    ensures r.TypeError? <==> HasSingle(p) || HasList(p)
    ensures r.Returns? ==> r.value == p.fallback
  {
    match HasAccessAsWritten(q, p)
    case TypeError => AdminAuthStore.TypeError
    case Returns(ok) => AdminAuthStore.Returns(if ok then Some(p.children) else p.fallback)
  }

  /** The discrepancy: an admin whose token carries the named permission is
      let through by the intended gate, while the gate as written throws. */
  lemma GuardThrowsAsWritten<N>(decode: Auth.Decoder, cookie: Option<string>, p: Props<N>)
    requires HasSingle(p) && Auth.HasPermission(decode, cookie, p.permission.value)
    ensures Render(TokenQueries(decode, cookie), p) == Some(p.children)
    ensures RenderAsWritten(TokenQueries(decode, cookie), p).TypeError?
  {
  }
}

=== FILE: permissions.dfy ===
/** The closed vocabulary of admin permission codes. A code is written
    `ACTION_RESOURCE`; `MANAGE_RESOURCE` stands for every action on the
    resource. */
module Permissions {

  /** The code `action_resource`. */
  function Code(action: string, resource: string): string {
    action + "_" + resource
  }

  /** The superset code `MANAGE_resource`. */
  function Manage(resource: string): string {
    Code("MANAGE", resource)
  }

  // Each constant is the code its name spells, e.g. ReadProducts is
  // "READ_PRODUCTS".

  // Products
  const WriteProducts: string := Code("WRITE", "PRODUCTS")
  const ReadProducts: string := Code("READ", "PRODUCTS")
  const DeleteProducts: string := Code("DELETE", "PRODUCTS")
  const ManageProducts: string := Manage("PRODUCTS")
  // Orders
  const ReadOrders: string := Code("READ", "ORDERS")
  const UpdateOrders: string := Code("UPDATE", "ORDERS")
  const CancelOrders: string := Code("CANCEL", "ORDERS")
  const ManageOrders: string := Manage("ORDERS")
  // Customers
  const ReadCustomers: string := Code("READ", "CUSTOMERS")
  const WriteCustomers: string := Code("WRITE", "CUSTOMERS")
  const DeleteCustomers: string := Code("DELETE", "CUSTOMERS")
  const ManageCustomers: string := Manage("CUSTOMERS")
  // Categories
  const ReadCategories: string := Code("READ", "CATEGORIES")
  const WriteCategories: string := Code("WRITE", "CATEGORIES")
  const DeleteCategories: string := Code("DELETE", "CATEGORIES")
  const ManageCategories: string := Manage("CATEGORIES")
  // Blogs
  const ReadBlogs: string := Code("READ", "BLOGS")
  const WriteBlogs: string := Code("WRITE", "BLOGS")
  const DeleteBlogs: string := Code("DELETE", "BLOGS")
  const ManageBlogs: string := Manage("BLOGS")
  // Sliders
  const ReadSliders: string := Code("READ", "SLIDERS")
  const WriteSliders: string := Code("WRITE", "SLIDERS")
  const DeleteSliders: string := Code("DELETE", "SLIDERS")
  const ManageSliders: string := Manage("SLIDERS")
  // Roles
  const ReadRoles: string := Code("READ", "ROLES")
  const WriteRoles: string := Code("WRITE", "ROLES")
  const DeleteRoles: string := Code("DELETE", "ROLES")
  const ManageRoles: string := Manage("ROLES")
  // Permissions
  const ReadPermissions: string := Code("READ", "PERMISSIONS")
  const WritePermissions: string := Code("WRITE", "PERMISSIONS")
  const DeletePermissions: string := Code("DELETE", "PERMISSIONS")
  const ManagePermissions: string := Manage("PERMISSIONS")
  // Admin users
  const ReadUsers: string := Code("READ", "USERS")
  const WriteUsers: string := Code("WRITE", "USERS")
  const DeleteUsers: string := Code("DELETE", "USERS")
  const ManageUsers: string := Manage("USERS")
  // Reports and analytics
  const ViewReports: string := Code("VIEW", "REPORTS")
  const ViewStatistics: string := Code("VIEW", "STATISTICS")
  const ManageReports: string := Manage("REPORTS")

  /** The keys of the permission-group table, in declaration order. */
  datatype Group =
    | Products | Orders | Customers | Categories | Blogs
    | Sliders | Roles | PermissionsGroup | Users | Analytics

  const AllGroups: seq<Group> :=
    [Products, Orders, Customers, Categories, Blogs, Sliders, Roles, PermissionsGroup, Users, Analytics]

  /** The group's key as written in the table; for every group except
      ANALYTICS it is also the resource part of the group's codes. */
  function GroupName(g: Group): string {
    match g
    case Products => "PRODUCTS"
    case Orders => "ORDERS"
    case Customers => "CUSTOMERS"
    case Categories => "CATEGORIES"
    case Blogs => "BLOGS"
    case Sliders => "SLIDERS"
    case Roles => "ROLES"
    case PermissionsGroup => "PERMISSIONS"
    case Users => "USERS"
    case Analytics => "ANALYTICS"
  }

  /** The action word a resource group uses for writing and for deleting. */
  function WriteAction(g: Group): string {
    if g == Orders then "UPDATE" else "WRITE"
  }

  function DeleteAction(g: Group): string {
    if g == Orders then "CANCEL" else "DELETE"
  }

  /** The codes listed for a group. Every resource group lists, in order, the
      read, write, delete and manage codes of its own resource, so each
      constant's value spells its own name; ORDERS uses UPDATE and CANCEL in
      place of WRITE and DELETE. ANALYTICS lists three codes over two other
      resources, none of them `MANAGE_ANALYTICS`. */
  function GroupCodes(g: Group): (r: seq<string>)
    ensures g != Analytics ==>
      r == [Code("READ", GroupName(g)), Code(WriteAction(g), GroupName(g)),
            Code(DeleteAction(g), GroupName(g)), Manage(GroupName(g))]
    ensures g == Analytics ==>
      r == [Code("VIEW", "REPORTS"), Code("VIEW", "STATISTICS"), Manage("REPORTS")]
  {
    match g
    case Products => [ReadProducts, WriteProducts, DeleteProducts, ManageProducts]
    case Orders => [ReadOrders, UpdateOrders, CancelOrders, ManageOrders]
    case Customers => [ReadCustomers, WriteCustomers, DeleteCustomers, ManageCustomers]
    case Categories => [ReadCategories, WriteCategories, DeleteCategories, ManageCategories]
    case Blogs => [ReadBlogs, WriteBlogs, DeleteBlogs, ManageBlogs]
    case Sliders => [ReadSliders, WriteSliders, DeleteSliders, ManageSliders]
    case Roles => [ReadRoles, WriteRoles, DeleteRoles, ManageRoles]
    case PermissionsGroup => [ReadPermissions, WritePermissions, DeletePermissions, ManagePermissions]
    case Users => [ReadUsers, WriteUsers, DeleteUsers, ManageUsers]
    case Analytics => [ViewReports, ViewStatistics, ManageReports]
  }

  /** Every group except ANALYTICS has four codes and contains its own manage
      code; ANALYTICS has three and does not contain `MANAGE_ANALYTICS`. */
  lemma GroupShapes(g: Group)
    ensures g != Analytics ==> |GroupCodes(g)| == 4 && Manage(GroupName(g)) in GroupCodes(g)
    ensures g == Analytics ==> |GroupCodes(g)| == 3 && Manage(GroupName(g)) !in GroupCodes(g)
  {
    if g == Analytics {
      var n := GroupName(g);
      assert Manage(n)[7] == 'A';
      assert GroupCodes(g)[2][7] == 'R';
      assert GroupCodes(g)[0][0] == 'V' && GroupCodes(g)[1][0] == 'V';
    }
  }

  /** `code` grants `action` on `resource`: it is the resource's manage code or
      the specific code. */
  predicate Grants(code: string, resource: string, action: string) {
    code == Manage(resource) || code == Code(action, resource)
  }

  /** `hasResourcePermission`: the held list includes the manage code or the
      specific code. */
  function HasResourcePermission(held: seq<string>, resource: string, action: string): (r: bool)
    ensures r <==> exists k :: 0 <= k < |held| && Grants(held[k], resource, action)
  {
    Manage(resource) in held || Code(action, resource) in held
  }

  /** Holding the manage code grants every action on the resource. */
  lemma ManageGrantsEveryAction(held: seq<string>, resource: string, action: string)
    requires Manage(resource) in held
    ensures HasResourcePermission(held, resource, action)
  {
    var k :| 0 <= k < |held| && held[k] == Manage(resource);
    assert Grants(held[k], resource, action);
  }

  /** An empty list grants nothing. */
  lemma EmptyGrantsNothing(resource: string, action: string)
    ensures !HasResourcePermission([], resource, action)
  {
  }

  /** Holding more codes never withdraws a grant. */
  lemma HasResourcePermissionMonotone(held: seq<string>, more: seq<string>, resource: string, action: string)
    requires forall c :: c in held ==> c in more
    requires HasResourcePermission(held, resource, action)
    ensures HasResourcePermission(more, resource, action)
  {
    var k :| 0 <= k < |held| && Grants(held[k], resource, action);
    assert held[k] in more;
    var j :| 0 <= j < |more| && more[j] == held[k];
    assert Grants(more[j], resource, action);
  }

  /** Within a resource group, the MANAGE code is the only code granting every
      action of the group, and each listed code grants its own action. */
  lemma GroupCodesGrantTheirActions(g: Group)
    requires g != Analytics
    ensures forall a :: HasResourcePermission([Manage(GroupName(g))], GroupName(g), a)
    ensures HasResourcePermission([GroupCodes(g)[0]], GroupName(g), "READ")
    ensures !HasResourcePermission([GroupCodes(g)[0]], GroupName(g), "DELETE")
  {
    forall a ensures HasResourcePermission([Manage(GroupName(g))], GroupName(g), a) {
      ManageGrantsEveryAction([Manage(GroupName(g))], GroupName(g), a);
    }
    assert Grants(GroupCodes(g)[0], GroupName(g), "READ");
    var n := GroupName(g);
    assert "READ_" + n != "MANAGE_" + n by {
      assert ("READ_" + n)[0] == 'R';
    }
    assert "READ_" + n != "DELETE_" + n by {
      assert ("READ_" + n)[0] == 'R';
    }
  }

  /** `MANAGE_REPORTS` is not a superset code for statistics: the manage rule
      keys on the resource name, and the analytics codes name two resources. */
  lemma ManageReportsDoesNotGrantStatistics()
    ensures HasResourcePermission([ManageReports], "REPORTS", "VIEW")
    ensures !HasResourcePermission([ManageReports], "STATISTICS", "VIEW")
  {
    ManageGrantsEveryAction([ManageReports], "REPORTS", "VIEW");
    assert ManageReports != Manage("STATISTICS");
    assert ManageReports != Code("VIEW", "STATISTICS");
  }
}

=== FILE: product_form.dfy ===
/** The admin product form: SKU generation and sanitising, the category and
    colour pickers, prefilling from an existing product, the schema, and the
    request built on submit. The form's fields are held as the strings the
    inputs hold; the image files of a colour are represented by their names. */
module ProductForm {
  import opened Wrappers
  import opened Text
  import opened Decimal
  import opened Selection
  import opened SnakeCase
  import opened Lookup

  type ImageFile = string

  /** A loaded category. */
  datatype Category = Category(id: int, name: string)

  /** The form: field values plus the local state of the component. A stock
      or discount input of "" is an unset field. */
  datatype Form = Form(
    name: string,
    sku: string,
    price: string,
    stockInput: string,
    categories: seq<string>,
    brand: string,
    description: string,
    aboutItem: Option<string>,
    colors: seq<string>,
    images: map<string, seq<ImageFile>>,
    discountInput: string,
    categoryInput: string,
    colorInput: string,
    skuEdited: bool)

  /** The default values and initial local state. */
  const Initial: Form :=
    Form("", "", "", "", [], "", "", Some(""), [], map[], "", "", "", false)

  // ----- SKU -----

  /** The SKU field's change handler: the typed text is snake-cased, and the
      SKU counts as edited by hand exactly when something is left, that is
      exactly when the result passes the SKU pattern. */
  function SanitizeSku(f: Form, typed: string): (r: Form)
    ensures r.sku == ToSnakeCase(typed) && Clean(r.sku)
    ensures r.skuEdited <==> SkuPattern(r.sku)
    ensures r == f.(sku := r.sku, skuEdited := r.skuEdited)
  {
    var s := ToSnakeCase(typed);
    CleanIffPattern(s);
    f.(sku := s, skuEdited := |s| > 0)
  }

  /** The effect run when the name or `skuEdited` changes: until the SKU was
      edited by hand it follows the name. */
  function AutoSku(f: Form): (r: Form)
    ensures f.skuEdited ==> r == f
    ensures !f.skuEdited ==> r == f.(sku := ToSnakeCase(f.name))
    ensures !f.skuEdited && r.sku != [] ==> SkuPattern(r.sku)
  {
    if f.skuEdited then f
    else
      var s := ToSnakeCase(f.name);
      CleanIffPattern(s);
      f.(sku := s)
  }

  // ----- Category and colour pickers -----

  /** `addCategory`: an empty or already selected value changes nothing;
      any other value is appended and the input is cleared. */
  function AddCategory(f: Form, v: string): (r: Form)
    ensures !Truthy(v) || v in f.categories ==> r == f
    ensures Truthy(v) && v !in f.categories ==>
              r == f.(categories := f.categories + [v], categoryInput := "")
    ensures forall c :: c in r.categories <==> c in f.categories || (c == v && Truthy(v))
    ensures NoDup(f.categories) ==> NoDup(r.categories)
  {
    if !Truthy(v) then f
    else f.(categories := AddIfAbsent(f.categories, v),
            categoryInput := if v in f.categories then f.categoryInput else "")
  }

  /** `removeCategory`: every copy of the value goes, nothing else changes. */
  function RemoveCategory(f: Form, v: string): (r: Form)
    ensures v !in r.categories
    ensures forall c :: c != v ==> (c in r.categories <==> c in f.categories)
    ensures Sublist(r.categories, f.categories)
    ensures NoDup(f.categories) ==> NoDup(r.categories)
    ensures r == f.(categories := r.categories)
  {
    f.(categories := Remove(f.categories, v))
  }

  /** The images record has one key per selected colour. */
  ghost predicate ImagesMatchColors(f: Form) {
    forall c :: c in f.images <==> c in f.colors
  }

  /** `addColor`: like `addCategory`, and a newly added colour gets an empty
      image list. */
  function AddColor(f: Form, v: string): (r: Form)
    ensures !Truthy(v) || v in f.colors ==> r == f
    ensures Truthy(v) && v !in f.colors ==>
              r == f.(colors := f.colors + [v], images := f.images[v := []], colorInput := "")
    ensures NoDup(f.colors) ==> NoDup(r.colors)
    ensures ImagesMatchColors(f) ==> ImagesMatchColors(r)
  {
    if !Truthy(v) || v in f.colors then f
    else f.(colors := f.colors + [v], images := f.images[v := []], colorInput := "")
  }

  /** `removeColor`: the colour and exactly its images key go; the other
      colours and image lists are untouched. */
  function RemoveColor(f: Form, v: string): (r: Form)
    ensures v !in r.colors && v !in r.images
    ensures forall c :: c != v ==> (c in r.colors <==> c in f.colors)
    ensures forall c :: c != v ==> (c in r.images <==> c in f.images)
    ensures forall c :: c != v && c in f.images ==> r.images[c] == f.images[c]
    ensures NoDup(f.colors) ==> NoDup(r.colors)
    ensures ImagesMatchColors(f) ==> ImagesMatchColors(r)
    ensures r == f.(colors := r.colors, images := r.images)
  {
    f.(colors := Remove(f.colors, v), images := f.images - {v})
  }

  /** `handleImagesChange`: no file list changes nothing; otherwise the
      colour's image list is replaced. */
  function ImagesChange(f: Form, color: string, files: Option<seq<ImageFile>>): (r: Form)
    ensures files.None? ==> r == f
    ensures files.Some? ==> r == f.(images := f.images[color := files.value])
    ensures color in f.colors && ImagesMatchColors(f) ==> ImagesMatchColors(r)
  {
    match files
    case None => f
    case Some(fs) => f.(images := f.images[color := fs])
  }

  /** Adding a new colour and removing it again gives back the colours and
      the images record without that colour. */
  lemma AddThenRemoveColor(f: Form, v: string)
    requires Truthy(v) && v !in f.colors
    ensures RemoveColor(AddColor(f, v), v).colors == f.colors
    ensures RemoveColor(AddColor(f, v), v).images == f.images - {v}
  {
    RemoveAppended(f.colors, v);
  }

  /** The drop-down suggestions: options whose lower-cased text contains
      the lower-cased input and that are not yet selected, in order. */
  function Suggestions(options: seq<string>, input: string, selected: seq<string>): (r: seq<string>)
    ensures forall c :: c in r <==> c in options && c !in selected && Contains(ToLower(c), ToLower(input))
    ensures Sublist(r, options)
  {
    Filter(options, c => Contains(ToLower(c), ToLower(input)) && c !in selected)
  }

  /** With an empty input every unselected option is suggested. */
  lemma EmptyInputSuggestsAll(options: seq<string>, selected: seq<string>)
    ensures forall c :: c in Suggestions(options, "", selected) <==> c in options && c !in selected
  {
    forall c ensures Contains(ToLower(c), ToLower("")) {
      assert OccursAt(ToLower(c), "", 0);
    }
  }

  /** The category options: the non-empty names of the loaded categories,
      first occurrence kept. */
  function CategoryOptions(cats: seq<Category>): (r: seq<string>)
    ensures NoDup(r)
    ensures forall n :: n in r <==> Truthy(n) && exists c :: c in cats && c.name == n
  {
    var names := seq(|cats|, i requires 0 <= i < |cats| => cats[i].name);
    assert forall n :: n in names <==> exists c :: c in cats && c.name == n by {
      forall n | exists c :: c in cats && c.name == n ensures n in names {
        var c :| c in cats && c.name == n;
        var i :| 0 <= i < |cats| && cats[i] == c;
        assert names[i] == n;
      }
    }
    Dedup(Filter(names, Truthy))
  }

  // ----- Prefill -----

  /** An element of an array of categories or colours: a string, or an
      object whose `name` may be missing. */
  datatype Entry = Plain(text: string) | Named(name: Option<string>)

  /** A product field that may be an array, a comma-separated string, or
      something else. */
  datatype ListField = AsList(items: seq<string>) | AsText(text: string) | Neither

  /** A price that may be a number, a string, or missing. */
  datatype PriceField = PriceNumber(n: int) | PriceText(s: string) | NoPrice

  /** The product detail used for prefilling; every field is optional. */
  datatype Product = Product(
    name: Option<string>,
    sku: Option<string>,
    price: PriceField,
    brand: Option<string>,
    description: Option<string>,
    aboutItem: Option<string>,
    discount: Option<int>,
    stockQuantity: Option<int>,
    stockItems: Option<int>,
    color: ListField,
    colorsArray: Option<seq<Entry>>,
    categoriesArray: Option<seq<Entry>>,
    categoryIds: Option<seq<int>>,
    category: Option<string>)

  /** `s.split(",").map(s => s.trim()).filter(Boolean)`: the non-empty
      trimmed pieces between commas, in order. */
  function CommaList(s: string): (r: seq<string>)
    ensures forall k :: 0 <= k < |r| ==> Truthy(r[k]) && Trim(r[k]) == r[k]
    ensures forall x :: x in r <==> Truthy(x) && x in TrimEach(Split(s, ","))
  {
    var trimmed := TrimEach(Split(s, ","));
    TrimmedPiecesFixed(Split(s, ","));
    Filter(trimmed, Truthy)
  }

  /** Every trimmed piece is its own trim. */
  lemma TrimmedPiecesFixed(xs: seq<string>)
    ensures forall x :: x in TrimEach(xs) ==> Trim(x) == x
  {
    var t := TrimEach(xs);
    forall x | x in t ensures Trim(x) == x {
      var j :| 0 <= j < |t| && t[j] == x;
      TrimIdempotent(xs[j]);
    }
  }

  /** `c => typeof c === "string" ? c : c?.name`, with a missing name read
      as "". */
  function NameOf(e: Entry): string {
    match e
    case Plain(t) => t
    case Named(o) => o.GetOr("")
  }

  /** The entries mapped through `NameOf`, one name per entry. */
  function Names(entries: seq<Entry>): (r: seq<string>)
    ensures |r| == |entries|
    ensures forall k :: 0 <= k < |entries| ==> r[k] == NameOf(entries[k])
  {
    seq(|entries|, k requires 0 <= k < |entries| => NameOf(entries[k]))
  }

  /** The `.map(...)` followed by `.filter(Boolean)`, taken entry by entry:
      the non-empty names, in the order of their entries. */
  function EntryNames(entries: seq<Entry>): (r: seq<string>)
    ensures r == Filter(Names(entries), Truthy)
    ensures forall n :: n in r <==> Truthy(n) && exists k :: 0 <= k < |entries| && NameOf(entries[k]) == n
    ensures |r| <= |entries|
  {
    if entries == [] then []
    else
      var n := NameOf(entries[0]);
      var rest := EntryNames(entries[1..]);
      var ns := Names(entries);
      assert ns == [n] + Names(entries[1..]);
      assert ns[1..] == Names(entries[1..]);
      (if Truthy(n) then [n] else []) + rest
  }

  /** The colours read from a product: an array as it is, a comma string
      split and trimmed, otherwise the names of the `colors` array. */
  function PrefillColorList(p: Product): (r: seq<string>)
    ensures p.color.AsList? ==> r == p.color.items
    ensures p.color.AsText? ==> r == CommaList(p.color.text)
    ensures p.color.Neither? && p.colorsArray.Some? ==> r == EntryNames(p.colorsArray.value)
    ensures p.color.Neither? && p.colorsArray.None? ==> r == []
  {
    match p.color
    case AsList(items) => items
    case AsText(t) => CommaList(t)
    case Neither => match p.colorsArray
      case Some(es) => EntryNames(es)
      case None => []
  }

  /** The category names read from a product: the `categories` array, else
      the ids translated through the loaded categories when there are any,
      else a comma string. */
  function PrefillCategoryList(p: Product, loaded: seq<Category>): (r: seq<string>)
    ensures p.categoriesArray.Some? ==> r == EntryNames(p.categoriesArray.value)
    ensures p.categoriesArray.None? && p.categoryIds.Some? && |loaded| > 0 ==>
              forall n :: n in r <==> exists id :: id in p.categoryIds.value && id in ById(loaded) && ById(loaded)[id] == n
    ensures p.categoriesArray.None? && (p.categoryIds.None? || |loaded| == 0) && p.category.Some? ==>
              r == CommaList(p.category.value)
    ensures p.categoriesArray.None? && (p.categoryIds.None? || |loaded| == 0) && p.category.None? ==> r == []
  {
    match p.categoriesArray
    case Some(es) => EntryNames(es)
    case None =>
      if p.categoryIds.Some? && |loaded| > 0 then Known(p.categoryIds.value, ById(loaded))
      else match p.category
        case Some(s) => CommaList(s)
        case None => []
  }

  /** The id-to-name map of the loaded categories (last one wins). */
  function ById(loaded: seq<Category>): (m: map<int, string>)
    ensures forall id :: id in m <==> exists c :: c in loaded && c.id == id
  {
    var pairs := seq(|loaded|, i requires 0 <= i < |loaded| => (loaded[i].id, loaded[i].name));
    var m := LastWins(pairs);
    assert forall id :: id in m <==> exists c :: c in loaded && c.id == id by {
      forall id | exists c :: c in loaded && c.id == id ensures id in m {
        var c :| c in loaded && c.id == id;
        var i :| 0 <= i < |loaded| && loaded[i] == c;
        assert pairs[i].0 == id;
      }
    }
    m
  }

  /** The name-to-id map of the loaded categories (last one wins). */
  function NameToId(loaded: seq<Category>): (m: map<string, int>)
    ensures forall n :: n in m <==> exists c :: c in loaded && c.name == n
    ensures forall i :: 0 <= i < |loaded| ==>
              ((forall j :: i < j < |loaded| ==> loaded[j].name != loaded[i].name) ==> m[loaded[i].name] == loaded[i].id)
  {
    var pairs := seq(|loaded|, i requires 0 <= i < |loaded| => (loaded[i].name, loaded[i].id));
    var m := LastWins(pairs);
    assert forall n :: n in m <==> exists c :: c in loaded && c.name == n by {
      forall n | exists c :: c in loaded && c.name == n ensures n in m {
        var c :| c in loaded && c.name == n;
        var i :| 0 <= i < |loaded| && loaded[i] == c;
        assert pairs[i].0 == n;
      }
    }
    forall i | 0 <= i < |loaded| && (forall j :: i < j < |loaded| ==> loaded[j].name != loaded[i].name)
      ensures m[loaded[i].name] == loaded[i].id
    {
      assert forall j :: i < j < |pairs| ==> pairs[j].0 != pairs[i].0;
    }
    m
  }

  /** `product.sku ? String(product.sku) : toSnakeCase(product.name || "")`. */
  function PreSku(p: Product): (r: string)
    ensures p.sku.Some? && Truthy(p.sku.value) ==> r == p.sku.value
    ensures !(p.sku.Some? && Truthy(p.sku.value)) ==> Clean(r) && r == ToSnakeCase(p.name.GetOr(""))
  {
    if p.sku.Some? && Truthy(p.sku.value) then p.sku.value
    else ToSnakeCase(p.name.GetOr(""))
  }

  /** A text field is overwritten only by a non-empty value. */
  function KeepOr(current: string, incoming: Option<string>): (r: string)
    ensures incoming.Some? && Truthy(incoming.value) ==> r == incoming.value
    ensures !(incoming.Some? && Truthy(incoming.value)) ==> r == current
  {
    OptOrElse(incoming, current)
  }

  /** The price input: a number written in decimal, a string as it is,
      otherwise "". */
  function PriceText(p: PriceField): (r: string)
    ensures p.PriceNumber? ==> NumberOf(r) == Some(p.n)
    ensures p.PriceText? ==> r == p.s
    ensures p.NoPrice? ==> r == ""
  {
    match p
    case PriceNumber(n) => NumberOfIntToString(n); IntToString(n)
    case PriceText(s) => s
    case NoPrice => ""
  }

  /** The prefill effect in update mode. Text fields are taken only when
      non-empty; stock is `stockQuantity`, else `stockItems`; colours and
      categories are set only when the list read is non-empty, and then
      de-duplicated; the SKU is set and marked as edited. */
  function Prefill(f: Form, p: Product, loaded: seq<Category>): (r: Form)
    ensures r.name == KeepOr(f.name, p.name)
    ensures r.brand == KeepOr(f.brand, p.brand) && r.description == KeepOr(f.description, p.description)
    ensures p.aboutItem.Some? && Truthy(p.aboutItem.value) ==> r.aboutItem == p.aboutItem
    ensures !(p.aboutItem.Some? && Truthy(p.aboutItem.value)) ==> r.aboutItem == f.aboutItem
    ensures NumberOf(r.price) == NumberOf(PriceText(p.price))
    ensures p.stockQuantity.Some? ==> NumberOf(r.stockInput) == p.stockQuantity
    ensures p.stockQuantity.None? && p.stockItems.Some? ==> NumberOf(r.stockInput) == p.stockItems
    ensures p.stockQuantity.None? && p.stockItems.None? ==> r.stockInput == f.stockInput
    ensures p.discount.Some? ==> NumberOf(r.discountInput) == p.discount
    ensures p.discount.None? ==> r.discountInput == f.discountInput
    ensures NoDup(r.colors) || r.colors == f.colors
    ensures PrefillColorList(p) != [] ==> forall c :: c in r.colors <==> c in PrefillColorList(p)
    ensures PrefillColorList(p) == [] ==> r.colors == f.colors
    ensures NoDup(r.categories) || r.categories == f.categories
    ensures PrefillCategoryList(p, loaded) != [] ==>
              forall c :: c in r.categories <==> c in PrefillCategoryList(p, loaded)
    ensures PrefillCategoryList(p, loaded) == [] ==> r.categories == f.categories
    ensures r.sku == PreSku(p) && r.skuEdited
    ensures r.images == f.images && r.categoryInput == f.categoryInput && r.colorInput == f.colorInput
  {
    var stock := if p.stockQuantity.Some? then p.stockQuantity else p.stockItems;
    f.(
      name := KeepOr(f.name, p.name),
      price := PriceText(p.price),
      brand := KeepOr(f.brand, p.brand),
      description := KeepOr(f.description, p.description),
      aboutItem := if p.aboutItem.Some? && Truthy(p.aboutItem.value) then p.aboutItem else f.aboutItem,
      discountInput := NumberInput(f.discountInput, p.discount),
      stockInput := NumberInput(f.stockInput, stock),
      colors := ListInput(f.colors, PrefillColorList(p)),
      categories := ListInput(f.categories, PrefillCategoryList(p, loaded)),
      sku := PreSku(p),
      skuEdited := true)
  }

  /** A numeric input is set to the value's decimal text when there is a
      value, and kept otherwise. */
  function NumberInput(current: string, value: Option<int>): (r: string)
    ensures value.Some? ==> NumberOf(r) == value
    ensures value.None? ==> r == current
  {
    match value
    case Some(n) => NumberOfIntToString(n); IntToString(n)
    case None => current
  }

  /** A selection is replaced by the de-duplicated list read, unless that
      list is empty. */
  function ListInput(current: seq<string>, read: seq<string>): (r: seq<string>)
    ensures read != [] ==> NoDup(r) && Sublist(r, read)
    ensures read != [] ==> forall c :: c in r <==> c in read
    ensures read == [] ==> r == current
  {
    if |read| > 0 then Dedup(read) else current
  }

  // ----- Schema -----

  /** The stock input after preprocessing is an integer of at least 0; an
      unset input is missing. */
  predicate StockValid(input: string) {
    input != "" && NumberOf(input).Some? && NumberOf(input).value >= 0
  }

  /** The discount is optional: unset and non-numeric inputs are accepted as
      missing, numbers must lie in 0..100. */
  predicate DiscountValid(input: string) {
    input == "" || NumberOf(input).None? || 0 <= NumberOf(input).value <= 100
  }

  /** The images record is non-empty and every list in it holds a file. */
  predicate ImagesValid(images: map<string, seq<ImageFile>>) {
    |images| > 0 && forall c :: c in images ==> |images[c]| >= 1
  }

  /** The product schema: required texts non-empty, a SKU matching the
      pattern, at least one category and one colour, valid stock, discount
      and images. */
  predicate Valid(f: Form) {
    && f.name != ""
    && SkuPattern(f.sku)
    && f.price != ""
    && StockValid(f.stockInput)
    && |f.categories| >= 1
    && f.brand != ""
    && f.description != ""
    && |f.colors| >= 1
    && ImagesValid(f.images)
    && DiscountValid(f.discountInput)
  }

  /** A colour that was just added has no image yet, so the form cannot be
      submitted until one is chosen. */
  lemma NewColorBlocksSubmit(f: Form, v: string)
    requires Truthy(v) && v !in f.colors
    ensures !Valid(AddColor(f, v))
  {
    var r := AddColor(f, v);
    assert v in r.images && |r.images[v]| == 0;
  }

  /** A SKU generated from a name is accepted by the schema exactly when the
      name has a letter or digit left after snake-casing. */
  lemma GeneratedSkuAccepted(name: string)
    ensures SkuPattern(ToSnakeCase(name)) <==> ToSnakeCase(name) != []
  {
    CleanIffPattern(ToSnakeCase(name));
  }

  // ----- Submit -----

  /** The request body sent to the product API. `price` is `None` where
      `Number` gives NaN. */
  datatype ProductRequest = ProductRequest(
    name: string,
    sku: string,
    price: Option<int>,
    stockQuantity: int,
    brand: string,
    description: string,
    aboutItem: string,
    discount: int,
    color: string,
    categoryIds: seq<int>,
    isActive: bool)

  /** `onSubmit` on validated data: colours joined by ",", the selected
      category names that the loaded categories know translated to ids in
      order, `aboutItem` defaulting to "", discount to 0, and active set. */
  function Submit(f: Form, loaded: seq<Category>): (r: ProductRequest)
    requires Valid(f)
    ensures r.stockQuantity >= 0
    ensures 0 <= r.discount <= 100
    ensures NumberOf(f.discountInput).Some? && f.discountInput != "" ==> r.discount == NumberOf(f.discountInput).value
    ensures (forall k :: 0 <= k < |f.colors| ==> ',' !in f.colors[k]) ==> Split(r.color, ",") == f.colors
    ensures |r.categoryIds| <= |f.categories|
    ensures forall id :: id in r.categoryIds <==>
              exists n :: n in f.categories && n in NameToId(loaded) && NameToId(loaded)[n] == id
    ensures (forall n :: n in f.categories ==> n in NameToId(loaded)) ==>
              |r.categoryIds| == |f.categories|
              && forall k :: 0 <= k < |f.categories| ==> r.categoryIds[k] == NameToId(loaded)[f.categories[k]]
    ensures f.aboutItem.Some? ==> r.aboutItem == f.aboutItem.value
    ensures f.aboutItem.None? ==> r.aboutItem == ""
    ensures r.isActive
    ensures var kept := Filter(f.categories, n => n in NameToId(loaded));
            |r.categoryIds| == |kept|
            && forall k :: 0 <= k < |kept| ==> kept[k] in NameToId(loaded) && r.categoryIds[k] == NameToId(loaded)[kept[k]]
    ensures r.name == f.name && r.sku == f.sku && SkuPattern(r.sku)
    ensures r.price == NumberOf(f.price)
    ensures NumberOf(f.stockInput) == Some(r.stockQuantity)
    ensures r.brand == f.brand && r.description == f.description
  {
    ColorCsvRoundTrip(f.colors);
    ProductRequest(
      f.name, f.sku, NumberOf(f.price), NumberOf(f.stockInput).value,
      f.brand, f.description, f.aboutItem.GetOr(""), DiscountValue(f.discountInput),
      Join(f.colors, ","), CategoryIds(f.categories, loaded), true)
  }

  /** The ids of the selected category names that the loaded categories
      know, in order. */
  function CategoryIds(names: seq<string>, loaded: seq<Category>): (r: seq<int>)
    ensures |r| <= |names|
    ensures forall id :: id in r <==>
              exists n :: n in names && n in NameToId(loaded) && NameToId(loaded)[n] == id
    ensures (forall n :: n in names ==> n in NameToId(loaded)) ==>
              |r| == |names| && forall k :: 0 <= k < |names| ==> r[k] == NameToId(loaded)[names[k]]
    ensures var kept := Filter(names, n => n in NameToId(loaded));
            |r| == |kept| && forall k :: 0 <= k < |kept| ==> kept[k] in NameToId(loaded) && r[k] == NameToId(loaded)[kept[k]]
  {
    KnownInOrder(names, NameToId(loaded));
    Known(names, NameToId(loaded))
  }

  /** `Object.values(images).flat()`: the files of every colour, colour by
      colour. A record keeps its keys in insertion order, which a map does
      not, so that order is given as `keyOrder`. */
  function ImagesFlat(images: map<string, seq<ImageFile>>, keyOrder: seq<string>): (r: seq<ImageFile>)
    ensures forall x :: x in r ==> exists c :: c in keyOrder && c in images && x in images[c]
    ensures forall c, x :: c in keyOrder && c in images && x in images[c] ==> x in r
    ensures (forall c :: c in keyOrder ==> c !in images) ==> r == []
  {
    if keyOrder == [] then []
    else
      var here := if keyOrder[0] in images then images[keyOrder[0]] else [];
      var rest := ImagesFlat(images, keyOrder[1..]);
      assert forall c :: c in keyOrder <==> c == keyOrder[0] || c in keyOrder[1..];
      here + rest
  }

  /** The files keep the record's key order: flattening the keys of `a`
      then those of `b` is flattening `a`, then flattening `b`. */
  lemma {:induction false} ImagesFlatAppend(images: map<string, seq<ImageFile>>, a: seq<string>, b: seq<string>)
    ensures ImagesFlat(images, a + b) == ImagesFlat(images, a) + ImagesFlat(images, b)
  {
    if a == [] {
      assert a + b == b;
    } else {
      assert (a + b)[0] == a[0];
      assert (a + b)[1..] == a[1..] + b;
      ImagesFlatAppend(images, a[1..], b);
    }
  }

  /** One colour's key gives exactly that colour's files, in their order,
      and a key with no entry gives nothing. */
  lemma ImagesFlatSingle(images: map<string, seq<ImageFile>>, c: string)
    ensures c in images ==> ImagesFlat(images, [c]) == images[c]
    ensures c !in images ==> ImagesFlat(images, [c]) == []
  {
    assert [c][1..] == [];
  }

  /** A form that passes the schema uploads at least one file, given the
      record's keys in order. */
  lemma ValidFormSendsImages(f: Form, keyOrder: seq<string>)
    requires Valid(f)
    requires forall c :: c in f.images ==> c in keyOrder
    ensures |ImagesFlat(f.images, keyOrder)| >= 1
  {
    FilledImagesFlat(f.images, keyOrder);
  }

  /** Images whose lists are all non-empty, with every key listed, flatten
      to at least one file. */
  lemma FilledImagesFlat(images: map<string, seq<ImageFile>>, keyOrder: seq<string>)
    requires ImagesValid(images)
    requires forall c :: c in images ==> c in keyOrder
    ensures |ImagesFlat(images, keyOrder)| >= 1
  {
    var c :| c in images;
    var x := images[c][0];
    assert x in images[c];
  }

  /** The discount sent: the number typed, or 0 when none was. */
  function DiscountValue(input: string): (d: int)
    requires DiscountValid(input)
    ensures 0 <= d <= 100
    ensures NumberOf(input).Some? && input != "" ==> d == NumberOf(input).value
  {
    if input == "" || NumberOf(input).None? then 0 else NumberOf(input).value
  }

  /** Joining colours with "," can be undone by splitting when no colour
      holds a comma. */
  lemma ColorCsvRoundTrip(colors: seq<string>)
    requires |colors| >= 1
    ensures (forall k :: 0 <= k < |colors| ==> ',' !in colors[k]) ==> Split(Join(colors, ","), ",") == colors
  {
    if forall k :: 0 <= k < |colors| ==> ',' !in colors[k] {
      SplitJoin(colors, ',');
    }
  }

  /** The colours written on submit are read back unchanged by the prefill,
      when they are non-empty, trimmed, distinct and free of commas. */
  lemma {:induction false} SubmittedColorsPrefillBack(colors: seq<string>)
    requires |colors| >= 1 && NoDup(colors)
    requires forall k :: 0 <= k < |colors| ==>
               Truthy(colors[k]) && ',' !in colors[k] && !IsSpace(colors[k][0]) && !IsSpace(colors[k][|colors[k]| - 1])
    ensures Dedup(CommaList(Join(colors, ","))) == colors
  {
    SplitJoin(colors, ',');
    var pieces := Split(Join(colors, ","), ",");
    assert pieces == colors;
    forall k | 0 <= k < |colors| ensures Trim(colors[k]) == colors[k] {
      TrimOfTrimmed(colors[k]);
    }
    assert TrimEach(pieces) == colors;
    assert Filter(colors, Truthy) == colors;
    DedupOfNoDup(colors);
  }

  // ----- Dispatch -----

  datatype Mode = AddMode | UpdateMode

  /** The request made on submit: an update needs a product id and fails
      before any request without one. */
  datatype Call = CreateCall | UpdateCall(id: string) | MissingId

  function Dispatch(mode: Mode, productId: Option<string>): (r: Call)
    ensures mode.AddMode? <==> r.CreateCall?
    ensures r.UpdateCall? <==> mode == UpdateMode && productId.Some? && Truthy(productId.value)
    ensures r.UpdateCall? ==> r.id == productId.value
  {
    if mode == UpdateMode then
      if productId.Some? && Truthy(productId.value) then UpdateCall(productId.value) else MissingId
    else CreateCall
  }
}

=== FILE: product_header.dfy ===
/** The products page header: the keyword search and the Add Product gate. */
module ProductHeader {
  import opened Text
  import opened QueryParams
  import opened Permissions
  import opened UsePermission

  const AddProductHref: string := "/dashboard/products/add-product"

  /** The search box starts with the "keyword" parameter, or "". */
  function InitialKeyword(params: Params): (r: string)
    ensures "keyword" in params ==> r == params["keyword"]
    ensures "keyword" !in params ==> r == ""
  {
    GetOrEmpty(params, "keyword")
  }

  /** `handleSearch`: a non-empty keyword is set, an empty one removed; the
      page goes back to 1; every other parameter is kept, and the browser
      stays on the same path. */
  function HandleSearch(params: Params, pathname: string, keyword: string): (r: Navigation)
    ensures r.path == pathname
    ensures Truthy(keyword) ==> "keyword" in r.query && r.query["keyword"] == keyword
    ensures !Truthy(keyword) ==> "keyword" !in r.query
    ensures "page" in r.query && r.query["page"] == "1"
    ensures AgreeExcept(params, r.query, {"keyword", "page"})
  {
    var withKeyword := if keyword != "" then Set(params, "keyword", keyword) else Delete(params, "keyword");
    var query := Set(withKeyword, "page", "1");
    AgreeExceptTrans(params, withKeyword, query, {"keyword"}, {"page"});
    Navigation(pathname, query)
  }

  /** The search box of the page a search leads to shows the same keyword. */
  lemma SearchKeywordRoundTrip(params: Params, pathname: string, keyword: string)
    ensures InitialKeyword(HandleSearch(params, pathname, keyword).query) == keyword
  {
  }

  /** Searching again with the same keyword changes nothing. */
  lemma SearchIdempotent(params: Params, pathname: string, keyword: string)
    ensures var once := HandleSearch(params, pathname, keyword);
            HandleSearch(once.query, pathname, keyword) == once
  {
    var once := HandleSearch(params, pathname, keyword);
    var twice := HandleSearch(once.query, pathname, keyword);
    assert twice.query == once.query by {
      assert forall n :: n in twice.query <==> n in once.query;
    }
  }

  /** The Add Product link is shown exactly when WRITE on PRODUCTS is held,
      directly or through MANAGE_PRODUCTS. */
  function AddProductVisible(hasPermission: string -> bool): (r: bool)
    ensures r <==> hasPermission(ManageProducts) || hasPermission(WriteProducts)
  {
    CanAccess(hasPermission, "PRODUCTS", "WRITE")
  }
}

=== FILE: product_options.dfy ===
/** The product card's action buttons: add to cart and add to wishlist. The
    cart and wishlist stores are outside the model; each handler is
    described by the store call it makes and the toast it shows. */
module ProductOptions {
  import opened Wrappers
  import opened Text
  import opened Records

  /** The product fields the buttons read. */
  datatype Product = Product(id: int, name: string, price: int, color: seq<string>, images: seq<string>)

  /** A toast: title, image path and text. */
  datatype Toast = Toast(title: string, image: string, text: string)

  const AddedToCart: string := "Item Added To Cart"
  const AddedToWishlist: string := "Item Added To Wishlist"
  const AlreadyInWishlist: string := "Item Already Exist In Wishlist"

  /** `images && images[0] ? images[0] : ""`. */
  function ToastImage(p: Product): (r: string)
    ensures p.images != [] ==> r == p.images[0]
    ensures p.images == [] ==> r == ""
  {
    if p.images != [] && Truthy(p.images[0]) then p.images[0] else ""
  }

  /** `handleAddToCart`: one of the product in its first colour ("" when it
      has none), then a toast. */
  function AddToCart(p: Product): (r: (CartItem, Toast))
    ensures var (item, _) := r;
            && item.id == p.id && item.name == p.name && item.price == p.price
            && item.quantity == 1 && item.images == Some(p.images) && item.color == p.color
            && item.selectedColor == Some(if p.color != [] then p.color[0] else "")
    ensures r.1 == Toast(AddedToCart, ToastImage(p), p.name)
  {
    var defaultColor := if |p.color| > 0 then p.color[0] else "";
    (CartItem(p.id, p.name, p.price, 1, Some(p.images), Some(defaultColor), None, p.color),
     Toast(AddedToCart, ToastImage(p), p.name))
  }

  /** A wishlist click: whether `addToWishlist` is called, and the toast. */
  datatype WishOutcome = WishOutcome(adds: bool, toast: Toast)

  /** `handleAddToWishList` as written: the store call is guarded correctly,
      but the two toast titles are attached to the opposite branches. */
  function AddToWishListAsWritten(inWishlist: bool, p: Product): (r: WishOutcome)
    ensures r.adds <==> !inWishlist
    ensures r.toast.title == (if inWishlist then AddedToWishlist else AlreadyInWishlist)
  {
    if inWishlist then WishOutcome(false, Toast(AddedToWishlist, ToastImage(p), p.name))
    else WishOutcome(true, Toast(AlreadyInWishlist, ToastImage(p), p.name))
  }

  /** As written, clicking for a product already in the wishlist reports it
      as added although nothing is added, and adding a new product reports
      it as already present. */
  lemma WishlistToastsSwapped(p: Product)
    ensures !AddToWishListAsWritten(true, p).adds
    ensures AddToWishListAsWritten(true, p).toast.title == AddedToWishlist
    ensures AddToWishListAsWritten(false, p).adds
    ensures AddToWishListAsWritten(false, p).toast.title == AlreadyInWishlist
  {
  }

  /** The evidently intended handler: the same store call, with each toast
      describing what happened. */
  function AddToWishList(inWishlist: bool, p: Product): (r: WishOutcome)
    ensures r.adds <==> !inWishlist
    ensures r.toast.image == ToastImage(p) && r.toast.text == p.name
  {
    if inWishlist then WishOutcome(false, Toast(AlreadyInWishlist, ToastImage(p), p.name))
    else WishOutcome(true, Toast(AddedToWishlist, ToastImage(p), p.name))
  }

  /** In the corrected handler, the "added" toast appears exactly when the
      product is added; the two versions make the same store call. */
  lemma ToastMatchesAction(inWishlist: bool, p: Product)
    ensures AddToWishList(inWishlist, p).toast.title == AddedToWishlist <==> AddToWishList(inWishlist, p).adds
    ensures AddToWishList(inWishlist, p).toast.title == AlreadyInWishlist <==> !AddToWishList(inWishlist, p).adds
    ensures AddToWishList(inWishlist, p).adds == AddToWishListAsWritten(inWishlist, p).adds
  {
    assert AddedToWishlist != AlreadyInWishlist by {
      assert AddedToWishlist[5] == 'A' && AlreadyInWishlist[5] == 'A';
      assert AddedToWishlist[6] == 'd' && AlreadyInWishlist[6] == 'l';
    }
  }

  /** The wishlist handler run against an assumed store: the wishlist is a
      list of product ids and `addToWishlist` appends to it. The real store
      is not part of this model. A product is added once and a second click
      adds nothing. */
  function Apply(wishlist: seq<int>, p: Product): (r: seq<int>)
    ensures p.id in r
    ensures p.id in wishlist ==> r == wishlist
    ensures p.id !in wishlist ==> r == wishlist + [p.id]
  {
    if AddToWishList(p.id in wishlist, p).adds then wishlist + [p.id] else wishlist
  }

  /** Clicking twice leaves the same wishlist as clicking once. */
  lemma ApplyIdempotent(wishlist: seq<int>, p: Product)
    ensures Apply(Apply(wishlist, p), p) == Apply(wishlist, p)
  {
  }
}

=== FILE: query_params.dfy ===
/** `URLSearchParams` as a map from parameter name to value. The order of the
    parameters and repeated names are not represented. */
module QueryParams {
  import opened Wrappers
  import opened Text
  import opened Lookup

  type Params = map<string, string>

  /** `router.push(path + "?" + params)`: a target path with its query. */
  datatype Navigation = Navigation(path: string, query: Params)

  /** `params.get(name) || ""`, the way the components read their initial
      input values. */
  function GetOrEmpty(p: Params, name: string): (r: string)
    ensures name in p ==> r == p[name]
    ensures name !in p ==> r == ""
  {
    OptOrElse(Get(p, name), "")
  }

  /** The two parameter maps agree on every name outside `names`. */
  ghost predicate AgreeExcept(p: Params, q: Params, names: set<string>) {
    forall n :: n !in names ==> (n in p <==> n in q) && (n in p && n in q ==> p[n] == q[n])
  }

  /** `params.set(name, value)`. */
  function Set(p: Params, name: string, value: string): (r: Params)
    ensures name in r && r[name] == value
    ensures AgreeExcept(p, r, {name})
  {
    p[name := value]
  }

  /** `params.delete(name)`. */
  function Delete(p: Params, name: string): (r: Params)
    ensures name !in r
    ensures AgreeExcept(p, r, {name})
  {
    p - {name}
  }

  /** Setting a name to the value it already has changes nothing. */
  lemma SetExisting(p: Params, name: string, value: string)
    requires name in p && p[name] == value
    ensures Set(p, name, value) == p
  {
    assert Set(p, name, value).Keys == p.Keys;
  }

  /** Deleting an absent name changes nothing. */
  lemma DeleteAbsent(p: Params, name: string)
    requires name !in p
    ensures Delete(p, name) == p
  {
    assert Delete(p, name).Keys == p.Keys;
  }

  /** Agreement outside a set of names is preserved by widening the set and
      composes along a chain of updates. */
  lemma AgreeExceptTrans(p: Params, q: Params, r: Params, a: set<string>, b: set<string>)
    requires AgreeExcept(p, q, a) && AgreeExcept(q, r, b)
    ensures AgreeExcept(p, r, a + b)
  {
  }
}

=== FILE: records.dfy ===
/** The record shapes of the front end's `types/` folder, restricted to the
    fields the modelled logic reads or writes. Optional fields (`x?: T`) are
    `Option`s; numbers the logic treats as integers are `int`. */
module Records {
  import opened Wrappers

  /** A signed-in customer. */
  datatype User = User(
    id: Option<int>,
    fullName: string,
    email: string,
    phone: Option<string>,
    avatar: Option<string>,
    roles: Option<seq<string>>,
    isActive: Option<bool>,
    createdAt: Option<string>)

  /** The shipping address the checkout collects. */
  datatype ShippingAddress = ShippingAddress(
    firstName: string,
    lastName: string,
    address: string,
    phone: string,
    city: string,
    zip: string,
    country: string)

  /** A saved customer address. */
  datatype Address = Address(
    id: int,
    fullName: string,
    phone: string,
    line1: string,
    line2: Option<string>,
    city: string,
    state: string,
    postalCode: string,
    country: string,
    isDefault: bool)

  /** A cart line. */
  datatype CartItem = CartItem(
    id: int,
    name: string,
    price: int,
    quantity: int,
    images: Option<seq<string>>,
    selectedColor: Option<string>,
    productId: Option<int>,
    color: seq<string>)

  /** A hero-banner slide. */
  datatype Slider = Slider(
    id: int,
    imageUrl: string,
    subtitle: Option<string>,
    title: Option<string>,
    buttonText: Option<string>,
    buttonLink: Option<string>,
    textAlign: Option<string>,
    isActive: Option<bool>,
    displayOrder: Option<int>)

  datatype Permission = Permission(id: int, name: string, description: string)

  datatype Role = Role(id: int, name: string, description: string, permissions: Option<seq<Permission>>)

  /** The service call a create-or-edit form makes on a valid submit: create
      with the form data, or update the record with the given id. */
  datatype Save<D> = Create(data: D) | Update(id: int, data: D)
}

=== FILE: role_form.dfy ===
/** The admin role form: its schema, the initial permission selection, the
    permission toggle, and the create-or-update choice on submit. */
module RoleForm {
  import opened Wrappers
  import opened Text
  import opened Selection
  import opened Records

  /** The validated form data. */
  datatype Values = Values(name: string, description: string, permissionIds: seq<int>)

  /** The schema: name at least 3 characters, description at least 5, and
      at least one permission selected. */
  predicate Valid(v: Values) {
    |v.name| >= 3 && |v.description| >= 5 && |v.permissionIds| >= 1
  }

  /** `role?.permissions?.map(p => p.id) || []`: the ids of the role's
      permissions, in order, or nothing. */
  function InitialSelection(role: Option<Role>): (r: seq<int>)
    ensures role.Some? && role.value.permissions.Some? ==>
              |r| == |role.value.permissions.value|
              && forall k :: 0 <= k < |r| ==> r[k] == role.value.permissions.value[k].id
    ensures role.None? || role.value.permissions.None? ==> r == []
  {
    if role.Some? && role.value.permissions.Some? then
      var ps := role.value.permissions.value;
      seq(|ps|, k requires 0 <= k < |ps| => ps[k].id)
    else []
  }

  /** The default values; the selection state and the form field start
      equal. */
  function Defaults(role: Option<Role>): (r: Values)
    ensures role.Some? ==> r.name == role.value.name && r.description == role.value.description
    ensures role.None? ==> r.name == "" && r.description == ""
    ensures r.permissionIds == InitialSelection(role)
  {
    match role
    case Some(x) => Values(x.name, x.description, InitialSelection(role))
    case None => Values("", "", [])
  }

  /** A permission is selected initially exactly when the role holds it. */
  lemma InitialSelectionIsRolePermissions(role: Role, id: int)
    requires role.permissions.Some?
    ensures id in InitialSelection(Some(role)) <==> exists p :: p in role.permissions.value && p.id == id
  {
    var ps := role.permissions.value;
    var r := InitialSelection(Some(role));
    if exists p :: p in ps && p.id == id {
      var p :| p in ps && p.id == id;
      var k :| 0 <= k < |ps| && ps[k] == p;
      assert r[k] == id;
    }
  }

  /** `handlePermissionToggle`: the same new list is stored in the selection
      state and in the form field. */
  function TogglePermission(v: Values, id: int): (r: Values)
    ensures id in r.permissionIds <==> id !in v.permissionIds
    ensures forall x :: x != id ==> (x in r.permissionIds <==> x in v.permissionIds)
    ensures id !in v.permissionIds ==> r.permissionIds == v.permissionIds + [id]
    ensures id in v.permissionIds ==> Sublist(r.permissionIds, v.permissionIds) && |r.permissionIds| < |v.permissionIds|
    ensures r.name == v.name && r.description == v.description
  {
    v.(permissionIds := Toggle(v.permissionIds, id))
  }

  /** Toggling the same id twice restores which ids are selected. */
  lemma ToggleTwiceRestores(v: Values, id: int)
    ensures forall x :: x in TogglePermission(TogglePermission(v, id), id).permissionIds <==> x in v.permissionIds
  {
    ToggleTwice(v.permissionIds, id);
  }

  /** The submit handler runs only on valid data; it updates the role being
      edited and creates one otherwise. */
  function Submit(role: Option<Role>, v: Values): (r: Option<Save<Values>>)
    ensures r.Some? <==> Valid(v)
    ensures r.Some? ==> r.value.data == v && (r.value.Update? <==> role.Some?)
    ensures r.Some? && role.Some? ==> r.value.id == role.value.id
  {
    if !Valid(v) then None
    else match role
      case Some(x) => Some(Update(x.id, v))
      case None => Some(Create(v))
  }

  /** Where the form goes after saving: the caller's callback when one was
      given, else the roles list. */
  function AfterSave(hasOnSuccess: bool): (r: Option<string>)
    ensures hasOnSuccess <==> r.None?
    ensures r.Some? ==> r.value == "/dashboard/roles"
  {
    if hasOnSuccess then None else Some("/dashboard/roles")
  }

  /** Deselecting the only permission makes the form unsubmittable. */
  lemma DeselectingLastPermission(v: Values, id: int)
    requires v.permissionIds == [id]
    ensures Submit(None, TogglePermission(v, id)).None?
  {
    assert id !in TogglePermission(v, id).permissionIds;
    assert TogglePermission(v, id).permissionIds == [];
  }
}

=== FILE: search.dfy ===
/** The dashboard's customer and user search boxes, which share one rule:
    a trimmed term is set under the box's parameter and the page reset to
    1; a blank term removes the parameter and leaves the page alone. */
module DashboardSearch {
  import opened Text
  import opened QueryParams
  import opened Lookup

  /** The box starts with its parameter's value, or "". */
  function InitialTerm(params: Params, name: string): (r: string)
    ensures name in params ==> r == params[name]
    ensures name !in params ==> r == ""
  {
    GetOrEmpty(params, name)
  }

  /** `handleSearch` for a box writing parameter `name` and navigating to
      `path`. */
  function Search(params: Params, path: string, name: string, term: string): (r: Navigation)
    requires name != "page"
    ensures r.path == path
    ensures Truthy(Trim(term)) ==> name in r.query && r.query[name] == Trim(term)
                                   && "page" in r.query && r.query["page"] == "1"
                                   && AgreeExcept(params, r.query, {name, "page"})
    ensures !Truthy(Trim(term)) ==> r.query == params - {name}
  {
    var t := Trim(term);
    if Truthy(t) then
      var named := Set(params, name, t);
      var query := Set(named, "page", "1");
      AgreeExceptTrans(params, named, query, {name}, {"page"});
      assert {name} + {"page"} == {name, "page"};
      Navigation(path, query)
    else Navigation(path, Delete(params, name))
  }

  /** The box on the page a search leads to shows the trimmed term. */
  lemma SearchShowsTrimmed(params: Params, path: string, name: string, term: string)
    requires name != "page"
    ensures InitialTerm(Search(params, path, name, term).query, name) == Trim(term)
  {
  }

  /** Searching again from the resulting page changes nothing. */
  lemma SearchAgainIdempotent(params: Params, path: string, name: string, term: string)
    requires name != "page"
    ensures var once := Search(params, path, name, term);
            Search(once.query, path, name, InitialTerm(once.query, name)) == once
  {
    var once := Search(params, path, name, term);
    var t := Trim(term);
    SearchShowsTrimmed(params, path, name, term);
    assert InitialTerm(once.query, name) == t;
    TrimIdempotent(term);
    if Truthy(t) {
      SetExisting(once.query, name, t);
      SetExisting(once.query, "page", "1");
      assert Search(once.query, path, name, t).query == Set(Set(once.query, name, t), "page", "1");
    } else {
      assert name !in once.query;
      DeleteAbsent(once.query, name);
      assert Search(once.query, path, name, t).query == Delete(once.query, name);
    }
  }

  /** A blank search keeps the current page. */
  lemma BlankSearchKeepsPage(params: Params, path: string, name: string, term: string)
    requires name != "page" && !Truthy(Trim(term))
    ensures Get(Search(params, path, name, term).query, "page") == Get(params, "page")
  {
  }

  /** The two boxes that follow the rule: the customers page searches by
      name, the admin users page by e-mail. */
  datatype Box = CustomerSearch | UserSearch

  function BoxParam(b: Box): string {
    match b
    case CustomerSearch => "name"
    case UserSearch => "email"
  }

  function BoxPath(b: Box): string {
    match b
    case CustomerSearch => "/dashboard/customers"
    case UserSearch => "/dashboard/users"
  }

  /** A box's `handleSearch`: the shared rule on the box's own parameter and
      page. */
  function HandleSearch(params: Params, b: Box, term: string): (r: Navigation)
    ensures r.path == BoxPath(b)
    ensures Truthy(Trim(term)) ==> r.query == Set(Set(params, BoxParam(b), Trim(term)), "page", "1")
    ensures !Truthy(Trim(term)) ==> r.query == Delete(params, BoxParam(b))
  {
    Search(params, BoxPath(b), BoxParam(b), term)
  }
}

/** The orders page search: the text is not trimmed and the page is always
    reset. */
module OrderSearch {
  import opened Text
  import opened QueryParams

  const Path: string := "/dashboard/orders"

  /** `triggerSearch`. */
  function TriggerSearch(params: Params, text: string): (r: Navigation)
    ensures r.path == Path
    ensures Truthy(text) ==> "text" in r.query && r.query["text"] == text
    ensures !Truthy(text) ==> "text" !in r.query
    ensures "page" in r.query && r.query["page"] == "1"
    ensures AgreeExcept(params, r.query, {"text", "page"})
  {
    var withText := if Truthy(text) then Set(params, "text", text) else Delete(params, "text");
    var query := Set(withText, "page", "1");
    AgreeExceptTrans(params, withText, query, {"text"}, {"page"});
    Navigation(Path, query)
  }

  /** White space alone is a search of its own, unlike in the trimming
      boxes. */
  lemma WhitespaceIsKept()
    ensures TriggerSearch(map[], " ").query == map["text" := " ", "page" := "1"]
  {
  }

  /** The box on the page a search leads to shows the same text. */
  lemma TextRoundTrip(params: Params, text: string)
    ensures GetOrEmpty(TriggerSearch(params, text).query, "text") == text
  {
  }
}

/** The header's product search box. */
module SearchBox {
  import opened Wrappers
  import opened Text
  import opened QueryParams

  const SearchPath: string := "/search"

  /** `onFormSubmit`: both branches end with "query" set to the term (a
      present query is deleted first, which only moves it to the end). */
  function OnFormSubmit(params: Params, term: string): (r: Navigation)
    ensures r.path == SearchPath
    ensures "query" in r.query && r.query["query"] == term
    ensures AgreeExcept(params, r.query, {"query"})
  {
    if Truthy(GetOrEmpty(params, "query")) then
      Navigation(SearchPath, Set(Delete(params, "query"), "query", term))
    else Navigation(SearchPath, Set(params, "query", term))
  }

  /** "View all results" sets the term directly. */
  function ViewAll(params: Params, term: string): (r: Navigation)
    ensures r.path == SearchPath
    ensures "query" in r.query && r.query["query"] == term
  {
    Navigation(SearchPath, Set(params, "query", term))
  }

  /** Submitting and "View all results" lead to the same page. */
  lemma SubmitEqualsViewAll(params: Params, term: string)
    ensures OnFormSubmit(params, term) == ViewAll(params, term)
  {
    if Truthy(GetOrEmpty(params, "query")) {
      assert Set(Delete(params, "query"), "query", term) == Set(params, "query", term);
    }
  }

  /** What the debounced suggestion step does: fetch the first ten matches
      for the trimmed term, or clear the suggestions and close the list. */
  datatype Step = Fetch(term: string, page: int, limit: int) | ClearAndClose

  const MinTermLength: int := 2

  function SuggestStep(term: string): (r: Step)
    ensures |Trim(term)| < MinTermLength <==> r.ClearAndClose?
    ensures r.Fetch? ==> r == Fetch(Trim(term), 1, 10)
  {
    var t := Trim(term);
    if |t| < MinTermLength then ClearAndClose else Fetch(t, 1, 10)
  }

  /** Padding a short term with white space never triggers a fetch. */
  lemma PaddingDoesNotFetch(term: string)
    requires |Trim(term)| < MinTermLength
    ensures SuggestStep(" " + term + " ").ClearAndClose?
  {
    TrimPadded(term);
  }

  /** Trimming ignores one space on each side. */
  lemma TrimPadded(s: string)
    ensures Trim(" " + s + " ") == Trim(s)
  {
    TrimConsSpace(' ', s);
    assert " " + s + " " == ([' '] + s) + [' '];
    TrimSnocSpace([' '] + s, ' ');
  }

  /** The term when the path changes: cleared away from the search page. */
  function OnPathChange(pathname: string, term: string): (r: string)
    ensures pathname != SearchPath ==> r == ""
    ensures pathname == SearchPath ==> r == term
  {
    if pathname != SearchPath then "" else term
  }
}

=== FILE: selection.dfy ===
/** Operations on the selection lists the forms keep in their state (selected
    categories, colours, role names, permission ids): `filter`, append-if-absent,
    toggle, and order-preserving de-duplication (`Array.from(new Set(xs))`). */
module Selection {

  predicate NoDup<T(==,!new)>(xs: seq<T>) {
    forall i, j :: 0 <= i < j < |xs| ==> xs[i] != xs[j]
  }

  /** `a` is obtained from `b` by deleting elements, keeping the order. */
  predicate Sublist<T(==,!new)>(a: seq<T>, b: seq<T>)
    decreases |b|
  {
    if a == [] then true
    else if b == [] then false
    else if a[0] == b[0] then Sublist(a[1..], b[1..])
    else Sublist(a, b[1..])
  }

  /** `xs.filter(keep)`. */
  function Filter<T(==,!new)>(xs: seq<T>, keep: T -> bool): (r: seq<T>)
    ensures forall y :: y in r <==> y in xs && keep(y)
    ensures Sublist(r, xs)
    ensures |r| <= |xs|
    ensures (forall k :: 0 <= k < |xs| ==> keep(xs[k])) ==> r == xs
  {
    if xs == [] then []
    else
      var rest := Filter(xs[1..], keep);
      assert forall y :: y in xs <==> y == xs[0] || y in xs[1..];
      if keep(xs[0]) then [xs[0]] + rest
      else
        SublistDropHead(rest, xs);
        rest
  }

  /** A sublist of the tail is a sublist of the whole list. */
  lemma SublistDropHead<T(!new)>(a: seq<T>, b: seq<T>)
    requires b != [] && Sublist(a, b[1..])
    ensures Sublist(a, b)
    decreases |b|, |a|
  {
    if a != [] && a[0] == b[0] {
      SublistTail(a, b[1..]);
    }
  }

  /** Dropping the head of a sublist keeps it a sublist. */
  lemma SublistTail<T(!new)>(a: seq<T>, b: seq<T>)
    requires a != [] && Sublist(a, b)
    ensures Sublist(a[1..], b)
    decreases |b|, |a|
  {
    if a[0] != b[0] {
      SublistTail(a, b[1..]);
    }
    SublistDropHead(a[1..], b);
  }

  /** Filtering a list without duplicates keeps it free of duplicates. */
  lemma {:induction false} FilterNoDup<T(!new)>(xs: seq<T>, keep: T -> bool)
    ensures NoDup(xs) ==> NoDup(Filter(xs, keep))
  {
    if NoDup(xs) && xs != [] {
      assert NoDup(xs[1..]);
      FilterNoDup(xs[1..], keep);
      assert xs[0] !in xs[1..];
    }
  }

  /** Every element except `x`, in order: `xs.filter(y => y !== x)`. */
  function Remove<T(==,!new)>(xs: seq<T>, x: T): (r: seq<T>)
    ensures x !in r
    ensures forall y :: y != x ==> (y in r <==> y in xs)
    ensures Sublist(r, xs)
    ensures x !in xs ==> r == xs
    ensures NoDup(xs) ==> NoDup(r)
  {
    FilterNoDup(xs, y => y != x);
    Filter(xs, y => y != x)
  }

  /** The add handlers: a value already selected leaves the list as it is,
      any other value goes to the end. */
  function AddIfAbsent<T(==,!new)>(xs: seq<T>, x: T): (r: seq<T>)
    ensures forall y :: y in r <==> y in xs || y == x
    ensures x in xs ==> r == xs
    ensures x !in xs ==> |r| == |xs| + 1 && r[..|xs|] == xs && r[|xs|] == x
  {
    if x in xs then xs else xs + [x]
  }

  /** The toggle handlers: remove a selected value, append an unselected one. */
  function Toggle<T(==,!new)>(xs: seq<T>, x: T): (r: seq<T>)
    ensures x in r <==> x !in xs
    ensures forall y :: y != x ==> (y in r <==> y in xs)
    ensures x !in xs ==> r == xs + [x]
    ensures x in xs ==> Sublist(r, xs) && |r| < |xs|
  {
    if x in xs then
      var r := Remove(xs, x);
      FilterShorter(xs, y => y != x, x);
      r
    else xs + [x]
  }

  /** A filter that rejects an element of the list makes it strictly shorter. */
  lemma {:induction false} FilterShorter<T(!new)>(xs: seq<T>, keep: T -> bool, x: T)
    requires x in xs && !keep(x)
    ensures |Filter(xs, keep)| < |xs|
  {
    if xs[0] != x {
      FilterShorter(xs[1..], keep, x);
    }
  }

  /** Toggling the same value twice restores its membership and everything
      else's; starting from an unselected value it restores the list exactly. */
  lemma ToggleTwice<T(!new)>(xs: seq<T>, x: T)
    ensures forall y :: y in Toggle(Toggle(xs, x), x) <==> y in xs
    ensures x !in xs ==> Toggle(Toggle(xs, x), x) == xs
  {
    if x !in xs {
      RemoveAppended(xs, x);
    }
  }

  /** Removing a value that was appended to a list not containing it gives the
      list back. */
  lemma {:induction false} RemoveAppended<T(!new)>(xs: seq<T>, x: T)
    requires x !in xs
    ensures Remove(xs + [x], x) == xs
  {
    if xs == [] {
      assert Filter([x], y => y != x) == [];
    } else {
      assert (xs + [x])[1..] == xs[1..] + [x];
      RemoveAppended(xs[1..], x);
      assert xs == [xs[0]] + xs[1..];
    }
  }

  /** A sublist stays one when the same element is appended to both lists,
      or to the longer list only. */
  lemma {:induction false} SublistSnoc<T(!new)>(a: seq<T>, b: seq<T>, x: T)
    requires Sublist(a, b)
    ensures Sublist(a + [x], b + [x])
    ensures Sublist(a, b + [x])
    decreases |b|
  {
    if b == [] {
      assert a == [];
      assert a + [x] == [x];
    } else if a == [] {
      SublistSnoc(a, b[1..], x);
      assert (b + [x])[1..] == b[1..] + [x];
      assert a + [x] == [x];
    } else if a[0] == b[0] {
      SublistSnoc(a[1..], b[1..], x);
      assert (a + [x])[1..] == a[1..] + [x];
      assert (b + [x])[1..] == b[1..] + [x];
    } else {
      SublistSnoc(a, b[1..], x);
      assert (b + [x])[1..] == b[1..] + [x];
    }
  }

  /** Order-preserving de-duplication, keeping the first occurrence of each
      value: `Array.from(new Set(xs))`. */
  function Dedup<T(==,!new)>(xs: seq<T>): (r: seq<T>)
    ensures NoDup(r)
    ensures forall y :: y in r <==> y in xs
    ensures Sublist(r, xs)
    ensures |r| <= |xs|
  {
    if xs == [] then []
    else
      var init := xs[..|xs| - 1];
      var last := xs[|xs| - 1];
      var d := Dedup(init);
      assert forall y :: y in xs <==> y in init || y == last by {
        assert xs == init + [last];
      }
      SublistSnoc(d, init, last);
      assert xs == init + [last];
      if last in d then d else d + [last]
  }

  /** Where `y` first occurs in `xs`. */
  function FirstIndex<T(==,!new)>(xs: seq<T>, y: T): (i: nat)
    requires y in xs
    ensures i < |xs| && xs[i] == y && y !in xs[..i]
  {
    if xs[0] == y then 0
    else
      var i := FirstIndex(xs[1..], y) + 1;
      assert xs[..i] == [xs[0]] + xs[1..][..i - 1];
      i
  }

  /** Appending a value does not move the first occurrence of a value that
      was already there. */
  lemma {:induction false} FirstIndexSnoc<T(!new)>(xs: seq<T>, last: T, y: T)
    requires y in xs
    ensures FirstIndex(xs + [last], y) == FirstIndex(xs, y)
  {
    if xs[0] != y {
      assert (xs + [last])[1..] == xs[1..] + [last];
      FirstIndexSnoc(xs[1..], last, y);
    }
  }

  /** `Dedup` lists the values in the order of their first occurrences. */
  lemma {:induction false} DedupFirstOccurrenceOrder<T(!new)>(xs: seq<T>)
    ensures forall i, j :: 0 <= i < j < |Dedup(xs)| ==>
              FirstIndex(xs, Dedup(xs)[i]) < FirstIndex(xs, Dedup(xs)[j])
  {
    if xs != [] {
      var init := xs[..|xs| - 1];
      var last := xs[|xs| - 1];
      assert xs == init + [last];
      var d := Dedup(init);
      var r := Dedup(xs);
      DedupFirstOccurrenceOrder(init);
      forall y | y in init
        ensures FirstIndex(xs, y) == FirstIndex(init, y)
      {
        FirstIndexSnoc(init, last, y);
      }
      forall i, j | 0 <= i < j < |r|
        ensures FirstIndex(xs, r[i]) < FirstIndex(xs, r[j])
      {
        assert r[i] == d[i];
        if j < |d| {
          assert r[j] == d[j];
        } else {
          assert r[j] == last && last !in init;
          assert FirstIndex(xs, last) == |init|;
        }
      }
    }
  }

  /** A list that has no duplicates is its own de-duplication. */
  lemma {:induction false} DedupOfNoDup<T(!new)>(xs: seq<T>)
    requires NoDup(xs)
    ensures Dedup(xs) == xs
  {
    if xs != [] {
      var init := xs[..|xs| - 1];
      assert NoDup(init);
      DedupOfNoDup(init);
      assert xs[|xs| - 1] !in init;
      assert xs == init + [xs[|xs| - 1]];
    }
  }

  /** De-duplication is idempotent. */
  lemma DedupIdempotent<T(!new)>(xs: seq<T>)
    ensures Dedup(Dedup(xs)) == Dedup(xs)
  {
    DedupOfNoDup(Dedup(xs));
  }
}

=== FILE: sidebar.dfy ===
/** The dashboard sidebar: the fixed list of links, which of them is active
    for the current path, and which of them the admin may see. The any-of
    query it reads from the admin store is not declared there, so as written
    the filter throws at the first guarded link (`VisibleLinksAsWritten`);
    the intended filter takes the query as a parameter, bound to the admin
    token (`SectionVisibleIffRead`). */
module DashboardSidebar {
  import opened Wrappers
  import opened Text
  import opened Permissions
  import opened Selection
  import Auth
  import AdminAuthStore

  /** A sidebar entry; `caption` is the source's `label`, a word Dafny
      reserves. */
  datatype NavLink = NavLink(link: string, caption: string, isActive: bool, permissions: seq<string>)

  /** The sections after Home, in display order. */
  const Sections: seq<Group> :=
    [Orders, Products, Categories, Sliders, Customers, Roles, PermissionsGroup, Users]

  /** The URL segment of a section. */
  function Slug(g: Group): string {
    match g
    case Products => "products"
    case Orders => "orders"
    case Customers => "customers"
    case Categories => "categories"
    case Blogs => "blogs"
    case Sliders => "sliders"
    case Roles => "roles"
    case PermissionsGroup => "permissions"
    case Users => "users"
    case Analytics => "analytics"
  }

  function Label(g: Group): string {
    match g
    case Products => "Products"
    case Orders => "Orders"
    case Customers => "Customers"
    case Categories => "Categories"
    case Blogs => "Blogs"
    case Sliders => "Sliders"
    case Roles => "Roles"
    case PermissionsGroup => "Permissions"
    case Users => "Users"
    case Analytics => "Analytics"
  }

  /** The Home link: active only on "/dashboard" itself, and with no
      permissions attached. */
  function HomeLink(pathname: string): (l: NavLink)
    ensures l.permissions == []
    ensures l.isActive <==> pathname == "/dashboard"
  {
    NavLink("/dashboard", "Home", pathname == "/dashboard", [])
  }

  /** A section link: active whenever the path contains "dashboard/<slug>"
      anywhere, and guarded by the section's manage and read codes. */
  function SectionLink(g: Group, pathname: string): (l: NavLink)
    ensures l.link == "/dashboard/" + Slug(g)
    ensures l.isActive <==> exists i :: OccursAt(pathname, "dashboard/" + Slug(g), i)
    ensures l.permissions == [Manage(GroupName(g)), Code("READ", GroupName(g))]
  {
    NavLink("/dashboard/" + Slug(g), Label(g), Contains(pathname, "dashboard/" + Slug(g)),
            [Manage(GroupName(g)), Code("READ", GroupName(g))])
  }

  /** `dashboardLinks`: Home, then one link per section. */
  function DashboardLinks(pathname: string): (r: seq<NavLink>)
    ensures |r| == 1 + |Sections|
    ensures r[0] == HomeLink(pathname)
    ensures forall i :: 0 <= i < |Sections| ==> r[i + 1] == SectionLink(Sections[i], pathname)
  {
    [HomeLink(pathname)] + seq(|Sections|, i requires 0 <= i < |Sections| => SectionLink(Sections[i], pathname))
  }

  /** The filter: a link without permissions is always kept, any other link
      when the any-of query accepts its list. */
  predicate Shown(hasAnyPermission: seq<string> -> bool, l: NavLink) {
    |l.permissions| == 0 || hasAnyPermission(l.permissions)
  }

  /** `visibleLinks`: the shown links, in their original order. */
  function VisibleLinks(hasAnyPermission: seq<string> -> bool, links: seq<NavLink>): (r: seq<NavLink>)
    ensures Sublist(r, links)
    ensures forall l :: l in r <==> l in links && Shown(hasAnyPermission, l)
  {
    Filter(links, l => Shown(hasAnyPermission, l))
  }

  /** Home is visible whatever the permissions. */
  lemma HomeAlwaysVisible(hasAnyPermission: seq<string> -> bool, pathname: string)
    ensures HomeLink(pathname) in VisibleLinks(hasAnyPermission, DashboardLinks(pathname))
  {
    assert DashboardLinks(pathname)[0] == HomeLink(pathname);
  }

  /** With the token's any-of query, a section's link is visible exactly when
      the token grants READ on the section, directly or through MANAGE. */
  lemma SectionVisibleIffRead(decode: Auth.Decoder, cookie: Option<string>, pathname: string, i: nat)
    requires i < |Sections|
    ensures var g := Sections[i];
            SectionLink(g, pathname) in VisibleLinks(ws => Auth.HasAnyPermission(decode, cookie, ws), DashboardLinks(pathname))
            <==> Auth.CanAccessResource(decode, cookie.GetOr(""), GroupName(g), "READ")
  {
    var g := Sections[i];
    var l := SectionLink(g, pathname);
    var links := DashboardLinks(pathname);
    assert links[i + 1] == l;
    var n := GroupName(g);
    var ws := [Manage(n), Code("READ", n)];
    var held := Auth.HeldPermissions(Auth.DecodeFromString(decode, cookie.GetOr("")));
    if held.Some? {
      assert Auth.AnyIn(ws, held.value) <==> Manage(n) in held.value || Code("READ", n) in held.value by {
        if Auth.AnyIn(ws, held.value) {
          var k :| 0 <= k < |ws| && ws[k] in held.value;
          assert k == 0 || k == 1;
        }
        if Manage(n) in held.value {
          assert ws[0] in held.value;
        }
        if Code("READ", n) in held.value {
          assert ws[1] in held.value;
        }
      }
    }
  }

  /** The filter's test for one link as written: a link without permissions
      is kept without a call; any other calls the undeclared any-of query. */
  function ShownAsWritten(hasAnyPermission: seq<string> -> bool, l: NavLink): (r: AdminAuthStore.Call<bool>)
    ensures r.TypeError? <==> |l.permissions| > 0
    ensures r.Returns? ==> r.value
  {
    if |l.permissions| == 0 then AdminAuthStore.Returns(true)
    else AdminAuthStore.CallMember("hasAnyPermission", hasAnyPermission(l.permissions))
  }

  /** `visibleLinks` as written: `hasAnyPermission` is `undefined`, so the
      filter throws at the first link that carries permissions, and returns
      only when no link does, with every link kept. */
  function VisibleLinksAsWritten(hasAnyPermission: seq<string> -> bool, links: seq<NavLink>): (r: AdminAuthStore.Call<seq<NavLink>>)
    ensures r.TypeError? <==> exists k :: 0 <= k < |links| && |links[k].permissions| > 0
    ensures r.Returns? ==> r.value == links
  {
    if links == [] then AdminAuthStore.Returns([])
    else
      match ShownAsWritten(hasAnyPermission, links[0])
      case TypeError => AdminAuthStore.TypeError
      case Returns(keep) =>
        match VisibleLinksAsWritten(hasAnyPermission, links[1..])
        case TypeError =>
          var k :| 0 <= k < |links[1..]| && |links[1..][k].permissions| > 0;
          assert |links[k + 1].permissions| > 0;
          AdminAuthStore.TypeError
        case Returns(rest) =>
          assert links == [links[0]] + links[1..];
          AdminAuthStore.Returns(if keep then [links[0]] + rest else rest)
  }

  /** Where the filter as written returns at all, it agrees with the intended
      one: every link is shown. */
  lemma AsWrittenAgreesWhenReturns(hasAnyPermission: seq<string> -> bool, links: seq<NavLink>)
    requires VisibleLinksAsWritten(hasAnyPermission, links).Returns?
    ensures VisibleLinksAsWritten(hasAnyPermission, links).value == VisibleLinks(hasAnyPermission, links)
  {
    assert forall k :: 0 <= k < |links| ==> Shown(hasAnyPermission, links[k]);
  }

  /** The discrepancy: the dashboard's links always include guarded sections,
      so the sidebar as written throws for every admin, while the intended
      filter always shows Home. */
  lemma SidebarThrowsAsWritten(hasAnyPermission: seq<string> -> bool, pathname: string)
    ensures HomeLink(pathname) in VisibleLinks(hasAnyPermission, DashboardLinks(pathname))
    ensures VisibleLinksAsWritten(hasAnyPermission, DashboardLinks(pathname)).TypeError?
  {
    HomeAlwaysVisible(hasAnyPermission, pathname);
    assert |DashboardLinks(pathname)[1].permissions| > 0;
  }
}

=== FILE: slider_form.dfy ===
/** The admin slider form: its schema, default values and the create-or-
    update choice on submit. */
module SliderForm {
  import opened Wrappers
  import opened Records

  /** The display order input read with `valueAsNumber`: a number, or NaN
      once the input is cleared. */
  datatype OrderInput = OrderNumber(n: int) | NotANumber

  /** The form values. Every field but the title and image URL is
      optional. */
  datatype Values = Values(
    title: Option<string>,
    subtitle: Option<string>,
    imageUrl: string,
    buttonText: Option<string>,
    buttonLink: Option<string>,
    textAlign: Option<string>,
    isActive: Option<bool>,
    displayOrder: Option<OrderInput>)

  const Alignments: seq<string> := ["left", "center", "right"]

  /** The schema: a non-empty title and image URL, an alignment that is
      one of left, center or right when given, and a display order that is a
      number when given (`z.number()` rejects NaN). */
  predicate Valid(v: Values) {
    && v.title.Some? && |v.title.value| >= 1
    && |v.imageUrl| >= 1
    && (v.textAlign.None? || v.textAlign.value in Alignments)
    && (v.displayOrder.None? || v.displayOrder.value.OrderNumber?)
  }

  /** The slider's numeric display order as the input holds it. */
  function OrderOf(n: Option<int>): (r: Option<OrderInput>)
    ensures n.None? <==> r.None?
    ensures n.Some? ==> r == Some(OrderNumber(n.value))
  {
    match n
    case Some(k) => Some(OrderNumber(k))
    case None => None
  }

  /** The default values: the slider being edited as it is, or an empty
      slide that is centred, active and first. */
  function Defaults(slider: Option<Slider>): (r: Values)
    ensures slider.None? ==>
              r.textAlign == Some("center") && r.isActive == Some(true) && r.displayOrder == Some(OrderNumber(0))
              && r.title == Some("") && r.imageUrl == ""
    ensures slider.Some? ==>
              r.title == slider.value.title && r.imageUrl == slider.value.imageUrl
              && r.textAlign == slider.value.textAlign && r.isActive == slider.value.isActive
              && r.displayOrder == OrderOf(slider.value.displayOrder)
  {
    match slider
    case Some(s) => Values(s.title, s.subtitle, s.imageUrl, s.buttonText, s.buttonLink, s.textAlign, s.isActive, OrderOf(s.displayOrder))
    case None => Values(Some(""), Some(""), "", Some(""), Some(""), Some("center"), Some(true), Some(OrderNumber(0)))
  }

  /** The submit handler runs only on valid data; it updates the slider
      being edited and creates one otherwise. */
  function Submit(slider: Option<Slider>, v: Values): (r: Option<Save<Values>>)
    ensures r.Some? <==> Valid(v)
    ensures v.displayOrder == Some(NotANumber) ==> r.None?
    ensures r.Some? ==> r.value.data == v && (r.value.Update? <==> slider.Some?)
    ensures r.Some? && slider.Some? ==> r.value.id == slider.value.id
  {
    if !Valid(v) then None
    else match slider
      case Some(s) => Some(Update(s.id, v))
      case None => Some(Create(v))
  }

  /** The blank new slide's alignment passes the schema, its empty title and
      image URL do not. */
  lemma BlankDefaultsRejected()
    ensures Defaults(None).textAlign.value in Alignments
    ensures !Valid(Defaults(None))
  {
  }

  /** Filling in a title and an image URL on the blank slide makes it
      submittable, as a creation. */
  lemma FilledDefaultsCreate(title: string, url: string)
    requires |title| >= 1 && |url| >= 1
    ensures var v := Defaults(None).(title := Some(title), imageUrl := url);
            Submit(None, v) == Some(Create(v))
  {
    assert "center" in Alignments;
  }
}

=== FILE: snake_case.dfy ===
/** The SKU normaliser of the product form: lower-case the text, turn every
    run of characters outside [a-z0-9] into one '_', strip '_' at both ends,
    and collapse repeated '_'. Together with the SKU pattern
    `^[a-z0-9]+(?:_[a-z0-9]+)*$` it checks against. */
module SnakeCase {
  import opened Text
  import opened Selection

  /** The regular-expression class `[a-z0-9]`. */
  predicate IsAlnum(c: char) {
    'a' <= c <= 'z' || '0' <= c <= '9'
  }

  predicate SkuChars(s: string) {
    forall k :: 0 <= k < |s| ==> IsAlnum(s[k]) || s[k] == '_'
  }

  /** No two '_' in a row. */
  predicate NoDoubleUnderscore(s: string) {
    forall k :: 0 <= k < |s| - 1 ==> s[k] != '_' || s[k + 1] != '_'
  }

  /** Only [a-z0-9_], no '_' at either end, and no "__". */
  predicate Clean(s: string) {
    && SkuChars(s)
    && NoDoubleUnderscore(s)
    && (s == [] || (s[0] != '_' && s[|s| - 1] != '_'))
  }

  /** The SKU pattern read left to right: one alphanumeric, then `SkuTail`. */
  predicate SkuPattern(s: string) {
    |s| > 0 && IsAlnum(s[0]) && SkuTail(s[1..])
  }

  /** What may follow an alphanumeric: more alphanumerics, or '_' followed by
      an alphanumeric, any number of times. */
  predicate SkuTail(s: string)
    decreases |s|
  {
    || s == []
    || (IsAlnum(s[0]) && SkuTail(s[1..]))
    || (|s| >= 2 && s[0] == '_' && IsAlnum(s[1]) && SkuTail(s[2..]))
  }

  // ----- Words: the content a snake case keeps -----

  /** A non-empty run of [a-z0-9]. */
  predicate AlnumWord(w: string) {
    w != [] && forall j :: 0 <= j < |w| ==> IsAlnum(w[j])
  }

  predicate StartsAlnum(s: string) {
    s != [] && IsAlnum(s[0])
  }

  /** The maximal runs of [a-z0-9] in `s`, in order: the words that the
      snake case joins with '_'. */
  function Words(s: string): (ws: seq<string>)
    ensures StartsAlnum(s) ==> ws != []
    decreases |s|
  {
    if s == [] then []
    else if !IsAlnum(s[0]) then Words(s[1..])
    else
      var rest := Words(s[1..]);
      if StartsAlnum(s[1..]) then [[s[0]] + rest[0]] + rest[1..] else [[s[0]]] + rest
  }

  /** A character in front of `x` starts a new word, extends the first word
      of `x`, or is a separator that changes nothing. */
  lemma WordsCons(c: char, x: string)
    ensures !IsAlnum(c) ==> Words([c] + x) == Words(x)
    ensures IsAlnum(c) && StartsAlnum(x) ==> Words([c] + x) == [[c] + Words(x)[0]] + Words(x)[1..]
    ensures IsAlnum(c) && !StartsAlnum(x) ==> Words([c] + x) == [[c]] + Words(x)
  {
    assert ([c] + x)[1..] == x;
  }

  /** Two texts with the same words and the same kind of first character
      keep the same words behind any character. */
  lemma WordsCongruent(c: char, x: string, y: string)
    requires Words(x) == Words(y) && (StartsAlnum(x) <==> StartsAlnum(y))
    ensures Words([c] + x) == Words([c] + y)
  {
    WordsCons(c, x);
    WordsCons(c, y);
  }

  /** A text without [a-z0-9] has no words. */
  lemma {:induction false} NoAlnumNoWords(s: string)
    requires forall k :: 0 <= k < |s| ==> !IsAlnum(s[k])
    ensures Words(s) == []
    decreases |s|
  {
    if s != [] {
      NoAlnumNoWords(s[1..]);
    }
  }

  /** Cutting off a tail without [a-z0-9] keeps the words. */
  lemma {:induction false} WordsDropNonAlnumSuffix(s: string, n: nat)
    requires n <= |s|
    requires forall k :: n <= k < |s| ==> !IsAlnum(s[k])
    ensures Words(s[..n]) == Words(s)
    decreases |s|
  {
    if n == 0 {
      NoAlnumNoWords(s);
    } else {
      var t := s[1..];
      WordsDropNonAlnumSuffix(t, n - 1);
      assert s[..n] == [s[0]] + t[..n - 1];
      assert s == [s[0]] + t;
      WordsCongruent(s[0], t[..n - 1], t);
    }
  }

  /** Every character is kept except '_'. */
  predicate NotUnderscore(c: char) {
    c != '_'
  }

  predicate AllUnderscores(s: string) {
    forall k :: 0 <= k < |s| ==> s[k] == '_'
  }

  // ----- The steps of `toSnakeCase` -----

  /** Drops every leading character outside [a-z0-9]. */
  function DropNonAlnum(s: string): (r: string)
    ensures |r| <= |s| && r == s[|s| - |r|..]
    ensures r == [] || IsAlnum(r[0])
    ensures Words(r) == Words(s)
  {
    if s == [] || IsAlnum(s[0]) then s
    else
      WordsCons(s[0], s[1..]);
      assert s == [s[0]] + s[1..];
      DropNonAlnum(s[1..])
  }

  /** `.replace(/[^a-z0-9]+/g, "_")`. */
  function ReplaceNonAlnumRuns(s: string): (r: string)
    ensures SkuChars(r) && NoDoubleUnderscore(r)
    ensures |r| <= |s|
    ensures s != [] && IsAlnum(s[0]) ==> r != [] && r[0] == s[0]
    ensures s != [] && !IsAlnum(s[0]) ==> r != [] && r[0] == '_'
    decreases |s|
  {
    if s == [] then []
    else if IsAlnum(s[0]) then
      var rest := ReplaceNonAlnumRuns(s[1..]);
      ConsPreserves(s[0], rest);
      [s[0]] + rest
    else
      var rest := ReplaceNonAlnumRuns(DropNonAlnum(s[1..]));
      ConsPreserves('_', rest);
      "_" + rest
  }

  /** Replacing the runs outside [a-z0-9] keeps every word, in order: the
      alphanumerics survive and no two words merge or split. */
  lemma {:induction false} ReplaceKeepsWords(s: string)
    ensures Words(ReplaceNonAlnumRuns(s)) == Words(s)
    decreases |s|
  {
    if s != [] {
      var c, t := s[0], s[1..];
      assert s == [c] + t;
      if IsAlnum(c) {
        ReplaceKeepsWords(t);
        ReplaceAlnumStep(s);
        WordsCongruent(c, ReplaceNonAlnumRuns(t), t);
      } else {
        var d := DropNonAlnum(t);
        ReplaceKeepsWords(d);
        ReplaceOtherStep(s);
        WordsCons('_', ReplaceNonAlnumRuns(d));
        WordsCons(c, t);
      }
    }
  }

  /** One step of the replacement at an alphanumeric. */
  lemma ReplaceAlnumStep(s: string)
    requires s != [] && IsAlnum(s[0])
    ensures ReplaceNonAlnumRuns(s) == [s[0]] + ReplaceNonAlnumRuns(s[1..])
  {
  }

  /** One step of the replacement at a run of other characters. */
  lemma ReplaceOtherStep(s: string)
    requires s != [] && !IsAlnum(s[0])
    ensures ReplaceNonAlnumRuns(s) == ['_'] + ReplaceNonAlnumRuns(DropNonAlnum(s[1..]))
  {
  }

  /** Putting a character in front keeps the SKU characters and the absence of
      "__", unless it makes "__". */
  lemma ConsPreserves(c: char, t: string)
    requires IsAlnum(c) || c == '_'
    requires SkuChars(t) && NoDoubleUnderscore(t)
    requires c == '_' ==> t == [] || t[0] != '_'
    ensures SkuChars([c] + t) && NoDoubleUnderscore([c] + t)
  {
    var u := [c] + t;
    forall k | 1 <= k < |u| ensures u[k] == t[k - 1] { }
  }

  /** Drops every leading '_': `.replace(/^_+/, "")`. */
  function DropLeadingUnderscores(s: string): (r: string)
    ensures |r| <= |s| && r == s[|s| - |r|..]
    ensures r == [] || r[0] != '_'
    ensures s != [] && s[0] == '_' ==> |r| < |s|
    ensures s == [] || s[0] != '_' ==> r == s
    ensures AllUnderscores(s[..|s| - |r|])
  {
    if s != [] && s[0] == '_' then
      var r := DropLeadingUnderscores(s[1..]);
      assert s[..|s| - |r|] == [s[0]] + s[1..][..|s| - 1 - |r|];
      r
    else s
  }

  /** Dropping the leading '_' keeps the words and every other character,
      in order. */
  lemma {:induction false} DropLeadingKeeps(s: string)
    ensures Words(DropLeadingUnderscores(s)) == Words(s)
    ensures Filter(DropLeadingUnderscores(s), NotUnderscore) == Filter(s, NotUnderscore)
    decreases |s|
  {
    if s != [] && s[0] == '_' {
      DropLeadingKeeps(s[1..]);
      WordsCons('_', s[1..]);
      assert s == [s[0]] + s[1..];
      assert Filter(s, NotUnderscore) == Filter(s[1..], NotUnderscore);
    }
  }

  /** Drops every trailing '_': `.replace(/_+$/, "")`. */
  function DropTrailingUnderscores(s: string): (r: string)
    ensures |r| <= |s| && r == s[..|r|]
    ensures r == [] || r[|r| - 1] != '_'
    ensures s == [] || s[|s| - 1] != '_' ==> r == s
    ensures AllUnderscores(s[|r|..])
  {
    if s != [] && s[|s| - 1] == '_' then DropTrailingUnderscores(s[..|s| - 1]) else s
  }

  /** `.replace(/^_+|_+$/g, "")`. */
  function TrimUnderscores(s: string): (r: string)
    ensures r == [] || (r[0] != '_' && r[|r| - 1] != '_')
    ensures SkuChars(s) ==> SkuChars(r)
    ensures NoDoubleUnderscore(s) ==> NoDoubleUnderscore(r)
    ensures exists i, j :: 0 <= i <= j <= |s| && r == s[i..j] && AllUnderscores(s[..i]) && AllUnderscores(s[j..])
    ensures Words(r) == Words(s)
  {
    var a := DropLeadingUnderscores(s);
    var r := DropTrailingUnderscores(a);
    DropLeadingKeeps(s);
    TrimmedPart(s, a, r);
    TrimmedWords(a, r);
    r
  }

  /** What is left after dropping '_' at the front and then at the back is
      a slice of the text with only '_' around it. */
  lemma TrimmedPart(s: string, a: string, r: string)
    requires |a| <= |s| && a == s[|s| - |a|..] && AllUnderscores(s[..|s| - |a|])
    requires |r| <= |a| && r == a[..|r|] && AllUnderscores(a[|r|..])
    requires a == [] || a[0] != '_'
    requires r == [] || r[|r| - 1] != '_'
    ensures r == [] || (r[0] != '_' && r[|r| - 1] != '_')
    ensures SkuChars(s) ==> SkuChars(r)
    ensures NoDoubleUnderscore(s) ==> NoDoubleUnderscore(r)
    ensures exists i, j :: 0 <= i <= j <= |s| && r == s[i..j] && AllUnderscores(s[..i]) && AllUnderscores(s[j..])
  {
    var i := |s| - |a|;
    var j := i + |r|;
    assert r != [] ==> r[0] == a[0];
    assert r == s[i..j];
    assert s[j..] == a[|r|..];
    assert forall k :: 0 <= k < |r| ==> r[k] == s[i + k];
  }

  /** Cutting '_' off the back keeps the words. */
  lemma TrimmedWords(a: string, r: string)
    requires |r| <= |a| && r == a[..|r|] && AllUnderscores(a[|r|..])
    ensures Words(r) == Words(a)
  {
    forall k | |r| <= k < |a|
      ensures !IsAlnum(a[k])
    {
      assert a[k] == a[|r|..][k - |r|];
    }
    WordsDropNonAlnumSuffix(a, |r|);
  }

  /** `.replace(/_+/g, "_")`. */
  function CollapseUnderscores(s: string): (r: string)
    ensures NoDoubleUnderscore(r)
    ensures s != [] && s[0] != '_' ==> r != [] && r[0] == s[0]
    ensures s != [] && s[0] == '_' ==> r != [] && r[0] == '_'
    ensures s == [] ==> r == []
    decreases |s|
  {
    if s == [] then []
    else if s[0] == '_' then "_" + CollapseUnderscores(DropLeadingUnderscores(s))
    else [s[0]] + CollapseUnderscores(s[1..])
  }

  /** Collapsing keeps the words and every character other than '_', in
      order. */
  lemma {:induction false} CollapseKeeps(s: string)
    ensures Words(CollapseUnderscores(s)) == Words(s)
    ensures Filter(CollapseUnderscores(s), NotUnderscore) == Filter(s, NotUnderscore)
    decreases |s|
  {
    if s != [] {
      var r := CollapseUnderscores(s);
      if s[0] == '_' {
        var d := DropLeadingUnderscores(s);
        var rest := CollapseUnderscores(d);
        DropLeadingKeeps(s);
        CollapseKeeps(d);
        assert r == "_" + rest;
        WordsCons('_', rest);
        assert r[1..] == rest;
      } else {
        var rest := CollapseUnderscores(s[1..]);
        CollapseKeeps(s[1..]);
        assert r == [s[0]] + rest;
        WordsCongruent(s[0], rest, s[1..]);
        assert s == [s[0]] + s[1..];
        assert r[1..] == rest;
      }
    }
  }

  /** `toSnakeCase`: the lower-cased text's runs of [a-z0-9], in order,
      joined by single '_'. So the result contains only [a-z0-9_], with no
      '_' at either end and no "__". */
  function ToSnakeCase(s: string): (r: string)
    ensures Clean(r)
    ensures Words(r) == Words(ToLower(s))
    ensures r == Join(Words(ToLower(s)), "_")
  {
    ReplaceKeepsWords(ToLower(s));
    var t := TrimUnderscores(ReplaceNonAlnumRuns(ToLower(s)));
    CollapseOfNoDouble(t);
    var r := CollapseUnderscores(t);
    CleanIsJoinedWords(r);
    r
  }

  /** A clean text is its own words joined by '_'. */
  lemma {:induction false} CleanIsJoinedWords(r: string)
    requires Clean(r)
    ensures r == Join(Words(r), "_")
    decreases |r|
  {
    if r != [] {
      var t := r[1..];
      assert r == [r[0]] + t;
      assert IsAlnum(r[0]);
      if t == [] {
        WordsCons(r[0], t);
      } else {
        SkuTailKeeps(r);
        if IsAlnum(t[0]) {
          assert t[|t| - 1] == r[|r| - 1];
          CleanIsJoinedWords(t);
          WordsCons(r[0], t);
          var w := Words(t);
          assert w == [w[0]] + w[1..];
          JoinHeadCons(r[0], w[0], w[1..], "_");
        } else {
          var u := t[1..];
          assert |r| >= 3 && r[2] != '_';
          SkuTailKeeps(t);
          assert u[|u| - 1] == r[|r| - 1];
          CleanIsJoinedWords(u);
          WordsCons(t[0], u);
          assert t == [t[0]] + u;
          WordsCons(r[0], t);
          JoinCons([r[0]], Words(u), "_");
        }
      }
    }
  }

  /** A character put in front of the first part goes in front of the
      joined text. */
  lemma JoinHeadCons(c: char, w: string, ws: seq<string>, sep: string)
    ensures Join([[c] + w] + ws, sep) == [c] + Join([w] + ws, sep)
  {
    if ws != [] {
      JoinCons([c] + w, ws, sep);
      JoinCons(w, ws, sep);
    }
  }

  /** A word followed by a text that does not start with [a-z0-9] is the
      first word of the two. */
  lemma {:induction false} WordThenRest(w: string, x: string)
    requires AlnumWord(w) && !StartsAlnum(x)
    ensures Words(w + x) == [w] + Words(x)
    decreases |w|
  {
    var v := w[1..];
    assert w + x == [w[0]] + (v + x);
    if v == [] {
      WordsCons(w[0], x);
    } else {
      WordThenRest(v, x);
      WordsCons(w[0], v + x);
      assert [w[0]] + v == w;
    }
  }

  /** "blue shirt" has the two words "blue" and "shirt". */
  lemma BlueShirtWords()
    ensures Words("blue shirt") == ["blue", "shirt"]
  {
    BlueShirtSplits();
    WordThenRest("shirt", "");
    WordsCons(' ', "shirt");
    WordThenRest("blue", " shirt");
  }

  /** The literal pieces the example is cut into. */
  lemma BlueShirtSplits()
    ensures "shirt" + "" == "shirt"
    ensures " shirt" == [' '] + "shirt"
    ensures "blue shirt" == "blue" + " shirt"
    ensures "blue" + "_" + "shirt" == "blue_shirt"
  {
  }

  /** The product name "Blue Shirt" becomes the SKU "blue_shirt". */
  lemma BlueShirtExample(name: string)
    requires name == "Blue Shirt"
    ensures ToSnakeCase(name) == "blue_shirt"
  {
    var l := ToLower(name);
    assert l == "blue shirt";
    BlueShirtWords();
    var ws: seq<string> := ["blue", "shirt"];
    assert Words(l) == ws;
    JoinCons("blue", ["shirt"], "_");
    assert [ws[0]] + ws[1..] == ws;
    assert Join(ws, "_") == "blue" + "_" + "shirt";
    var r := ToSnakeCase(name);
    assert r == Join(ws, "_");
    BlueShirtSplits();
  }

  /** Collapsing changes nothing when there is nothing to collapse. */
  lemma {:induction false} CollapseOfNoDouble(s: string)
    requires NoDoubleUnderscore(s)
    ensures CollapseUnderscores(s) == s
    decreases |s|
  {
    if s != [] {
      if s[0] == '_' {
        if |s| > 1 {
          assert s[1] != '_';
          assert DropLeadingUnderscores(s[1..]) == s[1..];
        }
        assert DropLeadingUnderscores(s) == s[1..];
        CollapseOfNoDouble(s[1..]);
      } else {
        CollapseOfNoDouble(s[1..]);
      }
    }
  }

  /** Replacing runs changes nothing in a text of SKU characters without
      "__". */
  lemma {:induction false} ReplaceOfSkuChars(s: string)
    requires SkuChars(s) && NoDoubleUnderscore(s)
    ensures ReplaceNonAlnumRuns(s) == s
    decreases |s|
  {
    if s != [] {
      var t := s[1..];
      SkuTailKeeps(s);
      ReplaceOfSkuChars(t);
      if !IsAlnum(s[0]) {
        assert s[0] == '_';
        assert t == [] || IsAlnum(t[0]) by {
          if |s| > 1 {
            assert s[1] != '_';
          }
        }
        assert DropNonAlnum(t) == t;
        assert ReplaceNonAlnumRuns(s) == "_" + ReplaceNonAlnumRuns(t);
        assert s == "_" + t;
      } else {
        assert ReplaceNonAlnumRuns(s) == [s[0]] + ReplaceNonAlnumRuns(t);
        assert s == [s[0]] + t;
      }
    }
  }

  /** The tail of a text of SKU characters without "__" is one too. */
  lemma SkuTailKeeps(s: string)
    requires s != [] && SkuChars(s) && NoDoubleUnderscore(s)
    ensures SkuChars(s[1..]) && NoDoubleUnderscore(s[1..])
  {
    var t := s[1..];
    assert forall k :: 0 <= k < |t| ==> t[k] == s[k + 1];
  }

  /** A clean text is its own snake case. */
  lemma CleanIsFixed(s: string)
    requires Clean(s)
    ensures ToSnakeCase(s) == s
  {
    assert ToLower(s) == s;
    ReplaceOfSkuChars(s);
    CollapseOfNoDouble(s);
  }

  /** `toSnakeCase` is idempotent. */
  lemma ToSnakeCaseIdempotent(s: string)
    ensures ToSnakeCase(ToSnakeCase(s)) == ToSnakeCase(s)
  {
    CleanIsFixed(ToSnakeCase(s));
  }

  /** A clean text that is not empty matches the SKU pattern, and every text
      matching the pattern is clean: the two descriptions agree. */
  lemma {:induction false} CleanIffPattern(s: string)
    ensures (Clean(s) && s != []) <==> SkuPattern(s)
  {
    if Clean(s) && s != [] {
      CleanTail(s[1..]);
    }
    if SkuPattern(s) {
      TailClean(s[1..]);
    }
  }

  /** The text after an alphanumeric of a clean text matches `SkuTail`. */
  lemma {:induction false} CleanTail(t: string)
    requires SkuChars(t) && NoDoubleUnderscore(t) && (t == [] || t[|t| - 1] != '_')
    ensures SkuTail(t)
    decreases |t|
  {
    if t != [] {
      if IsAlnum(t[0]) {
        CleanTail(t[1..]);
      } else {
        assert |t| >= 2 && IsAlnum(t[1]);
        CleanTail(t[2..]);
      }
    }
  }

  /** Conversely, what `SkuTail` accepts is made of SKU characters, has no
      "__", does not start with "__" and does not end with '_'. */
  lemma {:induction false} TailClean(t: string)
    requires SkuTail(t)
    ensures SkuChars(t) && NoDoubleUnderscore(t) && (t == [] || t[|t| - 1] != '_')
    ensures |t| >= 1 && t[0] == '_' ==> |t| >= 2 && IsAlnum(t[1])
    decreases |t|
  {
    if t != [] {
      if IsAlnum(t[0]) && SkuTail(t[1..]) {
        TailClean(t[1..]);
      } else {
        TailClean(t[2..]);
      }
    }
  }

  /** Every non-empty result of `toSnakeCase` matches the SKU pattern. */
  lemma SnakeCaseMatchesPattern(s: string)
    requires ToSnakeCase(s) != []
    ensures SkuPattern(ToSnakeCase(s))
  {
    CleanIffPattern(ToSnakeCase(s));
  }
}

=== FILE: sorting.dfy ===
/** The two sorts the components use: `Array.prototype.sort()` with no
    comparator on string lists (code-unit order), and a sort by an integer
    key with `(a, b) => key(a) - key(b)`. Both are given as insertion sorts,
    with sortedness and permutation proved; of the engine's stability only
    the case of a list whose keys are all equal is stated. */
module Sorting {

  // ----- Strings in code-unit order -----

  /** `a` sorts no later than `b`: comparing character by character, and a
      proper prefix first. */
  predicate LexLe(a: string, b: string)
    decreases |a|
  {
    a == [] || (b != [] && (a[0] < b[0] || (a[0] == b[0] && LexLe(a[1..], b[1..]))))
  }

  lemma {:induction false} LexLeTotal(a: string, b: string)
    ensures LexLe(a, b) || LexLe(b, a)
    decreases |a|
  {
    if a != [] && b != [] && a[0] == b[0] {
      LexLeTotal(a[1..], b[1..]);
    }
  }

  lemma {:induction false} LexLeAntisymmetric(a: string, b: string)
    requires LexLe(a, b) && LexLe(b, a)
    ensures a == b
    decreases |a|
  {
    if a != [] {
      LexLeAntisymmetric(a[1..], b[1..]);
      assert a == [a[0]] + a[1..] && b == [b[0]] + b[1..];
    }
  }

  lemma {:induction false} LexLeTransitive(a: string, b: string, c: string)
    requires LexLe(a, b) && LexLe(b, c)
    ensures LexLe(a, c)
    decreases |a|
  {
    if a != [] && a[0] == b[0] && b[0] == c[0] {
      LexLeTransitive(a[1..], b[1..], c[1..]);
    }
  }

  lemma {:induction false} LexLeReflexive(a: string)
    ensures LexLe(a, a)
    decreases |a|
  {
    if a != [] {
      LexLeReflexive(a[1..]);
    }
  }

  predicate SortedStrings(s: seq<string>) {
    forall i, j :: 0 <= i < j < |s| ==> LexLe(s[i], s[j])
  }

  /** Puts `x` before the first element it sorts before. */
  function InsertString(x: string, s: seq<string>): (r: seq<string>)
    requires SortedStrings(s)
    ensures SortedStrings(r)
    ensures multiset(r) == multiset(s) + multiset{x}
  {
    if s == [] then [x]
    else if LexLe(x, s[0]) then
      ConsSortedStrings(x, s);
      HeadTailMultiset([x] + s);
      assert ([x] + s)[1..] == s;
      [x] + s
    else
      SortedStringsTail(s);
      var rest := InsertString(x, s[1..]);
      LexLeTotal(x, s[0]);
      BoundKeptByInsertString(s[0], x, s[1..], rest);
      ConsSortedStrings(s[0], rest);
      HeadTailMultiset(s);
      HeadTailMultiset([s[0]] + rest);
      assert ([s[0]] + rest)[1..] == rest;
      [s[0]] + rest
  }

  /** The tail of a sorted list is sorted, and is the list without its head. */
  lemma SortedStringsTail(s: seq<string>)
    requires s != [] && SortedStrings(s)
    ensures SortedStrings(s[1..])
    ensures [s[0]] + s[1..] == s
  {
    var t := s[1..];
    forall i, j | 0 <= i < j < |t| ensures LexLe(t[i], t[j]) {
      assert t[i] == s[i + 1] && t[j] == s[j + 1];
    }
  }

  /** Putting a string that sorts no later than the first in front of a
      sorted list keeps it sorted. */
  lemma ConsSortedStrings(h: string, t: seq<string>)
    requires SortedStrings(t)
    requires t == [] || LexLe(h, t[0])
    ensures SortedStrings([h] + t)
  {
    var u := [h] + t;
    forall i, j | 0 <= i < j < |u| ensures LexLe(u[i], u[j]) {
      assert u[j] == t[j - 1];
      if i > 0 {
        assert u[i] == t[i - 1];
      } else if j > 1 {
        assert LexLe(t[0], t[j - 1]);
        LexLeTransitive(h, t[0], t[j - 1]);
      }
    }
  }

  /** A lower bound on a sorted list and on `x` bounds the first element of
      any list with those elements. */
  lemma BoundKeptByInsertString(h: string, x: string, t: seq<string>, r: seq<string>)
    requires LexLe(h, x)
    requires SortedStrings([h] + t)
    requires multiset(r) == multiset(t) + multiset{x}
    ensures r == [] || LexLe(h, r[0])
  {
    if r != [] {
      assert r[0] in multiset(r);
      if r[0] != x {
        assert r[0] in multiset(t);
        var k :| 0 <= k < |t| && t[k] == r[0];
        assert ([h] + t)[k + 1] == t[k];
        assert LexLe(([h] + t)[0], ([h] + t)[k + 1]);
      }
    }
  }

  /** `xs.sort()` on strings: sorted, and the same elements. */
  function SortStrings(s: seq<string>): (r: seq<string>)
    ensures SortedStrings(r)
    ensures multiset(r) == multiset(s)
  {
    if s == [] then []
    else
      assert s == s[..|s| - 1] + [s[|s| - 1]];
      InsertString(s[|s| - 1], SortStrings(s[..|s| - 1]))
  }

  /** Two sorted lists with the same elements start with the same element. */
  lemma SortedHeadsEqual(a: seq<string>, b: seq<string>)
    requires SortedStrings(a) && SortedStrings(b)
    requires multiset(a) == multiset(b) && a != [] && b != []
    ensures a[0] == b[0]
  {
    assert a[0] in multiset(b);
    var j :| 0 <= j < |b| && b[j] == a[0];
    assert b[0] in multiset(a);
    var i :| 0 <= i < |a| && a[i] == b[0];
    LexLeReflexive(a[0]);
    assert LexLe(b[0], a[0]) by {
      if j > 0 { assert LexLe(b[0], b[j]); }
    }
    assert LexLe(a[0], b[0]) by {
      if i > 0 { assert LexLe(a[0], a[i]); }
    }
    LexLeAntisymmetric(a[0], b[0]);
  }

  /** Removing an equal head from two lists with the same elements leaves
      tails with the same elements. */
  lemma TailsSameElements(a: seq<string>, b: seq<string>)
    requires multiset(a) == multiset(b) && a != [] && b != [] && a[0] == b[0]
    ensures multiset(a[1..]) == multiset(b[1..])
  {
    assert a == [a[0]] + a[1..] && b == [b[0]] + b[1..];
    assert multiset(a[1..]) == multiset(a) - multiset{a[0]};
    assert multiset(b[1..]) == multiset(b) - multiset{b[0]};
  }

  /** Two sorted lists with the same elements are equal. */
  lemma {:induction false} SortedUnique(a: seq<string>, b: seq<string>)
    requires SortedStrings(a) && SortedStrings(b)
    requires multiset(a) == multiset(b)
    ensures a == b
    decreases |a|
  {
    assert |a| == |multiset(a)| == |b|;
    if a != [] {
      SortedHeadsEqual(a, b);
      TailsSameElements(a, b);
      assert SortedStrings(a[1..]) && SortedStrings(b[1..]);
      SortedUnique(a[1..], b[1..]);
      assert a == [a[0]] + a[1..] && b == [b[0]] + b[1..];
    }
  }

  /** Sorting two lists gives the same list exactly when they hold the same
      elements the same number of times. */
  lemma SortEqualIffSameElements(a: seq<string>, b: seq<string>)
    ensures SortStrings(a) == SortStrings(b) <==> multiset(a) == multiset(b)
  {
    if multiset(a) == multiset(b) {
      SortedUnique(SortStrings(a), SortStrings(b));
    }
  }

  // ----- Stable sort by an integer key -----

  predicate SortedByKey<T>(s: seq<T>, key: T -> int) {
    forall i, j :: 0 <= i < j < |s| ==> key(s[i]) <= key(s[j])
  }

  /** Puts `x` before the first element whose key is larger, so after every
      element with an equal key. */
  function InsertByKey<T>(x: T, s: seq<T>, key: T -> int): (r: seq<T>)
    requires SortedByKey(s, key)
    ensures SortedByKey(r, key)
    ensures multiset(r) == multiset(s) + multiset{x}
    ensures |r| == |s| + 1
  {
    if s == [] then [x]
    else if key(x) < key(s[0]) then
      ConsSortedByKey(x, s, key);
      HeadTailMultiset([x] + s);
      assert ([x] + s)[1..] == s;
      [x] + s
    else
      SortedByKeyTail(s, key);
      var rest := InsertByKey(x, s[1..], key);
      BoundKeptByInsert(s[0], x, s[1..], rest, key);
      ConsSortedByKey(s[0], rest, key);
      HeadTailMultiset(s);
      HeadTailMultiset([s[0]] + rest);
      assert ([s[0]] + rest)[1..] == rest;
      [s[0]] + rest
  }

  /** The tail of a sorted list is sorted, and is the list without its head. */
  lemma SortedByKeyTail<T>(s: seq<T>, key: T -> int)
    requires s != [] && SortedByKey(s, key)
    ensures SortedByKey(s[1..], key)
    ensures [s[0]] + s[1..] == s
  {
    var t := s[1..];
    forall i, j | 0 <= i < j < |t| ensures key(t[i]) <= key(t[j]) {
      assert t[i] == s[i + 1] && t[j] == s[j + 1];
    }
  }

  /** A list is its head followed by its tail, element counts included. */
  lemma HeadTailMultiset<T>(s: seq<T>)
    requires s != []
    ensures multiset(s) == multiset{s[0]} + multiset(s[1..])
  {
    assert s == [s[0]] + s[1..];
  }

  /** Putting an element no larger than the first in front of a sorted list
      keeps it sorted. */
  lemma ConsSortedByKey<T>(h: T, t: seq<T>, key: T -> int)
    requires SortedByKey(t, key)
    requires t == [] || key(h) <= key(t[0])
    ensures SortedByKey([h] + t, key)
  {
    var u := [h] + t;
    forall i, j | 0 <= i < j < |u| ensures key(u[i]) <= key(u[j]) {
      assert u[j] == t[j - 1];
      if i > 0 {
        assert u[i] == t[i - 1];
      } else if j > 1 {
        assert key(t[0]) <= key(t[j - 1]);
      }
    }
  }

  /** A lower bound on the keys of a list and of `x` bounds the keys of any
      list with those elements. */
  lemma BoundKeptByInsert<T>(h: T, x: T, t: seq<T>, r: seq<T>, key: T -> int)
    requires key(h) <= key(x)
    requires SortedByKey([h] + t, key)
    requires multiset(r) == multiset(t) + multiset{x}
    ensures r == [] || key(h) <= key(r[0])
  {
    if r != [] {
      assert r[0] in multiset(r);
      if r[0] != x {
        assert r[0] in multiset(t);
        var k :| 0 <= k < |t| && t[k] == r[0];
        assert ([h] + t)[k + 1] == t[k];
        assert key(([h] + t)[0]) <= key(([h] + t)[k + 1]);
      }
    }
  }

  /** An element whose key equals every key of the list goes last. */
  lemma {:induction false} InsertEqualKeyLast<T>(x: T, s: seq<T>, key: T -> int)
    requires SortedByKey(s, key)
    requires forall k :: 0 <= k < |s| ==> key(s[k]) == key(x)
    ensures InsertByKey(x, s, key) == s + [x]
  {
    if s != [] {
      assert SortedByKey(s[1..], key);
      InsertEqualKeyLast(x, s[1..], key);
      assert s + [x] == [s[0]] + (s[1..] + [x]);
    }
  }

  /** `[...s].sort((a, b) => key(a) - key(b))`: ascending by key, the same
      elements, and a list whose keys are all equal keeps its order. */
  function SortByKey<T>(s: seq<T>, key: T -> int): (r: seq<T>)
    ensures SortedByKey(r, key)
    ensures multiset(r) == multiset(s)
    ensures |r| == |s|
  {
    if s == [] then []
    else
      assert s == s[..|s| - 1] + [s[|s| - 1]];
      InsertByKey(s[|s| - 1], SortByKey(s[..|s| - 1], key), key)
  }

  /** Elements whose keys are all equal stay in their original order. */
  lemma {:induction false} EqualKeysKeepOrder<T>(s: seq<T>, key: T -> int, c: int)
    requires forall k :: 0 <= k < |s| ==> key(s[k]) == c
    ensures SortByKey(s, key) == s
  {
    if s != [] {
      var init := s[..|s| - 1];
      var x := s[|s| - 1];
      EqualKeysKeepOrder(init, key, c);
      assert SortByKey(s, key) == InsertByKey(x, SortByKey(init, key), key);
      assert forall k :: 0 <= k < |init| ==> key(init[k]) == key(x);
      InsertEqualKeyLast(x, init, key);
      assert s == init + [x];
    }
  }
}

=== FILE: stores.dfy ===
/** Browser `localStorage` as seen by one store: the stored copies by key.
    Serialisation to and from JSON is the identity here. */
module Storage {
  import opened Wrappers
  import opened Lookup

  /** The two maps agree on every key other than `key`. */
  ghost predicate SameOutside<V>(a: map<string, V>, b: map<string, V>, key: string) {
    forall k :: k != key ==> (k in a <==> k in b) && (k in a && k in b ==> a[k] == b[k])
  }

  /** `setItem(key, v)` for a present value, `removeItem(key)` for an absent
      one. */
  function Store<V>(m: map<string, V>, key: string, v: Option<V>): (r: map<string, V>)
    ensures v.Some? ==> key in r && r[key] == v.value
    ensures v.None? ==> key !in r
    ensures SameOutside(m, r, key)
  {
    match v
    case Some(x) => m[key := x]
    case None => m - {key}
  }

  /** `getItem(key)` after storing gives back what was stored. */
  lemma LoadAfterStore<V>(m: map<string, V>, key: string, v: Option<V>)
    ensures Get(Store(m, key, v), key) == v
  {
  }
}

/** The admin session store: the signed-in admin, its stored copy under
    "admin_user", and the cookie jar holding "admin_token". */
module AdminAuthStore {
  import opened Wrappers
  import opened Storage
  import opened Lookup

  datatype AdminUser = AdminUser(id: int, fullName: string, email: string, roles: seq<string>)

  const UserKey: string := "admin_user"
  const TokenCookie: string := "admin_token"

  datatype State = State(adminUser: Option<AdminUser>, storage: map<string, AdminUser>, cookies: map<string, string>)

  /** A freshly created store over the browser's current storage and cookies:
      no admin is held yet. */
  function Initial(storage: map<string, AdminUser>, cookies: map<string, string>): (s: State)
    ensures s.adminUser.None? && s.storage == storage && s.cookies == cookies
  {
    State(None, storage, cookies)
  }

  /** `setAdminUser(u)`: hold `u` and store it, or remove the stored copy when
      `u` is null. The cookie jar is not touched, not even for null. */
  function SetAdminUser(s: State, u: Option<AdminUser>): (r: State)
    ensures r.adminUser == u
    ensures Get(r.storage, UserKey) == u
    ensures SameOutside(s.storage, r.storage, UserKey)
    ensures r.cookies == s.cookies
  {
    s.(adminUser := u, storage := Store(s.storage, UserKey, u))
  }

  /** `clearAdminUser`: drop the admin, its stored copy and the token
      cookie; every other stored item and cookie stays. */
  function ClearAdminUser(s: State): (r: State)
    ensures r.adminUser.None?
    ensures UserKey !in r.storage && SameOutside(s.storage, r.storage, UserKey)
    ensures TokenCookie !in r.cookies && SameOutside(s.cookies, r.cookies, TokenCookie)
  {
    State(None, Store(s.storage, UserKey, None), Store(s.cookies, TokenCookie, None))
  }

  /** `hydrate`: install the stored admin when there is one; otherwise leave
      the state exactly as it was (an admin already held is kept). */
  function Hydrate(s: State): (r: State)
    ensures UserKey in s.storage ==> r == s.(adminUser := Some(s.storage[UserKey]))
    ensures UserKey !in s.storage ==> r == s
  {
    match Get(s.storage, UserKey)
    case Some(u) => s.(adminUser := Some(u))
    case None => s
  }

  /** `isAuthenticated`: a non-empty token cookie and a held admin. */
  function IsAuthenticated(s: State): (r: bool)
    ensures r <==> TokenCookie in s.cookies && s.cookies[TokenCookie] != "" && s.adminUser.Some?
  {
    Get(s.cookies, TokenCookie).GetOr("") != "" && s.adminUser.Some?
  }

  /** The members the store's state declares: the held admin, its three
      actions and the authentication check. */
  const Members: set<string> := {"adminUser", "setAdminUser", "clearAdminUser", "hydrate", "isAuthenticated"}

  /** The outcome of calling a function read from the store: its answer, or
      the TypeError JavaScript throws when the value called is `undefined`. */
  datatype Call<T> = Returns(value: T) | TypeError

  /** Reading `name` from the store and calling it: a declared member gives
      `answer`, what it computes; an undeclared name reads as `undefined`,
      and calling that throws. */
  function CallMember<T>(name: string, answer: T): (r: Call<T>)
    ensures r.TypeError? <==> name !in Members
    ensures r.Returns? ==> r.value == answer
  {
    if name in Members then Returns(answer) else TypeError
  }

  /** After clearing, the store is not authenticated. */
  lemma ClearLogsOut(s: State)
    ensures !IsAuthenticated(ClearAdminUser(s))
  {
  }

  /** Setting null logs out too, but leaves the token cookie in place. */
  lemma SetNullKeepsCookie(s: State)
    ensures !IsAuthenticated(SetAdminUser(s, None))
    ensures SetAdminUser(s, None).cookies == s.cookies
  {
  }

  /** A store created after `setAdminUser(u)` hydrates to `u`, also when `u`
      is null. */
  lemma SetThenHydrate(s: State, u: Option<AdminUser>)
    ensures Hydrate(Initial(SetAdminUser(s, u).storage, s.cookies)).adminUser == u
  {
  }

  /** Hydrating twice is hydrating once. */
  lemma HydrateIdempotent(s: State)
    ensures Hydrate(Hydrate(s)) == Hydrate(s)
  {
  }
}

/** The customer session store: the signed-in user and its stored copy under
    "auth_user". The `auth_token` cookie is not part of its state. */
module AuthStore {
  import opened Wrappers
  import opened Storage
  import opened Lookup
  import opened Records

  const UserKey: string := "auth_user"

  datatype State = State(user: Option<User>, storage: map<string, User>)

  function Initial(storage: map<string, User>): (s: State)
    ensures s.user.None? && s.storage == storage
  {
    State(None, storage)
  }

  /** `setUser(u)`: hold `u` and store it, or remove the stored copy for
      null. */
  function SetUser(s: State, u: Option<User>): (r: State)
    ensures r.user == u
    ensures Get(r.storage, UserKey) == u
    ensures SameOutside(s.storage, r.storage, UserKey)
  {
    State(u, Store(s.storage, UserKey, u))
  }

  /** `clearUser`: drop the user and its stored copy. */
  function ClearUser(s: State): (r: State)
    ensures r.user.None?
    ensures UserKey !in r.storage && SameOutside(s.storage, r.storage, UserKey)
  {
    State(None, Store(s.storage, UserKey, None))
  }

  /** `hydrate`: install the stored user when there is one, otherwise keep
      the state. */
  function Hydrate(s: State): (r: State)
    ensures UserKey in s.storage ==> r == s.(user := Some(s.storage[UserKey]))
    ensures UserKey !in s.storage ==> r == s
  {
    match Get(s.storage, UserKey)
    case Some(u) => s.(user := Some(u))
    case None => s
  }

  /** `clearUser` is `setUser(null)`. */
  lemma ClearIsSetNull(s: State)
    ensures ClearUser(s) == SetUser(s, None)
  {
  }

  /** A store created after `setUser(u)` hydrates to `u`. */
  lemma SetThenHydrate(s: State, u: Option<User>)
    ensures Hydrate(Initial(SetUser(s, u).storage)).user == u
  {
  }
}

/** The checkout store: the shipping address and its stored copy under the
    single key "shipping-address". */
module CheckoutStore {
  import opened Wrappers
  import opened Storage
  import opened Lookup
  import opened Records

  const StorageKey: string := "shipping-address"

  datatype State = State(shippingAddress: Option<ShippingAddress>, storage: map<string, ShippingAddress>)

  function Initial(storage: map<string, ShippingAddress>): (s: State)
    ensures s.shippingAddress.None? && s.storage == storage
  {
    State(None, storage)
  }

  /** `setShippingAddress(a)`: hold and store `a`. */
  function SetShippingAddress(s: State, a: ShippingAddress): (r: State)
    ensures r.shippingAddress == Some(a)
    ensures Get(r.storage, StorageKey) == Some(a)
    ensures SameOutside(s.storage, r.storage, StorageKey)
  {
    State(Some(a), Store(s.storage, StorageKey, Some(a)))
  }

  /** `clearShippingAddress`: drop the address and its stored copy. */
  function ClearShippingAddress(s: State): (r: State)
    ensures r.shippingAddress.None?
    ensures StorageKey !in r.storage && SameOutside(s.storage, r.storage, StorageKey)
  {
    State(None, Store(s.storage, StorageKey, None))
  }

  /** `hydrate`: restore the stored address when there is one, otherwise keep
      the state. */
  function Hydrate(s: State): (r: State)
    ensures StorageKey in s.storage ==> r == s.(shippingAddress := Some(s.storage[StorageKey]))
    ensures StorageKey !in s.storage ==> r == s
  {
    match Get(s.storage, StorageKey)
    case Some(a) => s.(shippingAddress := Some(a))
    case None => s
  }

  /** Set, then a fresh store's hydrate, restores the address; clear, then a
      fresh store's hydrate, finds none. */
  lemma RoundTrips(s: State, a: ShippingAddress)
    ensures Hydrate(Initial(SetShippingAddress(s, a).storage)).shippingAddress == Some(a)
    ensures Hydrate(Initial(ClearShippingAddress(s).storage)).shippingAddress.None?
  {
  }
}

=== FILE: text.dfy ===
/** String operations of the JavaScript runtime that the components rely on:
    `startsWith`, `includes`, `split`, `join`, `trim`, `toLowerCase`, `slice`
    and the `||` fallback on strings. Strings are `seq<char>`. */
module Text {
  import opened Wrappers

  /** The JavaScript truthiness of a string: only "" is falsy. */
  predicate Truthy(s: string) {
    s != ""
  }

  /** `s || d` on strings. */
  function OrElse(s: string, d: string): (r: string)
    ensures Truthy(s) ==> r == s
    ensures !Truthy(s) ==> r == d
  {
    if s != "" then s else d
  }

  /** `opt || d` where `opt` is an optional string: absent and "" both fall back. */
  function OptOrElse(opt: Option<string>, d: string): (r: string)
    ensures opt.Some? && Truthy(opt.value) ==> r == opt.value
    ensures opt.None? || !Truthy(opt.value) ==> r == d
  {
    match opt
    case Some(s) => OrElse(s, d)
    case None => d
  }

  /** White space removed by `String.prototype.trim`, restricted to the
      characters listed here (ASCII white space, no-break space, the line and
      paragraph separators and the byte-order mark). */
  predicate IsSpace(c: char) {
    c == ' ' || c == '\t' || c == '\n' || c == '\r' || c == '\U{000B}' || c == '\U{000C}'
    || c == '\U{00A0}' || c == '\U{2028}' || c == '\U{2029}' || c == '\U{FEFF}'
  }

  predicate StartsWith(s: string, prefix: string) {
    |prefix| <= |s| && s[..|prefix|] == prefix
  }

  predicate EndsWith(s: string, suffix: string) {
    |suffix| <= |s| && s[|s| - |suffix|..] == suffix
  }

  /** `sub` occurs in `s` starting at index `i`. */
  predicate OccursAt(s: string, sub: string, i: int) {
    0 <= i && i + |sub| <= |s| && s[i..i + |sub|] == sub
  }

  /** The first occurrence of `sub` in `s` at or after `from` (`indexOf`). */
  function FindFrom(s: string, sub: string, from: nat): (r: Option<nat>)
    ensures r.Some? ==> from <= r.value && OccursAt(s, sub, r.value)
    ensures r.Some? ==> forall j :: from <= j < r.value ==> !OccursAt(s, sub, j)
    ensures r.None? ==> forall j :: from <= j ==> !OccursAt(s, sub, j)
    decreases |s| - from
  {
    if from + |sub| > |s| then None
    else if s[from..from + |sub|] == sub then Some(from)
    else FindFrom(s, sub, from + 1)
  }

  /** `s.includes(sub)`. */
  function Contains(s: string, sub: string): (r: bool)
    ensures r <==> exists i :: OccursAt(s, sub, i)
  {
    FindFrom(s, sub, 0).Some?
  }

  /** `parts.join(sep)`. */
  function Join(parts: seq<string>, sep: string): string
  {
    if |parts| == 0 then ""
    else if |parts| == 1 then parts[0]
    else parts[0] + sep + Join(parts[1..], sep)
  }

  /** A prefix of `s` that ends before the first occurrence of `sub` does not
      contain `sub`. */
  lemma NoOccurrenceBeforeFirst(s: string, sub: string, i: nat)
    requires |sub| > 0 && i <= |s|
    requires forall j :: 0 <= j < i ==> !OccursAt(s, sub, j)
    ensures !Contains(s[..i], sub)
  {
    forall j | OccursAt(s[..i], sub, j)
      ensures false
    {
      assert s[..i][j..j + |sub|] == s[j..j + |sub|];
      assert OccursAt(s, sub, j);
    }
  }

  /** `s.split(sep)` for a non-empty separator: the pieces between the
      non-overlapping occurrences of `sep`, scanning from the left. */
  function Split(s: string, sep: string): (parts: seq<string>)
    requires |sep| > 0
    ensures |parts| >= 1
    ensures Join(parts, sep) == s
    ensures forall k :: 0 <= k < |parts| ==> !Contains(parts[k], sep)
    ensures !Contains(s, sep) ==> parts == [s]
    decreases |s|
  {
    match FindFrom(s, sep, 0)
    case None => [s]
    case Some(i) =>
      var rest := Split(s[i + |sep|..], sep);
      SplitStep(s, sep, i, rest);
      [s[..i]] + rest
  }

  /** One step of `Split`: the piece before the first occurrence, followed by
      the split of what comes after it, joins back to `s`. */
  lemma SplitStep(s: string, sep: string, i: nat, rest: seq<string>)
    requires |sep| > 0 && OccursAt(s, sep, i)
    requires forall j :: 0 <= j < i ==> !OccursAt(s, sep, j)
    requires |rest| >= 1 && Join(rest, sep) == s[i + |sep|..]
    requires forall k :: 0 <= k < |rest| ==> !Contains(rest[k], sep)
    ensures Contains(s, sep)
    ensures Join([s[..i]] + rest, sep) == s
    ensures forall k :: 0 <= k < |[s[..i]] + rest| ==> !Contains(([s[..i]] + rest)[k], sep)
  {
    NoOccurrenceBeforeFirst(s, sep, i);
    JoinCons(s[..i], rest, sep);
    AroundOccurrence(s, sep, i);
    var parts := [s[..i]] + rest;
    forall k | 0 <= k < |parts| ensures !Contains(parts[k], sep) {
      if k > 0 {
        assert parts[k] == rest[k - 1];
      }
    }
  }

  /** `s` is the text before an occurrence, the occurrence, and the text
      after it. */
  lemma AroundOccurrence(s: string, sub: string, i: nat)
    requires OccursAt(s, sub, i)
    ensures s == s[..i] + sub + s[i + |sub|..]
  {
    assert s == s[..i] + s[i..i + |sub|] + s[i + |sub|..];
  }

  /** When the separator's first character does not recur in it, a text made
      of `a`, one separator and `b`, with neither part containing the
      separator, splits into exactly `a` and `b`. */
  lemma {:induction false} SplitAroundSingle(a: string, sep: string, b: string)
    requires |sep| > 0 && sep[0] !in sep[1..]
    requires !Contains(a, sep) && !Contains(b, sep)
    ensures Split(a + sep + b, sep) == [a, b]
  {
    var s := a + sep + b;
    assert OccursAt(s, sep, |a|) by {
      assert s[|a|..|a| + |sep|] == sep;
    }
    forall j | 0 <= j < |a| ensures !OccursAt(s, sep, j) {
      NoEarlierOccurrence(a, sep, b, j);
    }
    assert FindFrom(s, sep, 0) == Some(|a|);
    assert s[..|a|] == a && s[|a| + |sep|..] == b;
  }

  /** In `a + sep + b`, no occurrence of `sep` starts inside `a`: one that
      ends inside `a` is an occurrence in `a`, and one that reaches into the
      separator would put `sep[0]` at a later position of `sep`. */
  lemma NoEarlierOccurrence(a: string, sep: string, b: string, j: int)
    requires |sep| > 0 && sep[0] !in sep[1..]
    requires !Contains(a, sep)
    requires 0 <= j < |a|
    ensures !OccursAt(a + sep + b, sep, j)
  {
    var s := a + sep + b;
    if OccursAt(s, sep, j) {
      if j + |sep| <= |a| {
        assert a[j..j + |sep|] == s[j..j + |sep|];
        assert OccursAt(a, sep, j);
      } else {
        StraddlingOccurrence(a, sep, b, j);
        assert false;
      }
    }
  }

  /** An occurrence of `sep` that starts inside `a` and reaches into the
      separator after it finds `sep[0]` again further on in `sep`. */
  lemma StraddlingOccurrence(a: string, sep: string, b: string, j: int)
    requires 0 <= j < |a| < j + |sep|
    requires OccursAt(a + sep + b, sep, j)
    ensures sep[0] in sep[1..]
  {
    var s := a + sep + b;
    var d := |a| - j;
    assert s[|a|] == sep[0];
    assert s[j + d] == sep[d];
    assert sep[1..][d - 1] == sep[d];
  }

  /** Joining a list with a head puts the separator after the head. */
  lemma JoinCons(p: string, rest: seq<string>, sep: string)
    requires |rest| >= 1
    ensures Join([p] + rest, sep) == p + sep + Join(rest, sep)
  {
    assert ([p] + rest)[1..] == rest;
  }

  /** A single-character separator occurs in `s` exactly where `s` holds
      that character. */
  lemma OccursAtChar(s: string, c: char, i: int)
    ensures OccursAt(s, [c], i) <==> 0 <= i < |s| && s[i] == c
  {
    if 0 <= i < |s| && s[i] == c {
      assert s[i..i + 1] == [c];
    }
  }

  /** Splitting a joined list on a one-character separator that none of the
      pieces contains gives the pieces back. */
  lemma {:induction false} SplitJoin(parts: seq<string>, c: char)
    requires |parts| >= 1
    requires forall k :: 0 <= k < |parts| ==> c !in parts[k]
    ensures Split(Join(parts, [c]), [c]) == parts
  {
    if |parts| == 1 {
      SplitOfCharless(parts[0], c);
    } else {
      var p := parts[0];
      SplitAtFirst(p, c, Join(parts[1..], [c]));
      SplitJoin(parts[1..], c);
      assert parts == [p] + parts[1..];
    }
  }

  /** A text without `c` splits on `c` into itself alone. */
  lemma SplitOfCharless(s: string, c: char)
    requires c !in s
    ensures Split(s, [c]) == [s]
  {
    forall i ensures !OccursAt(s, [c], i) {
      OccursAtChar(s, c, i);
    }
  }

  /** Splitting at the first `c` gives the text before it, then the pieces
      of the text after it. */
  lemma SplitAtFirst(p: string, c: char, rest: string)
    requires c !in p
    ensures Split(p + [c] + rest, [c]) == [p] + Split(rest, [c])
  {
    var s := p + [c] + rest;
    OccursAtChar(s, c, |p|);
    forall j | 0 <= j < |p| ensures !OccursAt(s, [c], j) {
      OccursAtChar(s, c, j);
      assert s[j] == p[j];
    }
    assert FindFrom(s, [c], 0) == Some(|p|);
    assert s[..|p|] == p;
    assert s[|p| + 1..] == rest;
  }

  /** The text before the first `c`: `s.split(c).shift()`. */
  function TakeUntil(s: string, c: char): (r: string)
    ensures StartsWith(s, r)
    ensures c !in r
    ensures |r| < |s| ==> s[|r|] == c
  {
    if s == [] then []
    else if s[0] == c then []
    else [s[0]] + TakeUntil(s[1..], c)
  }

  /** `s.slice(0, n)` for `n >= 0`. */
  function Take(s: string, n: nat): (r: string)
    ensures |r| <= n
    ensures StartsWith(s, r)
    ensures |s| <= n ==> r == s
    ensures |s| > n ==> |r| == n
  {
    if |s| <= n then s else s[..n]
  }

  /** `s.trimStart()`. */
  function TrimStart(s: string): (r: string)
    ensures EndsWith(s, r)
    ensures r == [] || !IsSpace(r[0])
    ensures forall k :: 0 <= k < |s| - |r| ==> IsSpace(s[k])
  {
    if s == [] then []
    else if IsSpace(s[0]) then TrimStart(s[1..])
    else s
  }

  /** `s.trimEnd()`. */
  function TrimEnd(s: string): (r: string)
    ensures StartsWith(s, r)
    ensures r == [] || !IsSpace(r[|r| - 1])
    ensures forall k :: |r| <= k < |s| ==> IsSpace(s[k])
  {
    if s == [] then []
    else if IsSpace(s[|s| - 1]) then TrimEnd(s[..|s| - 1])
    else s
  }

  /** `r` is the infix of `s` starting at `a`, and everything around it in
      `s` is white space. */
  predicate TrimmedAt(s: string, r: string, a: int) {
    && 0 <= a && a + |r| <= |s| && s[a..a + |r|] == r
    && (forall k :: 0 <= k < a ==> IsSpace(s[k]))
    && (forall k :: a + |r| <= k < |s| ==> IsSpace(s[k]))
  }

  /** `s.trim()`: the longest infix of `s` that neither starts nor ends with
      white space, found by dropping white space at both ends. */
  function Trim(s: string): (r: string)
    ensures r == [] || (!IsSpace(r[0]) && !IsSpace(r[|r| - 1]))
    ensures exists a :: TrimmedAt(s, r, a)
  {
    TrimEndOfTrimStart(s);
    TrimEnd(TrimStart(s))
  }

  /** Trimming the end after the start leaves the trimmed infix, with no
      white space at either of its ends. */
  lemma TrimEndOfTrimStart(s: string)
    ensures var r := TrimEnd(TrimStart(s));
            && TrimmedAt(s, r, |s| - |TrimStart(s)|)
            && (r == [] || (!IsSpace(r[0]) && !IsSpace(r[|r| - 1])))
  {
    var t := TrimStart(s);
    var r := TrimEnd(t);
    var a := |s| - |t|;
    assert s[a..] == t;
    assert s[a..a + |r|] == t[..|r|];
    if r != [] {
      assert r[0] == t[0];
    }
  }

  /** A string is blank when trimming leaves nothing, that is exactly when
      every character is white space. */
  lemma TrimEmptyIffBlank(s: string)
    ensures Trim(s) == "" <==> forall k :: 0 <= k < |s| ==> IsSpace(s[k])
  {
    if Trim(s) != "" {
      var r := Trim(s);
      var a :| TrimmedAt(s, r, a);
      assert s[a] == r[0];
    }
  }

  /** The trim is the only infix with no white space at its ends that has
      only white space around it. */
  lemma TrimUnique(s: string, r: string, a: int)
    requires TrimmedAt(s, r, a)
    requires r == [] || (!IsSpace(r[0]) && !IsSpace(r[|r| - 1]))
    ensures Trim(s) == r
  {
    var t := Trim(s);
    var b :| TrimmedAt(s, t, b);
    if r == [] || t == [] {
      TrimEmptyIffBlank(s);
    } else {
      assert s[a] == r[0] && s[b] == t[0];
      assert a == b;
      assert s[a + |r| - 1] == r[|r| - 1] && s[b + |t| - 1] == t[|t| - 1];
      assert |r| == |t|;
    }
  }

  /** A white-space character in front does not change the trim. */
  lemma TrimConsSpace(c: char, s: string)
    requires IsSpace(c)
    ensures Trim([c] + s) == Trim(s)
  {
    var r := Trim(s);
    var a :| TrimmedAt(s, r, a);
    TrimmedAtCons(c, s, r, a);
    TrimUnique([c] + s, r, a + 1);
  }

  /** A white-space character at the end does not change the trim. */
  lemma TrimSnocSpace(s: string, c: char)
    requires IsSpace(c)
    ensures Trim(s + [c]) == Trim(s)
  {
    var r := Trim(s);
    var a :| TrimmedAt(s, r, a);
    TrimmedAtSnoc(s, c, r, a);
    TrimUnique(s + [c], r, a);
  }

  /** White space put in front moves the trimmed infix by one. */
  lemma TrimmedAtCons(c: char, s: string, r: string, a: int)
    requires IsSpace(c) && TrimmedAt(s, r, a)
    ensures TrimmedAt([c] + s, r, a + 1)
  {
    var u := [c] + s;
    assert u[a + 1..a + 1 + |r|] == s[a..a + |r|];
    forall k | 0 <= k < a + 1 ensures IsSpace(u[k]) {
      if k > 0 {
        assert u[k] == s[k - 1];
      }
    }
    forall k | a + 1 + |r| <= k < |u| ensures IsSpace(u[k]) {
      assert u[k] == s[k - 1];
    }
  }

  /** White space put at the end keeps the trimmed infix where it is. */
  lemma TrimmedAtSnoc(s: string, c: char, r: string, a: int)
    requires IsSpace(c) && TrimmedAt(s, r, a)
    ensures TrimmedAt(s + [c], r, a)
  {
    var u := s + [c];
    assert u[a..a + |r|] == s[a..a + |r|];
    forall k | 0 <= k < a ensures IsSpace(u[k]) {
      assert u[k] == s[k];
    }
    forall k | a + |r| <= k < |u| ensures IsSpace(u[k]) {
      if k < |s| {
        assert u[k] == s[k];
      }
    }
  }

  /** A string with no white space at either end is its own trim. */
  lemma TrimOfTrimmed(s: string)
    requires s == [] || (!IsSpace(s[0]) && !IsSpace(s[|s| - 1]))
    ensures Trim(s) == s
  {
  }

  /** `xs.map(s => s.trim())`. */
  function TrimEach(xs: seq<string>): (r: seq<string>)
    ensures |r| == |xs|
    ensures forall k :: 0 <= k < |xs| ==> r[k] == Trim(xs[k])
  {
    if xs == [] then [] else [Trim(xs[0])] + TrimEach(xs[1..])
  }

  /** Trimming twice is trimming once. */
  lemma {:induction false} TrimIdempotent(s: string)
    ensures Trim(Trim(s)) == Trim(s)
  {
    var r := Trim(s);
    if r != [] {
      assert TrimStart(r) == r;
      assert TrimEnd(r) == r;
    }
  }

  predicate IsUpperAscii(c: char) {
    'A' <= c <= 'Z'
  }

  /** `toLowerCase` on ASCII letters; every other character is kept. */
  function LowerChar(c: char): (r: char)
    ensures IsUpperAscii(c) ==> 'a' <= r <= 'z' && r as int - c as int == 32
    ensures !IsUpperAscii(c) ==> r == c
  {
    if IsUpperAscii(c) then (c as int + 32) as char else c
  }

  function ToLower(s: string): (r: string)
    ensures |r| == |s|
    ensures forall k :: 0 <= k < |s| ==> r[k] == LowerChar(s[k])
  {
    if s == [] then [] else [LowerChar(s[0])] + ToLower(s[1..])
  }
}

=== FILE: update_customer_form.dfy ===
/** The admin customer editor: initial state, the change handler, and the
    update payload that carries a password only when one was typed. */
module UpdateCustomerForm {
  import opened Wrappers
  import opened Text

  datatype Customer = Customer(id: int, fullName: string, email: string, phone: Option<string>, isActive: bool)

  datatype State = State(fullName: string, phone: string, password: string, isActive: bool)

  /** The initial state: the customer's name and status, a missing phone as
      "", and an empty password. */
  function Initial(c: Customer): (s: State)
    ensures s.fullName == c.fullName && s.isActive == c.isActive
    ensures s.phone == OptOrElse(c.phone, "") && s.password == ""
  {
    State(c.fullName, OptOrElse(c.phone, ""), "", c.isActive)
  }

  /** The `name` attributes of the text inputs wired to `handleChange`. */
  datatype Name = FullName | Phone | Password

  /** `handleChange`: the named field takes the input's value; nothing else
      changes. Its checkbox branch is never taken, since no checkbox is wired
      to it. */
  function HandleChange(s: State, name: Name, value: string): (r: State)
    ensures name == FullName ==> r == s.(fullName := value)
    ensures name == Phone ==> r == s.(phone := value)
    ensures name == Password ==> r == s.(password := value)
    ensures r.isActive == s.isActive
  {
    match name
    case FullName => s.(fullName := value)
    case Phone => s.(phone := value)
    case Password => s.(password := value)
  }

  /** The status checkbox's state: on, off, or indeterminate. */
  datatype CheckedState = Checked(on: bool) | Indeterminate

  /** The status checkbox's `onCheckedChange`: the status becomes
      `checked === true`, so an indeterminate box counts as inactive; the
      other fields stay as they were. */
  function OnCheckedChange(s: State, c: CheckedState): (r: State)
    ensures r.isActive <==> c == Checked(true)
    ensures r.fullName == s.fullName && r.phone == s.phone && r.password == s.password
  {
    s.(isActive := c.Checked? && c.on)
  }

  /** The payload always carries the name, phone and status, never the
      email, and the password only when it is non-empty. */
  datatype Payload = Payload(fullName: string, phone: string, isActive: bool, password: Option<string>)

  function BuildPayload(s: State): (p: Payload)
    ensures p.fullName == s.fullName && p.phone == s.phone && p.isActive == s.isActive
    ensures p.password.Some? <==> Truthy(s.password)
    ensures p.password.Some? ==> p.password.value == s.password
  {
    Payload(s.fullName, s.phone, s.isActive, if Truthy(s.password) then Some(s.password) else None)
  }

  /** Saving without touching the password field never sends a password;
      typing one sends exactly it. */
  lemma PasswordOnlyWhenTyped(c: Customer, pw: string)
    ensures BuildPayload(Initial(c)).password.None?
    ensures Truthy(pw) ==> BuildPayload(HandleChange(Initial(c), Password, pw)).password == Some(pw)
  {
  }

  /** Changing one field leaves the others as they were. */
  lemma ChangeIsLocal(s: State, name: Name, value: string)
    ensures name != FullName ==> HandleChange(s, name, value).fullName == s.fullName
    ensures name != Phone ==> HandleChange(s, name, value).phone == s.phone
    ensures name != Password ==> HandleChange(s, name, value).password == s.password
  {
  }

  /** Toggling the status and editing a text field commute. */
  lemma CheckedChangeCommutes(s: State, name: Name, value: string, c: CheckedState)
    ensures OnCheckedChange(HandleChange(s, name, value), c) == HandleChange(OnCheckedChange(s, c), name, value)
  {
  }
}

=== FILE: update_order_form.dfy ===
/** The admin order editor: the state built from an order, the per-item
    quantity change, and the update payload. */
module UpdateOrderForm {
  import opened Wrappers
  import opened Text
  import opened Decimal
  import opened Records

  /** An order line as the order carries it; prices are integers here. */
  datatype OrderItem = OrderItem(
    productId: int,
    quantity: int,
    id: Option<int>,
    productName: Option<string>,
    unitPrice: Option<int>)

  /** The shipping address as it may arrive: missing, or with missing
      fields. */
  datatype RawAddress = RawAddress(
    firstName: Option<string>, lastName: Option<string>, address: Option<string>,
    phone: Option<string>, city: Option<string>, zip: Option<string>, country: Option<string>)

  datatype Order = Order(id: int, items: seq<OrderItem>, shippingAddress: Option<RawAddress>)

  /** An editable line. */
  datatype Line = Line(itemId: int, quantity: int, productName: string, unitPrice: int)

  datatype State = State(shipping: ShippingAddress, items: seq<Line>)

  /** `order.shippingAddress?.f || ""` for one field. */
  function FieldOf(a: Option<RawAddress>, get: RawAddress -> Option<string>): (r: string)
    ensures a.None? ==> r == ""
    ensures a.Some? ==> r == OptOrElse(get(a.value), "")
  {
    match a
    case None => ""
    case Some(x) => OptOrElse(get(x), "")
  }

  function LineOf(item: OrderItem): (l: Line)
    ensures l.quantity == item.quantity
    ensures item.id.Some? && item.id.value != 0 ==> l.itemId == item.id.value
    ensures item.id.None? || item.id.value == 0 ==> l.itemId == 0
    ensures l.unitPrice == item.unitPrice.GetOr(0)
    ensures l.productName == OptOrElse(item.productName, "")
  {
    Line(item.id.GetOr(0), item.quantity, OptOrElse(item.productName, ""), item.unitPrice.GetOr(0))
  }

  /** The initial state: missing shipping fields become "", and each item
      becomes a line with id and unit price defaulting to 0, in order. */
  function Initial(o: Order): (s: State)
    ensures |s.items| == |o.items|
    ensures forall i :: 0 <= i < |o.items| ==> s.items[i] == LineOf(o.items[i])
    ensures o.shippingAddress.None? ==> s.shipping == ShippingAddress("", "", "", "", "", "", "")
    ensures o.shippingAddress.Some? ==>
              var raw := o.shippingAddress.value;
              s.shipping == ShippingAddress(
                OptOrElse(raw.firstName, ""), OptOrElse(raw.lastName, ""), OptOrElse(raw.address, ""),
                OptOrElse(raw.phone, ""), OptOrElse(raw.city, ""), OptOrElse(raw.zip, ""), OptOrElse(raw.country, ""))
  {
    var a := o.shippingAddress;
    State(
      ShippingAddress(
        FieldOf(a, (x: RawAddress) => x.firstName), FieldOf(a, (x: RawAddress) => x.lastName), FieldOf(a, (x: RawAddress) => x.address),
        FieldOf(a, (x: RawAddress) => x.phone), FieldOf(a, (x: RawAddress) => x.city), FieldOf(a, (x: RawAddress) => x.zip), FieldOf(a, (x: RawAddress) => x.country)),
      seq(|o.items|, i requires 0 <= i < |o.items| => LineOf(o.items[i])))
  }

  /** The shipping inputs, by the field name each one passes. */
  datatype ShippingField = FirstName | LastName | Street | Phone | City | Zip | Country

  /** The value the form shows for one shipping field. */
  function ShippingValue(a: ShippingAddress, f: ShippingField): string {
    match f
    case FirstName => a.firstName
    case LastName => a.lastName
    case Street => a.address
    case Phone => a.phone
    case City => a.city
    case Zip => a.zip
    case Country => a.country
  }

  /** `handleShippingChange(field, value)`: the named field takes the value,
      every other shipping field and every line stay as they were. */
  function ChangeShipping(s: State, f: ShippingField, value: string): (r: State)
    ensures ShippingValue(r.shipping, f) == value
    ensures forall g :: g != f ==> ShippingValue(r.shipping, g) == ShippingValue(s.shipping, g)
    ensures r.items == s.items
  {
    var a := s.shipping;
    var b := match f
      case FirstName => a.(firstName := value)
      case LastName => a.(lastName := value)
      case Street => a.(address := value)
      case Phone => a.(phone := value)
      case City => a.(city := value)
      case Zip => a.(zip := value)
      case Country => a.(country := value);
    s.(shipping := b)
  }

  /** Editing one shipping field and saving sends the order's address with
      only that field replaced and its lines untouched. */
  lemma EditOneShippingField(o: Order, f: ShippingField, value: string)
    ensures var p := BuildPayload(ChangeShipping(Initial(o), f, value));
            && ShippingValue(p.shippingAddress, f) == value
            && (forall g :: g != f ==> ShippingValue(p.shippingAddress, g) == ShippingValue(Initial(o).shipping, g))
            && p.items == BuildPayload(Initial(o)).items
  {
  }

  /** `handleItemQuantityChange(index, quantity)`: only line `index` gets
      the new quantity; an index outside the list changes nothing. */
  function ChangeQuantity(s: State, index: int, quantity: int): (r: State)
    ensures |r.items| == |s.items| && r.shipping == s.shipping
    ensures forall i :: 0 <= i < |s.items| && i != index ==> r.items[i] == s.items[i]
    ensures 0 <= index < |s.items| ==> r.items[index] == s.items[index].(quantity := quantity)
    ensures !(0 <= index < |s.items|) ==> r == s
  {
    var items := seq(|s.items|, i requires 0 <= i < |s.items| =>
                       if i == index then s.items[i].(quantity := quantity) else s.items[i]);
    assert !(0 <= index < |s.items|) ==> items == s.items;
    s.(items := items)
  }

  /** The quantity input's handler: `parseInt(value) || 1`, so text without
      digits and 0 both become 1. */
  function QuantityFromInput(value: string): (q: int)
    ensures ParseIntPrefix(value).None? ==> q == 1
    ensures ParseIntPrefix(value).Some? && ParseIntPrefix(value).value != 0 ==> q == ParseIntPrefix(value).value
    ensures q != 0
  {
    match ParseIntPrefix(value)
    case None => 1
    case Some(n) => if n == 0 then 1 else n
  }

  /** Typing a quantity's decimal numeral gives that quantity back. */
  lemma QuantityOfNumeral(n: int)
    requires n != 0
    ensures QuantityFromInput(IntToString(n)) == n
  {
    ParseIntOfIntToString(n);
  }

  /** A payload line carries only the item id and the quantity. */
  datatype PayloadItem = PayloadItem(itemId: int, quantity: int)

  datatype Payload = Payload(shippingAddress: ShippingAddress, items: seq<PayloadItem>)

  /** `handleSubmit`'s payload: the shipping address as edited and one item
      per line, in order. */
  function BuildPayload(s: State): (p: Payload)
    ensures p.shippingAddress == s.shipping
    ensures |p.items| == |s.items|
    ensures forall i :: 0 <= i < |s.items| ==>
              p.items[i].itemId == s.items[i].itemId && p.items[i].quantity == s.items[i].quantity
  {
    Payload(s.shipping, seq(|s.items|, i requires 0 <= i < |s.items| => PayloadItem(s.items[i].itemId, s.items[i].quantity)))
  }

  /** Changing one quantity and saving sends the order's lines with only
      that quantity changed. */
  lemma EditOneQuantity(o: Order, index: int, q: int)
    requires 0 <= index < |o.items|
    ensures var p := BuildPayload(ChangeQuantity(Initial(o), index, q));
            && |p.items| == |o.items|
            && p.items[index].quantity == q
            && forall i :: 0 <= i < |o.items| && i != index ==> p.items[i].quantity == o.items[i].quantity
  {
  }
}

=== FILE: use_permission.dfy ===
/** The `usePermission` hook: resource-level access with the MANAGE fallback,
    built on a membership query read from the admin store. The store declares
    no such query, so as written every call throws (`CanAccessAsWritten`);
    the intended hook takes the query as a parameter, bound to the admin
    token (`CanAccessMatchesToken`). */
module UsePermission {
  import opened Wrappers
  import opened Permissions
  import Auth
  import AdminAuthStore

  /** `canAccess(resource, action)`: the query holds for the manage code or for
      the specific code, that is, for some code that grants the action. */
  function CanAccess(hasPermission: string -> bool, resource: string, action: string): (r: bool)
    ensures r <==> exists code :: Grants(code, resource, action) && hasPermission(code)
  {
    if hasPermission(Manage(resource)) then
      assert Grants(Manage(resource), resource, action);
      true
    else if hasPermission(Code(action, resource)) then
      assert Grants(Code(action, resource), resource, action);
      true
    else false
  }

  /** `can`: the store's membership query itself. */
  function Can(hasPermission: string -> bool, p: string): (r: bool)
    ensures r == hasPermission(p)
  {
    hasPermission(p)
  }

  /** `cannot`: the negation of `can` for every code. */
  function Cannot(hasPermission: string -> bool, p: string): (r: bool)
    ensures r <==> !Can(hasPermission, p)
  {
    !hasPermission(p)
  }

  /** With membership in a held list as the query, `canAccess` is the
      vocabulary's resource rule on that list. */
  lemma CanAccessIsResourceRule(held: seq<string>, resource: string, action: string)
    ensures CanAccess(c => c in held, resource, action) == HasResourcePermission(held, resource, action)
  {
    if HasResourcePermission(held, resource, action) {
      var k :| 0 <= k < |held| && Grants(held[k], resource, action);
      assert (c => c in held)(held[k]);
    }
  }

  /** With the token's membership query, `canAccess` is `canAccessResource` on
      the same token. */
  lemma CanAccessMatchesToken(decode: Auth.Decoder, cookie: Option<string>, resource: string, action: string)
    ensures CanAccess(c => Auth.HasPermission(decode, cookie, c), resource, action)
            == Auth.CanAccessResource(decode, cookie.GetOr(""), resource, action)
  {
    var hp := c => Auth.HasPermission(decode, cookie, c);
    if Auth.CanAccessResource(decode, cookie.GetOr(""), resource, action) {
      var held := Auth.HeldPermissions(Auth.DecodeFromString(decode, cookie.GetOr(""))).value;
      var k :| 0 <= k < |held| && Grants(held[k], resource, action);
      assert hp(held[k]);
    }
  }

  /** `canAccess` as written: `hasPermission` is `undefined`, so the first
      operand of the `||` already throws, whatever the resource and action. */
  function CanAccessAsWritten(hasPermission: string -> bool, resource: string, action: string): (r: AdminAuthStore.Call<bool>)
    ensures r == AdminAuthStore.TypeError
  {
    match AdminAuthStore.CallMember("hasPermission", hasPermission(Manage(resource)))
    case TypeError => AdminAuthStore.TypeError
    case Returns(manage) =>
      if manage then AdminAuthStore.Returns(true)
      else AdminAuthStore.CallMember("hasPermission", hasPermission(Code(action, resource)))
  }

  /** `can` as written: a call of `undefined`. */
  function CanAsWritten(hasPermission: string -> bool, p: string): (r: AdminAuthStore.Call<bool>)
    ensures r == AdminAuthStore.TypeError
  {
    AdminAuthStore.CallMember("hasPermission", hasPermission(p))
  }

  /** `cannot` as written: the negation never happens, the call throws first. */
  function CannotAsWritten(hasPermission: string -> bool, p: string): (r: AdminAuthStore.Call<bool>)
    ensures r == AdminAuthStore.TypeError
  {
    match AdminAuthStore.CallMember("hasPermission", hasPermission(p))
    case TypeError => AdminAuthStore.TypeError
    case Returns(b) => AdminAuthStore.Returns(!b)
  }

  /** The discrepancy: where the token grants the action, the intended hook
      answers yes and the hook as written throws. */
  lemma CanAccessThrowsAsWritten(decode: Auth.Decoder, cookie: Option<string>, resource: string, action: string)
    requires Auth.CanAccessResource(decode, cookie.GetOr(""), resource, action)
    ensures CanAccess(c => Auth.HasPermission(decode, cookie, c), resource, action)
    ensures CanAccessAsWritten(c => Auth.HasPermission(decode, cookie, c), resource, action).TypeError?
  {
    CanAccessMatchesToken(decode, cookie, resource, action);
  }
}

=== FILE: user_form.dfy ===
/** The admin user editor: its initial state, the role toggle, the create
    checks, and the update that re-sends roles only when the set of roles
    changed. */
module UserForm {
  import opened Wrappers
  import opened Text
  import opened Selection
  import opened Sorting

  /** An admin user as the user service returns it. */
  datatype AdminUser = AdminUser(
    id: int,
    email: string,
    fullName: string,
    phone: Option<string>,
    roles: seq<string>,
    isActive: bool)

  datatype Mode = CreateMode | EditMode

  datatype Fields = Fields(email: string, password: string, fullName: string, phone: string, isActive: bool)

  datatype State = State(fields: Fields, selectedRoles: seq<string>)

  /** The initial state: the user's values where present (falsy email, name
      and phone become ""), an empty password, active unless the user says
      otherwise, and the user's roles. */
  function Initial(user: Option<AdminUser>): (s: State)
    ensures s.fields.password == ""
    ensures user.None? ==> s == State(Fields("", "", "", "", true), [])
    ensures user.Some? ==>
              s.fields.email == user.value.email && s.fields.fullName == user.value.fullName
              && s.fields.phone == OptOrElse(user.value.phone, "")
              && s.fields.isActive == user.value.isActive
              && s.selectedRoles == user.value.roles
  {
    match user
    case None => State(Fields("", "", "", "", true), [])
    case Some(u) => State(Fields(u.email, "", u.fullName, OptOrElse(u.phone, ""), u.isActive), u.roles)
  }

  /** `handleRoleToggle`. */
  function ToggleRole(s: State, role: string): (r: State)
    ensures role in r.selectedRoles <==> role !in s.selectedRoles
    ensures forall x :: x != role ==> (x in r.selectedRoles <==> x in s.selectedRoles)
    ensures role !in s.selectedRoles ==> r.selectedRoles == s.selectedRoles + [role]
    ensures role in s.selectedRoles ==> Sublist(r.selectedRoles, s.selectedRoles) && |r.selectedRoles| < |s.selectedRoles|
    ensures r.fields == s.fields
  {
    s.(selectedRoles := Toggle(s.selectedRoles, role))
  }

  datatype CreatePayload = CreatePayload(
    email: string, password: string, fullName: string, phone: string, isActive: bool, roles: seq<string>)

  /** The update payload has no email field; the password is present only
      when one was typed. */
  datatype UpdatePayload = UpdatePayload(fullName: string, phone: string, isActive: bool, password: Option<string>)

  datatype Outcome =
    | MissingFields
    | NoRoleSelected
    | UserNotFound
    | CreateUser(create: CreatePayload)
      /** `roles` is the role update, sent only when the roles changed. */
    | UpdateUser(id: int, update: UpdatePayload, roles: Option<seq<string>>)

  /** `selectedRoles.sort()` and `user.roles.sort()` compared as JSON: the
      lists differ as collections. */
  function RolesChanged(selected: seq<string>, original: seq<string>): (r: bool)
    ensures r <==> multiset(selected) != multiset(original)
  {
    SortEqualIffSameElements(selected, original);
    SortStrings(selected) != SortStrings(original)
  }

  /** `handleSubmit`. Creating checks, in order, that email, password and
      full name are filled in and that a role is selected; editing needs the
      user, sends the basic fields (and the password only when typed), and
      sends the roles, sorted in place by the comparison, only when they
      changed. */
  function Submit(mode: Mode, user: Option<AdminUser>, s: State): (r: Outcome)
    ensures mode.CreateMode? && (s.fields.email == "" || s.fields.password == "" || s.fields.fullName == "")
            ==> r == MissingFields
    ensures mode.CreateMode? && r.CreateUser? ==> |s.selectedRoles| > 0 && r.create.roles == s.selectedRoles
    ensures r.CreateUser? ==> r.create == CreatePayload(s.fields.email, s.fields.password, s.fields.fullName,
                                                         s.fields.phone, s.fields.isActive, s.selectedRoles)
    ensures r.UpdateUser? ==> r.update.fullName == s.fields.fullName && r.update.phone == s.fields.phone
                              && r.update.isActive == s.fields.isActive
    ensures mode.CreateMode? ==> (r.CreateUser? <==>
              s.fields.email != "" && s.fields.password != "" && s.fields.fullName != "" && |s.selectedRoles| > 0)
    ensures mode.EditMode? ==> (r == UserNotFound <==> user.None?)
    ensures r.UpdateUser? ==> mode.EditMode? && user.Some? && r.id == user.value.id
    ensures r.UpdateUser? ==> (r.update.password.Some? <==> s.fields.password != "")
    ensures r.UpdateUser? && r.update.password.Some? ==> r.update.password.value == s.fields.password
    ensures r.UpdateUser? ==> (r.roles.Some? <==> multiset(s.selectedRoles) != multiset(user.value.roles))
    ensures r.UpdateUser? && r.roles.Some? ==>
              multiset(r.roles.value) == multiset(s.selectedRoles) && SortedStrings(r.roles.value)
  {
    var f := s.fields;
    match mode
    case CreateMode =>
      if f.email == "" || f.password == "" || f.fullName == "" then MissingFields
      else if |s.selectedRoles| == 0 then NoRoleSelected
      else CreateUser(CreatePayload(f.email, f.password, f.fullName, f.phone, f.isActive, s.selectedRoles))
    case EditMode =>
      match user
      case None => UserNotFound
      case Some(u) =>
        var pw := if f.password != "" then Some(f.password) else None;
        var roles := if RolesChanged(s.selectedRoles, u.roles) then Some(SortStrings(s.selectedRoles)) else None;
        UpdateUser(u.id, UpdatePayload(f.fullName, f.phone, f.isActive, pw), roles)
  }

  /** Reordering the selected roles alone never sends a role update. */
  lemma ReorderedRolesNotSent(u: AdminUser, s: State)
    requires multiset(s.selectedRoles) == multiset(u.roles)
    ensures Submit(EditMode, Some(u), s).roles.None?
  {
  }

  /** Toggling a role on and off again before saving sends no role update
      when the user did not have it. */
  lemma ToggleOnOffSendsNoRoles(u: AdminUser, role: string)
    requires role !in u.roles
    ensures Submit(EditMode, Some(u), ToggleRole(ToggleRole(Initial(Some(u)), role), role)).roles.None?
  {
    ToggleTwice(u.roles, role);
  }
}

/** The admin user creation dialog, a schema-validated variant of the
    editor's create mode. */
module CreateUserForm {
  import opened Wrappers
  import opened Selection

  datatype Values = Values(fullName: string, email: string, password: string, phone: string, isActive: bool, roles: seq<string>)

  const Defaults: Values := Values("", "", "", "", true, [])

  /** The schema: full name at least 3 characters, an email address,
      password at least 6 characters and at least one role. The email
      syntax check belongs to the validation library and is a parameter. */
  predicate Valid(isEmail: string -> bool, v: Values) {
    |v.fullName| >= 3 && isEmail(v.email) && |v.password| >= 6 && |v.roles| >= 1
  }

  /** `handleRoleToggle`. */
  function ToggleRole(v: Values, role: string): (r: Values)
    ensures role in r.roles <==> role !in v.roles
    ensures forall x :: x != role ==> (x in r.roles <==> x in v.roles)
    ensures role !in v.roles ==> r.roles == v.roles + [role]
    ensures role in v.roles ==> Sublist(r.roles, v.roles) && |r.roles| < |v.roles|
    ensures r == v.(roles := r.roles)
  {
    v.(roles := Toggle(v.roles, role))
  }

  /** The payload sent for valid data: the data with a missing phone sent
      as "" (the phone input always holds a string here). */
  function Submit(isEmail: string -> bool, v: Values): (r: Option<Values>)
    ensures r.Some? <==> Valid(isEmail, v)
    ensures r.Some? ==> r.value == v
  {
    if Valid(isEmail, v) then Some(v) else None
  }

  /** The blank defaults are never submitted, whatever the email check
      says: the name, password and roles are too short. */
  lemma DefaultsRejected(isEmail: string -> bool)
    ensures Submit(isEmail, Defaults).None?
  {
  }

  /** Picking a first role on an otherwise valid form makes it
      submittable. */
  lemma FirstRoleEnables(isEmail: string -> bool, v: Values, role: string)
    requires v.roles == [] && |v.fullName| >= 3 && isEmail(v.email) && |v.password| >= 6
    ensures Submit(isEmail, ToggleRole(v, role)).Some?
  {
    assert role in ToggleRole(v, role).roles;
  }
}

=== FILE: wrappers.dfy ===
/** Optional values, standing in for the `undefined` / `null` cases of the
    TypeScript sources (`x?: T`, `T | null`). */
module Wrappers {

  datatype Option<+T> = None | Some(value: T) {

    /** The `x ?? d` operator: the value when present, otherwise `d`. */
    function GetOr(d: T): T {
      match this
      case Some(v) => v
      case None => d
    }
  }
}
